=== FILE: README.md ===
# Zynor field-service core in Dafny

Zynor keeps technicians, customers and jobs for a field-service business.
It has a Next.js front end and a FastAPI back end. This project models the
logic at its core as pure Dafny functions over sequences, strings, records and
id-keyed maps, and proves what that logic promises.

The front end:

- **Technician list** (`TechnicianList`, `Csv`). The list page runs a
  pipeline: search filter, skill filter, status filter, stable case-insensitive
  sort, page slice. Around it sit the sort-header toggle, the page-reset rules,
  the skill drop-down options and the CSV export text.
- **API client** (`HttpClient`, `ResourceApi`, `Json`).
  - The request interceptor adds the `/api` prefix and the bearer header.
  - The resource calls retry once on a 404.
  - Replies are normalised by their shape: a bare array, `items`, `results`,
    or `{item}`.
  - The network is a function from (request, attempt number) to a reply.
- **Forms** (`Forms`, `EmailShape`). These are the customer, technician and
  job forms: required fields, the e-mail expression, the phone digit count,
  comma-separated skills, trimming and empty-to-null rules, plus the local list
  patches after create, update and delete. The e-mail expression
  `^[^\s@]+@[^\s@]+\.[^\s@]+$` is proved equal to a direct scan.

The back end:

- **Technician validators** (`TechnicianSchemas`): the phone pattern, the
  skill-list cleaner, and the looser PATCH rules for names, phone and skills.
- **Services** (`Store`, `TechniciansService`, `CustomersService`,
  `JobsService`). A table is a `map<nat, Row>`. Each service call returns the
  new map, or a `Failure`: either an HTTP error or a constraint violation.
  - The technician commit enforces the table's not-null columns and its unique
    e-mail.
  - Create, full update, PATCH and delete are each proved to preserve that
    invariant.

Shared pieces:

- `Text`: whitespace, trim, lower-case, split, join, code-point order, and
  decimal rendering.
- `Seqs`: filter, subsequence, and de-duplication by key.
- `Sorting`: stable insertion sort by a string key.

## Model

| member | source | states |
|---|---|---|
| Text.Trim | apps/web/app/customers/page.tsx:222-227 | the trimmed text is no longer than the input, is empty exactly when the input is all whitespace, and otherwise starts and ends with a non-space |
| Text.TrimSplits | apps/api/src/zynor_api/services/customers_service.py:18 | the input is some whitespace, then the trimmed text, then some whitespace |
| Text.TrimUnique | apps/api/src/zynor_api/services/customers_service.py:18 | conversely, whitespace around a text with non-space ends is exactly what trimming removes |
| Text.TrimIdempotent | apps/api/src/zynor_api/services/customers_service.py:47 | stripping a stripped string changes nothing |
| Text.LowerIdempotent | apps/api/src/zynor_api/services/technicians_service.py:17 | lower-casing twice is lower-casing once |
| Text.SplitJoin | apps/web/app/technicians/new/page.tsx:79-82 | no piece of a split contains the separator, and joining the pieces with it gives the string back |
| Text.SplitUnique | apps/web/app/technicians/new/page.tsx:79-82 | conversely, separator-free pieces joined with the separator split back into the same pieces |
| Text.DecimalRoundTrip | apps/web/app/jobs/page.tsx:73 | the decimal text of a number reads back as the same number |
| Seqs.Filter | apps/web/app/technicians/page.tsx:42-62 | a filter keeps, in order, exactly the elements that pass, each as many times as it occurs in the input, and no other element |
| Seqs.CountIsMultiplicity | apps/web/app/technicians/page.tsx:42-62 | the occurrence count the filter contracts speak of is the multiplicity of the element in the multiset of the sequence |
| Seqs.DedupeBy | apps/api/src/zynor_api/routers/technicians/schemas.py:35-43 | de-duplication keeps a subsequence of the input whose keys are pairwise different and not among those already seen |
| Seqs.DedupeByOrder | apps/api/src/zynor_api/routers/technicians/schemas.py:35-43 | the kept elements are read off the input at exactly the positions that are first with an unseen key, in increasing order, so the first occurrences keep their input order |
| Seqs.DedupeByDetermined | apps/api/src/zynor_api/routers/technicians/schemas.py:35-43 | that position description pins the result: any list read off at those positions is the de-duplicated list |
| Seqs.DedupeByKeepsFirst | apps/api/src/zynor_api/routers/technicians/schemas.py:40-43 | every kept element is the first one with its key |
| Seqs.DedupeByComplete | apps/api/src/zynor_api/routers/technicians/schemas.py:40-43 | no key is lost: every key in the input has a kept element |
| Seqs.DedupeByFixpoint | apps/api/src/zynor_api/routers/technicians/schemas.py:40-43 | a list whose keys are already distinct is returned unchanged |
| Sorting.SortBy | apps/web/app/technicians/page.tsx:64-95 | the sort gives a permutation ordered by the key, and equal keys keep their input order (stability) |
| TechnicianList.FullNameCases | apps/web/app/technicians/page.tsx:71-90 | the full name is the non-empty name parts joined by one space |
| TechnicianList.SearchFilter | apps/web/app/technicians/page.tsx:42-52 | an empty term keeps all; otherwise a technician is kept iff the lower-cased term occurs in the lower-cased full name, e-mail or phone; input order and the number of copies are kept |
| TechnicianList.SkillFilter | apps/web/app/technicians/page.tsx:53-56 | no skill selected keeps all; otherwise a technician is kept iff its skill list contains the skill verbatim; input order and the number of copies are kept |
| TechnicianList.StatusFilter | apps/web/app/technicians/page.tsx:57-62 | "active" keeps all but `is_active == false`; "inactive" keeps only those; any other value keeps all; input order and the number of copies are kept |
| TechnicianList.FilterPipeline | apps/web/app/technicians/page.tsx:42-62 | the three stages together keep, as a subsequence, exactly the technicians passing all three, each as many times as in the input |
| TechnicianList.SortTechnicians | apps/web/app/technicians/page.tsx:64-95 | with no field the list is unchanged; with a field the result is a permutation ordered by the lower-cased key in the chosen direction, stable on equal keys |
| TechnicianList.HandleSort | apps/web/app/technicians/page.tsx:24-32 | clicking the current field flips the direction; clicking another field selects it ascending |
| TechnicianList.HandleSortTwice | apps/web/app/technicians/page.tsx:24-32 | two clicks on the current field restore the direction |
| TechnicianList.TotalPages | apps/web/app/technicians/page.tsx:131-132 | the page count is the ceiling of rows over rows-per-page |
| TechnicianList.PageRows | apps/web/app/technicians/page.tsx:133-135 | page p shows rows (p-1)*perPage up to p*perPage, clipped to the list |
| TechnicianList.PagesUpToIsPrefix | apps/web/app/technicians/page.tsx:131-135 | the first k pages together are the first k*perPage rows |
| TechnicianList.PagesReassemble | apps/web/app/technicians/page.tsx:131-135 | pages 1 to the page count, concatenated, reproduce the sorted list |
| TechnicianList.PageBeyondLastIsEmpty | apps/web/app/technicians/page.tsx:131-135 | a page past the last one is empty |
| TechnicianList.Step | apps/web/app/technicians/page.tsx:221-237 | Clear Filters keeps the page; Reset sort and a new rows-per-page go to page 1; Prev and Next move one page within range (corrected Next guard) |
| TechnicianList.NavigationStaysInRange | apps/web/app/technicians/page.tsx:354-378 | with the corrected guard, paging actions keep the page between 1 and the page count |
| TechnicianList.StepKeepsValid | apps/web/app/technicians/page.tsx:342-345 | every action keeps the page at least 1 and the rows-per-page one of 5, 10 and 25 |
| TechnicianList.NextPageAsWritten | apps/web/app/technicians/page.tsx:372-376 | Next as written is blocked only when the page equals the page count |
| TechnicianList.NextPageAsWrittenPassesEnd | apps/web/app/technicians/page.tsx:374 | with zero pages, or when already past the last page, Next as written still advances |
| TechnicianList.Render | apps/web/app/technicians/page.tsx:131-135 | the shown rows are exactly the requested page of the filtered list in the chosen order, the page count is the filtered length divided by rows-per-page rounded up, and the page holds at most rows-per-page technicians |
| TechnicianList.FilterChangeCanEmptyThePage | apps/web/app/technicians/page.tsx:221-225 | narrowing the search does not reset the page, so the current page can show nothing |
| TechnicianList.SkillOptions | apps/web/app/technicians/page.tsx:192-205 | the options are exactly the non-empty skills of any technician, strictly increasing, so sorted and without repeats |
| TechnicianList.SortedDistinct | apps/web/app/technicians/page.tsx:192-205 | sorting a set of strings gives a strictly increasing list with the same members |
| Csv.CsvRow | apps/web/app/technicians/page.tsx:97-117 | a row has five cells, and the last is "Active" exactly when `is_active` is not false, else "Inactive" |
| Csv.ReadTable | apps/web/app/technicians/page.tsx:97-117 | reading the encoded text back (quote doubling as in section 2 of RFC 4180, rows joined by "\n") gives the table |
| Csv.UnquoteEscaped | apps/web/app/technicians/page.tsx:97-117 | a cell with its inner quotes doubled reads back as the original value |
| Csv.ExportCsv | apps/web/app/technicians/page.tsx:97-117 | an empty list gives no file; otherwise the file reads back as the header row followed by one row per technician, in order |
| HttpClient.NewRequest | apps/web/lib/api/client.ts:11-19 | every request carries the JSON Accept and Content-Type headers and the 10-second timeout |
| HttpClient.PrefixUrl | apps/web/lib/api/client.ts:25-31 | a missing or empty URL is unchanged; any other URL ends up starting with `/api/` or `http`, and keeps the original as a suffix |
| HttpClient.PrefixUrlIdempotent | apps/web/lib/api/client.ts:25-31 | prefixing an already prefixed URL changes nothing |
| HttpClient.PrefixUrlCollapses | apps/web/lib/api/client.ts:25-31 | a path `/x` and its fallback `/api/x` both become `/api/x` |
| HttpClient.PrefixUrlEdgeCases | apps/web/lib/api/client.ts:25-31 | `/api` without a slash becomes `/api/api`; a relative `jobs` becomes `/api/jobs`; anything starting `http` is left alone |
| HttpClient.AttachAuth | apps/web/lib/api/client.ts:33-39 | a non-empty token sets the Authorization header to "Bearer " + token; a missing or empty token leaves the headers as they were; no other header changes |
| HttpClient.InterceptRequest | apps/web/lib/api/client.ts:23-41 | the request interceptor gives the URL its base prefix, attaches the bearer token to the headers, and changes nothing else |
| HttpClient.InterceptRequestIdempotent | apps/web/lib/api/client.ts:23-41 | running the interceptor twice is running it once |
| HttpClient.Settle | apps/web/lib/api/client.ts:44-52 | a 2xx reply passes its body through; every other reply, 401 included, is rejected with its status unchanged |
| HttpClient.WithFallback | apps/web/lib/api/technicians.ts:22-32 | exactly one retry, at the fallback URL, and only when the first attempt failed with 404; otherwise the first outcome stands |
| HttpClient.FallbackIsSameRequest | apps/web/lib/api/client.ts:25-31 | after interception the retry to `/api/x` is the same request as the first one to `/x` |
| HttpClient.StatelessFallbackRepeats404 | apps/web/lib/api/technicians.ts:22-32 | against a server that answers the same each time, a 404 is reported after two requests |
| ResourceApi.CollectionPath | apps/web/lib/api/technicians.ts:22-32 | every collection path starts with `/` and not with `/api/` |
| ResourceApi.ItemPath | apps/web/lib/api/technicians.ts:51-75 | an item path starts with the collection path and a slash, and so is also not yet prefixed |
| ResourceApi.NormaliseList | apps/web/lib/api/technicians.ts:37-48 | a null body fails; a bare array is returned as is; an object with an `items` array gives that array; otherwise an object with a `results` array gives that; any other body gives `[]` |
| ResourceApi.NormaliseListShapes | apps/web/lib/api/customers.ts:43-54 | for any page envelope: an `items` array gives the same list as the bare array, whatever else the object holds; `items` wins over `results`; a lone `results` array gives its list; an object with neither array gives `[]` |
| ResourceApi.UnwrapFetched | apps/web/lib/api/technicians.ts:68-74 | a get returns the `item` field whenever it is truthy and object-typed (arrays included), and the body itself otherwise |
| ResourceApi.UnwrapSaved | apps/web/lib/api/technicians.ts:114-118 | create and update unwrap any truthy `item`, else return the body |
| ResourceApi.UnwrapInvertsWrap | apps/web/lib/api/jobs.ts:136-142 | unwrapping `{item: x}` gives x for an object x, and a body without `item` is returned as is |
| ResourceApi.UnwrappersDisagreeOnScalarItem | apps/web/lib/api/jobs.ts:87-91 | a string `item` is unwrapped by create and update but not by get |
| ResourceApi.CallsReachApiPath | apps/web/lib/api/client.ts:25-31 | every resource path and its fallback reach the same `/api` URL |
| ResourceApi.ListAll | apps/web/lib/api/technicians.ts:15-49 | the list call normalises the first reply, retries `/api/...` only on 404, and passes every other error through |
| ResourceApi.FetchOne | apps/web/lib/api/technicians.ts:51-75 | get by id falls back only on 404 and unwraps an object `item` |
| ResourceApi.CreateOne | apps/web/lib/api/technicians.ts:95-119 | create falls back only on 404 and unwraps any truthy `item` |
| ResourceApi.UpdateOne | apps/web/lib/api/technicians.ts:121-144 | update sends the same id and payload to the fallback only on 404 and unwraps any truthy `item` |
| ResourceApi.DeleteOne | apps/web/lib/api/technicians.ts:146-157 | delete falls back only on 404 and yields no value on success |
| ResourceApi.DeleteOfMissingFails | apps/web/lib/api/customers.ts:132-143 | a delete that gets 404 on both paths reports the 404 |
| ResourceApi.ListOfMissingRouteFails | apps/web/lib/api/jobs.ts:40-51 | a list whose route is missing on both paths reports the 404 |
| Json.NullIsTheFalsyObject | apps/web/lib/api/technicians.ts:68-74 | among object-typed values, null is the only falsy one, which is what the "truthy object" test of `item` rules out |
| EmailShape.EmailShapedIffRegex | apps/web/app/customers/page.tsx:209-211 | the expression matches exactly the strings with no whitespace, one `@` after a non-empty local part, and a dot strictly inside the domain |
| EmailShape.MatchIsTrimmed | apps/web/app/customers/page.tsx:209-211 | a matching address has no surrounding whitespace |
| Forms.TrimOrNull | apps/web/app/customers/page.tsx:222-227 | `trim() or null`: null exactly for blank text, otherwise the trimmed non-empty text |
| Forms.CustomerErrors | apps/web/app/customers/page.tsx:206-217 | "Name is required." exactly for a blank name; "Enter a valid email address." exactly for a non-blank e-mail the expression rejects |
| Forms.SubmitCustomer | apps/web/app/customers/page.tsx:199-237 | any error blocks the create call; otherwise the payload has the trimmed name and trimmed-or-null e-mail, phone and address |
| Forms.CustomerPayloadValid | apps/web/app/customers/page.tsx:222-227 | a sent customer has a non-empty trimmed name, an e-mail only if it matched untrimmed, and no empty phone or address |
| Forms.PaddedEmailRejected | apps/web/app/customers/page.tsx:209-211 | an address with a leading space fails, because the untrimmed value is tested |
| Forms.DigitCountOfTrim | apps/web/app/technicians/new/page.tsx:56-60 | trimming the phone does not change its digit count |
| Forms.TechnicianErrors | apps/web/app/technicians/new/page.tsx:45-72 | blank names, a blank or non-matching e-mail, a phone with 1 to 7 digits, and blank skills text are exactly the errors, with their messages |
| Forms.ParseSkills | apps/web/app/technicians/new/page.tsx:79-90 | parsed skills are the trimmed comma pieces, non-empty, in order, each as often as it occurs |
| Forms.ParseSkillsOfJoined | apps/web/app/technicians/new/page.tsx:79-90 | clean skills joined by "," or ", " parse back to the same list |
| Forms.OnlyCommasSendsNoSkills | apps/web/app/technicians/new/page.tsx:79-90 | ",,," parses to no skills |
| Forms.SubmitTechnician | apps/web/app/technicians/new/page.tsx:45-92 | any error blocks the create call; otherwise the names and e-mail are trimmed, the phone is trimmed or omitted, `is_active` is the checkbox, and skills are omitted when none parse |
| Forms.TechnicianPayloadValid | apps/web/app/technicians/new/page.tsx:79-92 | a sent technician has non-empty names, a matching e-mail, a phone with 0 or at least 8 digits, and clean skills |
| Forms.Unsigned | apps/web/app/jobs/page.tsx:367-373 | a numeric reading exists exactly for a non-empty run of digits |
| Forms.ToNumber | apps/web/app/jobs/page.tsx:367-373 | `Number` of blank text is 0 |
| Forms.ToNumberOfDecimal | apps/web/app/jobs/page.tsx:73 | `Number(String(n))` is n |
| Forms.JobErrors | apps/web/app/jobs/page.tsx:364-379 | "Title is required." exactly for a blank title; a customer ID that is not a positive number is an error, "Customer ID is required." when empty and the positive-number message otherwise |
| Forms.IsoOrNull | apps/web/app/jobs/page.tsx:384-396 | an empty date is null; any other date is rendered, or the submit throws |
| Forms.SubmitJob | apps/web/app/jobs/page.tsx:364-405 | errors block the call; an unparsable date throws; otherwise the title is trimmed, the description and technician ID are trimmed or null, and the status is trimmed or "NEW" |
| Forms.JobStatusNeverBlank | apps/web/app/jobs/page.tsx:384-396 | a sent status is never empty, and is "NEW" for blank status text |
| Forms.First16 | apps/web/app/jobs/page.tsx:71-72 | the seeded date is the first 16 characters of the stored one |
| Forms.DateField | apps/web/app/jobs/page.tsx:71-72 | a missing or empty date seeds "", otherwise its first 16 characters |
| Forms.SeedEdit | apps/web/app/jobs/page.tsx:66-77 | the edit form starts with the job's values: status defaulting to "NEW", description and technician ID to "", dates cut to 16 characters, and a customer ID text that reads back as the job's number |
| Forms.EditPayload | apps/web/app/jobs/page.tsx:100-108 | the update payload trims as create does; an empty customer ID is left out; an unparsable date throws |
| Forms.SaveUnchangedEdit | apps/web/app/jobs/page.tsx:66-108 | opening a tidy job and saving it unchanged sends the job's own values |
| Forms.TidyRoundTrip | apps/web/app/jobs/page.tsx:100-108 | a tidy optional text survives seeding as "" and trimming back to null |
| Forms.RemoveById | apps/web/app/jobs/page.tsx:86 | removal drops every entry with that id and keeps, in order, each entry with another id as many times as it was there |
| Forms.ReplaceById | apps/web/app/jobs/page.tsx:111-113 | replacement keeps the length, swaps in every entry with the updated id, and leaves the rest alone |
| Forms.ReplaceThenRemove | apps/web/app/jobs/page.tsx:79-113 | removing an id after replacing it is the same as removing it |
| Forms.CustomerDeleteMessage | apps/web/app/customers/page.tsx:46-49 | the shown message is the server's detail if non-empty; with no detail it is the error message if non-empty; otherwise "Failed to delete customer." |
| Forms.DeleteCustomerFlow | apps/web/app/customers/page.tsx:33-54 | nothing happens without confirmation; success drops every entry with that id, keeps each other entry as many times as before, and clears the message; failure keeps the list and shows the message |
| Forms.DeleteJobFlow | apps/web/app/jobs/page.tsx:79-93 | nothing happens without confirmation; success drops every job with that id and keeps each other job as many times as before; failure keeps the list and alerts |
| Forms.CreateJobFlow | apps/web/app/jobs/page.tsx:398-405 | a created job is appended at the end; failure keeps the list and shows "Failed to create job" |
| Forms.UpdateJobFlow | apps/web/app/jobs/page.tsx:95-119 | a successful save replaces the jobs with the saved id; a bad date or a failed save keeps the list and shows "Failed to update job" |
| TechnicianSchemas.PhoneShapedIffPattern | apps/api/src/zynor_api/routers/technicians/schemas.py:7 | a direct scan accepts exactly what `^\+?[0-9\-()\s]{7,20}$` matches |
| TechnicianSchemas.ValidatePhone | apps/api/src/zynor_api/routers/technicians/schemas.py:18-25 | null or "" becomes null; a phone matching the pattern is kept as given; anything else is "Invalid phone format" |
| TechnicianSchemas.ValidatePhoneIdempotent | apps/api/src/zynor_api/routers/technicians/schemas.py:18-25 | validating an accepted phone again gives the same result |
| TechnicianSchemas.ValidateSkills | apps/api/src/zynor_api/routers/technicians/schemas.py:27-43 | more than 20 raw entries are rejected; a stripped entry outside 1..50 characters is rejected; otherwise the result is a subsequence of the stripped entries, no longer than the input, stripped, with no two equal ignoring case |
| TechnicianSchemas.ValidateSkillsValue | apps/api/src/zynor_api/routers/technicians/schemas.py:34-43 | with at most 20 entries, each 1 to 50 characters once stripped, the accepted list is the stripped entries de-duplicated ignoring case |
| TechnicianSchemas.ValidateSkillsKeepsFirst | apps/api/src/zynor_api/routers/technicians/schemas.py:40-43 | with at most 20 entries, each 1 to 50 characters once stripped, the kept skills are the stripped entries that come first with their lower-cased spelling, each once, in input order |
| TechnicianSchemas.ValidateSkillsComplete | apps/api/src/zynor_api/routers/technicians/schemas.py:40-43 | every stripped entry has a kept skill equal to it ignoring case |
| TechnicianSchemas.ValidateSkillsIdempotent | apps/api/src/zynor_api/routers/technicians/schemas.py:27-43 | validating an accepted skill list again returns it unchanged |
| TechnicianSchemas.CleanSkillsRevalidate | apps/api/src/zynor_api/routers/technicians/schemas.py:27-43 | a list of at most 20 stripped, 1–50 character skills with no two equal ignoring case is accepted exactly as it is |
| TechnicianSchemas.PatchName | apps/api/src/zynor_api/routers/technicians/schemas.py:107-117 | a PATCH name is stripped; blank is "Must not be empty"; over 80 characters is "Must be ≤ 80 characters" |
| TechnicianSchemas.PatchNameIdempotent | apps/api/src/zynor_api/routers/technicians/schemas.py:107-117 | an accepted name passes again unchanged |
| TechnicianSchemas.PatchPhone | apps/api/src/zynor_api/routers/technicians/schemas.py:119-127 | a PATCH phone is stripped and only its length is checked: over 25 is "Phone too long" |
| TechnicianSchemas.PatchPhoneIdempotent | apps/api/src/zynor_api/routers/technicians/schemas.py:119-127 | an accepted phone passes again unchanged |
| TechnicianSchemas.PatchSkills | apps/api/src/zynor_api/routers/technicians/schemas.py:129-149 | blank entries are dropped; a stripped entry over 40 characters is rejected; otherwise exact repeats are dropped, keeping order |
| TechnicianSchemas.CreateSkillsFoldCase | apps/api/src/zynor_api/routers/technicians/schemas.py:35-43 | create keeps only "HVAC" of "HVAC" and "hvac" |
| TechnicianSchemas.PatchSkillsValue | apps/api/src/zynor_api/routers/technicians/schemas.py:129-149 | when no stripped entry is over 40 characters, the result is the exact de-duplication of the non-empty stripped entries |
| TechnicianSchemas.PatchSkillsKeepsFirst | apps/api/src/zynor_api/routers/technicians/schemas.py:142-149 | when no stripped entry is over 40 characters, the stored skills are the first occurrences of each spelling among the non-empty stripped entries, in input order |
| TechnicianSchemas.PatchSkillsComplete | apps/api/src/zynor_api/routers/technicians/schemas.py:142-149 | every non-empty stripped entry is in the result |
| TechnicianSchemas.CleanPatchSkillsRevalidate | apps/api/src/zynor_api/routers/technicians/schemas.py:129-149 | a clean list passes PATCH validation unchanged |
| TechnicianSchemas.PatchSkillsIdempotent | apps/api/src/zynor_api/routers/technicians/schemas.py:129-149 | validating an accepted PATCH list again gives the same list |
| TechnicianSchemas.PatchSkillsKeepCase | apps/api/src/zynor_api/routers/technicians/schemas.py:142-149 | PATCH keeps both "HVAC" and "hvac" |
| TechnicianSchemas.BlankSkillDiffers | apps/api/src/zynor_api/routers/technicians/schemas.py:36-39 | a blank skill is an error at create but is dropped under PATCH |
| Store.Update | apps/api/src/zynor_api/services/customers_service.py:38-62 | update of a missing id is 404; otherwise that row becomes the changed row, the key set is the same and every other row stays |
| Store.Delete | apps/api/src/zynor_api/services/customers_service.py:65-71 | delete of a missing id is 404; otherwise exactly that row goes and the others stay |
| Store.DeleteTwiceNotFound | apps/api/src/zynor_api/services/technicians_service.py:190-196 | deleting the same id again is 404 |
| Store.DeleteCommutes | apps/api/src/zynor_api/services/jobs_service.py:75-81 | deleting two different rows in either order gives the same table |
| TechniciansService.Commit | apps/api/src/zynor_api/models/technician.py:10-12 | a write succeeds exactly when both names and the e-mail are present and no other row has the e-mail; then only that row changes |
| TechniciansService.CommitConsistent | apps/api/src/zynor_api/models/technician.py:10-12 | a successful write keeps names and e-mail present and e-mails unique |
| TechniciansService.NewTechnician | apps/api/src/zynor_api/services/technicians_service.py:14-25 | create strips the names, lower-cases the e-mail, stores a phone only if not null and not "", skills only if given, and the caller as creator and editor |
| TechniciansService.CreateTechnician | apps/api/src/zynor_api/services/technicians_service.py:13-35 | create adds exactly the new row, unless the lower-cased e-mail is in use, which is a constraint violation |
| TechniciansService.CreateConsistent | apps/api/src/zynor_api/services/technicians_service.py:27-35 | create keeps the table consistent |
| TechniciansService.CreateCaseInsensitiveEmail | apps/api/src/zynor_api/services/technicians_service.py:17 | an address whose lower-cased form is already stored is refused at create |
| TechniciansService.UpdatedRow | apps/api/src/zynor_api/services/technicians_service.py:121-137 | a full update changes the e-mail and phone only when truthy and different, always overwrites names and the active flag, and sets skills to the given list or [] |
| TechniciansService.UpdateWith | apps/api/src/zynor_api/services/technicians_service.py:108-142 | an unknown id is 404; a changed e-mail held by another row is 409 and is checked first; a changed phone held by another row is 409; with no conflict the commit of the updated row is the result |
| TechniciansService.UpdateTechnicianAsWritten | apps/api/src/zynor_api/services/technicians_service.py:108-142 | as written, every 409 of a full update, e-mail or phone, carries "Email already in use" |
| TechniciansService.UpdateTechnician | apps/api/src/zynor_api/services/technicians_service.py:108-142 | with the corrected message, a phone conflict under an unchanged or free e-mail is 409 "Phone already in use" |
| TechniciansService.PhoneConflictReportedAsEmail | apps/api/src/zynor_api/services/technicians_service.py:123-131 | as written, a phone conflict with an unchanged e-mail is reported as "Email already in use" |
| TechniciansService.ConflictDetailNamesField | apps/api/src/zynor_api/services/technicians_service.py:113-131 | with the corrected message, each 409 detail names the field actually in conflict |
| TechniciansService.UpdateConsistent | apps/api/src/zynor_api/services/technicians_service.py:113-131 | a full update keeps e-mails unique, and keeps phones unique when they were |
| TechniciansService.UpdateNullNameFailsAtCommit | apps/api/src/zynor_api/services/technicians_service.py:133-141 | a null first name passes the checks and fails at the database |
| TechniciansService.SuppliedKeys | apps/api/src/zynor_api/services/technicians_service.py:160-164 | the dumped keys are all whitelisted, and are empty exactly when no field is supplied |
| TechniciansService.UnsupportedDetail | apps/api/src/zynor_api/services/technicians_service.py:164-169 | the 422 detail is "Unsupported field(s): " followed by the keys sorted and joined with ", " |
| TechniciansService.Applied | apps/api/src/zynor_api/services/technicians_service.py:171-172 | each supplied field is set to its value, null included, and every other field is kept |
| TechniciansService.AppliedIdempotent | apps/api/src/zynor_api/services/technicians_service.py:171-172 | applying a patch twice is applying it once |
| TechniciansService.PatchFailure | apps/api/src/zynor_api/services/technicians_service.py:177-185 | a constraint violation becomes 409 when it concerns the e-mail and 400 otherwise, both with "Email already in use" |
| TechniciansService.PatchTechnician | apps/api/src/zynor_api/services/technicians_service.py:155-187 | unknown id is 404; no supplied field is 422 "No valid fields to update"; once the id is known and some field is supplied, the result is the commit of the patched row; on success the row gets the supplied fields, the update time and the editor, and every other row is unchanged |
| TechniciansService.Patched | apps/api/src/zynor_api/services/technicians_service.py:171-175 | the patched row carries the request time and the editor, and apart from those two is the patch applied to the row |
| TechniciansService.PatchCommit | apps/api/src/zynor_api/services/technicians_service.py:177-185 | the PATCH commit succeeds exactly when the table commit does, with the same table, and its failures are the translated constraint violations |
| TechniciansService.NoUnsupportedKeys | apps/api/src/zynor_api/services/technicians_service.py:164-165 | a parsed patch's keys contain nothing outside the whitelist |
| TechniciansService.PatchCommitFailure | apps/api/src/zynor_api/services/technicians_service.py:177-185 | once past the checks, a PATCH can fail only with the e-mail detail |
| TechniciansService.PatchNeverUnsupported | apps/api/src/zynor_api/services/technicians_service.py:164-169 | a parsed patch never hits the unsupported-field error |
| TechniciansService.PatchConsistent | apps/api/src/zynor_api/services/technicians_service.py:171-187 | a PATCH keeps the table consistent |
| TechniciansService.PatchIgnoresPhoneUniqueness | apps/api/src/zynor_api/services/technicians_service.py:155-187 | PATCH can give two technicians the same phone |
| TechniciansService.DeleteTechnician | apps/api/src/zynor_api/services/technicians_service.py:190-196 | as Store.Delete over the technicians table: a missing id is 404; otherwise exactly that row goes |
| TechniciansService.DeleteConsistent | apps/api/src/zynor_api/services/technicians_service.py:190-196 | delete keeps the table consistent and phones unique |
| TechniciansService.Clause | apps/api/src/zynor_api/services/technicians_service.py:85-90 | a leading "-" means descending on the rest of the name; anything else means ascending |
| TechniciansService.OrderSpec | apps/api/src/zynor_api/services/technicians_service.py:83-96 | no or an empty spec orders by first then last name; otherwise the clauses are the entries naming an attribute, in order |
| TechniciansService.ClausesOfRendered | apps/api/src/zynor_api/services/technicians_service.py:85-90 | writing clauses as "-name" or "name" and parsing them gives them back |
| TechniciansService.OrderSpecOfRendered | apps/api/src/zynor_api/services/technicians_service.py:83-94 | a rendered list of known clauses parses back to itself |
| TechniciansService.UnknownOnlySpecIsUnordered | apps/api/src/zynor_api/services/technicians_service.py:93-94 | a spec naming only unknown attributes drops the ordering rather than using the default |
| TechniciansService.Offset | apps/api/src/zynor_api/services/technicians_service.py:98 | the offset is (page-1)*page_size, and 0 for pages below 1 |
| TechniciansService.ListPage | apps/api/src/zynor_api/services/technicians_service.py:97-105 | a page holds at most page_size rows starting at the offset; `total` counts every row |
| TechniciansService.PagesArePrefix | apps/api/src/zynor_api/services/technicians_service.py:98-99 | pages 1 to n together are the first n*page_size rows |
| TechniciansService.PagesCoverAll | apps/api/src/zynor_api/services/technicians_service.py:98-99 | enough pages reproduce every row once, in order |
| TechniciansService.LowPagesReadFirstPage | apps/api/src/zynor_api/services/technicians_service.py:98 | page numbers below 1 read the first page |
| CustomersService.StripUnlessEmpty | apps/api/src/zynor_api/services/customers_service.py:20-25 | phone and address are kept, stripped, only when present and not "" |
| CustomersService.NewCustomer | apps/api/src/zynor_api/services/customers_service.py:17-25 | create strips the name, strips a non-empty phone and address, and lower-cases a present e-mail |
| CustomersService.CreateCustomer | apps/api/src/zynor_api/services/customers_service.py:16-35 | create adds exactly the new row |
| CustomersService.BlankPhoneStoredEmpty | apps/api/src/zynor_api/services/customers_service.py:20-21 | a whitespace-only phone passes the emptiness test and is stored as "" |
| CustomersService.NewCustomerNormalised | apps/api/src/zynor_api/services/customers_service.py:17-25 | without whitespace-only phone or address, create stores a fully normalised row |
| CustomersService.StripOrNull | apps/api/src/zynor_api/services/customers_service.py:48-53 | update's phone and address rule: a truthy value stripped, else null |
| CustomersService.Updated | apps/api/src/zynor_api/services/customers_service.py:43-53 | only supplied keys change: the name when not null, stripped; phone and address stripped or null; the e-mail lower-cased or null |
| CustomersService.UpdateCustomer | apps/api/src/zynor_api/services/customers_service.py:38-62 | update of a missing id is 404; otherwise only that row changes |
| CustomersService.EmptyUpdateIsIdentity | apps/api/src/zynor_api/services/customers_service.py:44-53 | an empty body changes nothing |
| CustomersService.ResendNormalisedIsIdentity | apps/api/src/zynor_api/services/customers_service.py:44-53 | sending a normalised row back unchanged leaves it as it is |
| CustomersService.ResendEmptyPhoneClears | apps/api/src/zynor_api/services/customers_service.py:48-49 | sending back a stored "" phone turns it into null |
| CustomersService.UpdatedIsNormalisedWhenAllSet | apps/api/src/zynor_api/services/customers_service.py:46-53 | an update supplying every key, with no whitespace-only phone or address, yields a normalised row |
| CustomersService.DeleteCustomer | apps/api/src/zynor_api/services/customers_service.py:65-71 | as Store.Delete over the customers table: a missing id is 404; otherwise exactly that row goes |
| JobsService.NewJob | apps/api/src/zynor_api/services/jobs_service.py:17-29 | create strips the title, stores a non-empty description stripped, and copies the rest |
| JobsService.CreateJob | apps/api/src/zynor_api/services/jobs_service.py:16-29 | create adds exactly the new row |
| JobsService.IfGiven | apps/api/src/zynor_api/services/jobs_service.py:54-55 | status and customer ID change only when supplied and not null |
| JobsService.IfSupplied | apps/api/src/zynor_api/services/jobs_service.py:56-59 | schedule fields and technician change whenever supplied, even to null |
| JobsService.Updated | apps/api/src/zynor_api/services/jobs_service.py:48-63 | only supplied keys change: title stripped when not null, description stripped or null, status and customer when not null, the rest as given |
| JobsService.UpdateJob | apps/api/src/zynor_api/services/jobs_service.py:42-63 | update of a missing id is 404; otherwise only that row changes |
| JobsService.EmptyUpdateIsIdentity | apps/api/src/zynor_api/services/jobs_service.py:48-63 | an empty body changes nothing |
| JobsService.NullClearsOnlyNullableKeys | apps/api/src/zynor_api/services/jobs_service.py:50-63 | explicit nulls clear the description, schedule and technician, but not the title, status or customer |
| JobsService.UpdateIdempotent | apps/api/src/zynor_api/services/jobs_service.py:48-63 | sending the same update twice is sending it once |
| JobsService.NewJobNormalised | apps/api/src/zynor_api/services/jobs_service.py:17-23 | without a whitespace-only description, create stores a normalised row |
| JobsService.BlankDescriptionStoredEmpty | apps/api/src/zynor_api/services/jobs_service.py:22-23 | a whitespace-only description is stored as "" |
| JobsService.ResendNormalisedIsIdentity | apps/api/src/zynor_api/services/jobs_service.py:50-63 | sending a normalised row back unchanged leaves it as it is |
| JobsService.DeleteJob | apps/api/src/zynor_api/services/jobs_service.py:75-81 | as Store.Delete over the jobs table: a missing id is 404; otherwise exactly that row goes |

## Left out

- Transport: axios, the timeout's effect, `localStorage` and React state. The token is an `Option<string>` parameter. The server is a function from request and attempt number to reply.
- The CSV download (Blob, object URL, link click). Only the produced text is modelled.
- Whitespace and case are ASCII only. `trim`, `strip` and `\s` use space, tab, LF, VT, FF and CR. `toLowerCase` and `lower()` map A-Z only. Python's `strip` also removes `\x1c`-`\x1f` and Unicode spaces, which is not modelled.
- Strings are ordered by character code. JavaScript's `<` and `sort()` compare UTF-16 code units, so characters outside the Basic Multilingual Plane may order differently.
- Forms.ToNumber: models JS `Number()` only on signed decimal integers. Blank text gives 0; every other text gives NaN, so hex, exponents and fractions are not modelled.
- `new Date(v).toISOString()` is a parameter that either renders a string or throws. Timestamps in the services are opaque strings.
- Pydantic `EmailStr` is treated as an opaque string. Its normalisation is not modelled.
- The `$` of Python `re` also matches before a final newline. TechnicianSchemas.PhonePattern reads `$` as the end of the string.
- hourly_rate: it is a float. It is stored and patched as an opaque value. Its "≥ 0" validator, the min/max rate filters and the other list filters (`ilike`, JSONB `contains`) are not modelled.
- The schema field lengths (names 1-100 characters on create) and the column widths. For example, `phone` is `String(20)` while PATCH allows 25 characters. Either raises a database error that is not modelled.
- IntegrityError origins other than not-null names and e-mail and e-mail uniqueness, such as the jobs' customer foreign key.
- TechniciansService.PatchFailure: it decides 409 by whether the violated column is `email`, where the code searches the whole error text for "email".
- TechniciansService.OrderSpec: `hasattr` on the model class is a parameter, and the SQL ordering it produces is not applied to rows.
- TechniciansService.ListPage: `page_size` is a `nat`. The route accepts any integer, and what the database does with a negative `LIMIT` is not modelled.
- `get_*` and `list_customers`/`list_jobs` are plain reads and are not modelled.
- The request parsing that runs the schema validators before a service is called. The services take the already validated bodies, and the validators are modelled on their own.

## Findings

| source | as written | input that shows it | evidently intended | confidence | as-written member | corrected member |
|---|---|---|---|---|---|---|
| apps/web/app/technicians/page.tsx:374 | Next is disabled only when `currentPage === totalPages` | no matching rows (0 pages): Next moves from page 1 to page 2, and on from there | Next is disabled when `currentPage >= totalPages` | high (not executed) | TechnicianList.NextPageAsWrittenPassesEnd | TechnicianList.NavigationStaysInRange |
| apps/api/src/zynor_api/services/technicians_service.py:130 | a phone held by another technician raises 409 "Email already in use" | update technician 2 with technician 1's phone and its own e-mail | the detail names the phone, e.g. "Phone already in use" | high (not executed) | TechniciansService.PhoneConflictReportedAsEmail | TechniciansService.ConflictDetailNamesField |

=== FILE: csv.dfy ===
/** The technician list's CSV export: every cell quoted with inner quotes
    doubled, cells joined by commas, lines by newlines, a fixed header line.
    A reader for that format is defined beside it, and the export is shown to
    read back as exactly the header plus one row per technician. */
module Csv {
  import opened Text
  import opened Results
  import opened TechnicianList

  /** The cell text with every `"` doubled. */
  function QuoteBody(v: string): (r: string)
    ensures |r| >= |v|
  {
    if |v| == 0 then ""
    else (if v[0] == '"' then "\"\"" else [v[0]]) + QuoteBody(v[1..])
  }

  /** One cell as written: doubled quotes, wrapped in quotes. */
  function Escape(v: string): string {
    "\"" + QuoteBody(v) + "\""
  }

  function EscapeAll(row: seq<string>): (r: seq<string>)
    ensures |r| == |row|
  {
    if |row| == 0 then [] else [Escape(row[0])] + EscapeAll(row[1..])
  }

  function EncodeRow(row: seq<string>): string {
    Join(EscapeAll(row), ",")
  }

  function EncodeRows(table: seq<seq<string>>): (r: seq<string>)
    ensures |r| == |table|
  {
    if |table| == 0 then [] else [EncodeRow(table[0])] + EncodeRows(table[1..])
  }

  function EncodeTable(table: seq<seq<string>>): string {
    Join(EncodeRows(table), "\n")
  }

  // ---------------------------------------------------------------- reader

  /** Reads a quoted cell's body (the opening quote already consumed) up to its
      closing quote: `""` stands for one quote. Gives the value and what follows
      the closing quote. */
  function UnquoteBody(s: string): (r: Option<(string, string)>)
    ensures r.Some? ==> |r.value.1| < |s|
    decreases |s|
  {
    if |s| == 0 then None
    else if s[0] == '"' then
      if |s| >= 2 && s[1] == '"' then
        match UnquoteBody(s[2..])
        case None => None
        case Some((v, rest)) => Some(("\"" + v, rest))
      else Some(("", s[1..]))
    else
      match UnquoteBody(s[1..])
      case None => None
      case Some((v, rest)) => Some(([s[0]] + v, rest))
  }

  /** Reads a whole file of quoted cells into rows; `None` when it is not in that form. */
  function ParseFile(s: string): (r: Option<seq<seq<string>>>)
    ensures r.Some? ==> |r.value| >= 1 && forall i :: 0 <= i < |r.value| ==> |r.value[i]| >= 1
    decreases |s|
  {
    if |s| == 0 || s[0] != '"' then None
    else
      match UnquoteBody(s[1..])
      case None => None
      case Some((v, rest)) =>
        if rest == "" then Some([[v]])
        else if rest[0] == ',' then
          match ParseFile(rest[1..])
          case None => None
          case Some(rows) => Some([[v] + rows[0]] + rows[1..])
        else if rest[0] == '\n' then
          match ParseFile(rest[1..])
          case None => None
          case Some(rows) => Some([[v]] + rows)
        else None
  }

  /** Undoubling the quotes inverts the doubling, whatever follows the closing
      quote, as long as it is not itself a quote. */
  lemma {:induction false} UnquoteEscaped(v: string, tail: string)
    requires tail == "" || tail[0] != '"'
    ensures UnquoteBody(QuoteBody(v) + "\"" + tail) == Some((v, tail))
    decreases |v|
  {
    var s := QuoteBody(v) + "\"" + tail;
    if |v| == 0 {
      assert s == "\"" + tail;
    } else {
      UnquoteEscaped(v[1..], tail);
      var q := QuoteBody(v[1..]);
      var inner := q + "\"" + tail;
      var lead := if v[0] == '"' then "\"\"" else [v[0]];
      assert s == lead + inner by {
        assert QuoteBody(v) == lead + q;
        assert lead + q + "\"" + tail == lead + (q + "\"" + tail);
      }
      assert v == [v[0]] + v[1..];
      assert s[|lead|..] == inner;
    }
  }

  /** One written cell, followed by anything but a quote, reads back as its
      value and that remainder. */
  lemma ReadCell(v: string, after: string)
    requires after == "" || after[0] != '"'
    ensures var s := Escape(v) + after; |s| > 0 && s[0] == '"' && UnquoteBody(s[1..]) == Some((v, after))
  {
    var s := Escape(v) + after;
    assert s[1..] == QuoteBody(v) + "\"" + after;
    UnquoteEscaped(v, after);
  }

  /** A row of two or more cells is its first cell, a comma and the rest. */
  lemma EncodeRowCons(row: seq<string>)
    requires |row| >= 2
    ensures EncodeRow(row) == Escape(row[0]) + "," + EncodeRow(row[1..])
  {
    var e := EscapeAll(row);
    assert e[0] == Escape(row[0]);
    assert e[1..] == EscapeAll(row[1..]);
  }

  /** What may follow a row: nothing, or a newline and a readable rest. */
  predicate RowEnd(t: string) {
    t == "" || (t[0] == '\n' && ParseFile(t[1..]).Some?)
  }

  /** The rows read after a row's end. */
  function RowsAfter(t: string): seq<seq<string>>
    requires RowEnd(t)
  {
    if t == "" then [] else ParseFile(t[1..]).value
  }

  /** A row followed by nothing or by a newline and a readable rest reads back as
      that row, followed by the rest's rows. */
  lemma {:induction false} ReadRow(row: seq<string>, t: string)
    requires |row| >= 1 && RowEnd(t)
    ensures ParseFile(EncodeRow(row) + t) == Some([row] + RowsAfter(t))
    decreases |row|
  {
    if |row| == 1 {
      var s := EncodeRow(row) + t;
      assert s == Escape(row[0]) + t;
      ReadCell(row[0], t);
      assert row == [row[0]];
      if t == "" {
        assert ParseFile(s) == Some([[row[0]]]);
        assert [row] + RowsAfter(t) == [row];
      } else {
        assert t[0] == '\n' && t[0] != ',';
        assert ParseFile(s) == Some([[row[0]]] + ParseFile(t[1..]).value);
      }
    } else {
      ReadRowCons(row, t);
    }
  }

  /** A cell, a comma and a readable rest read back as the rest's rows with the
      cell put in front of the first one. */
  lemma ReadCellComma(v: string, rest: string)
    requires ParseFile(rest).Some?
    ensures var rows := ParseFile(rest).value;
      ParseFile(Escape(v) + "," + rest) == Some([[v] + rows[0]] + rows[1..])
  {
    var after := "," + rest;
    ReadCell(v, after);
    assert Escape(v) + "," + rest == Escape(v) + after;
    assert after[1..] == rest;
  }

  /** The step of `ReadRow` for a row of two or more cells. */
  lemma {:induction false} ReadRowCons(row: seq<string>, t: string)
    requires |row| >= 2 && RowEnd(t)
    ensures ParseFile(EncodeRow(row) + t) == Some([row] + RowsAfter(t))
    decreases |row|, 0
  {
    var head := Escape(row[0]) + ",";
    var rest := EncodeRow(row[1..]) + t;
    EncodeRowCons(row);
    assert EncodeRow(row) + t == head + rest;
    ReadRow(row[1..], t);
    ReadCellComma(row[0], rest);
    var rows := [row[1..]] + RowsAfter(t);
    assert rows[0] == row[1..] && rows[1..] == RowsAfter(t);
    assert [row[0]] + row[1..] == row;
  }

  lemma EncodeTableCons(table: seq<seq<string>>)
    requires |table| >= 2
    ensures EncodeTable(table) == EncodeRow(table[0]) + ("\n" + EncodeTable(table[1..]))
  {
    var e := EncodeRows(table);
    assert e[1..] == EncodeRows(table[1..]);
    assert EncodeTable(table) == EncodeRow(table[0]) + "\n" + EncodeTable(table[1..]);
  }

  /** Any table of non-empty rows reads back from its encoding. */
  lemma {:induction false} ReadTable(table: seq<seq<string>>)
    requires |table| >= 1
    requires forall i :: 0 <= i < |table| ==> |table[i]| >= 1
    ensures ParseFile(EncodeTable(table)) == Some(table)
  {
    if |table| == 1 {
      assert EncodeTable(table) == EncodeRow(table[0]) + "";
      ReadRow(table[0], "");
      assert table == [table[0]] + [];
    } else {
      ReadTable(table[1..]);
      EncodeTableCons(table);
      var t := "\n" + EncodeTable(table[1..]);
      assert t[1..] == EncodeTable(table[1..]);
      ReadRow(table[0], t);
      assert table == [table[0]] + table[1..];
    }
  }

  // ---------------------------------------------------------------- export

  const Headers: seq<string> := ["Name", "Email", "Phone", "Skill", "Active"]

  /** One technician's cells: name, email, phone, skills, status word. */
  function CsvRow(t: Technician): (r: seq<string>)
    ensures |r| == |Headers|
    ensures r[4] == "Active" <==> t.isActive != Some(false)
    ensures r[4] == "Inactive" <==> t.isActive == Some(false)
  {
    [FullName(t), OrEmpty(t.email), OrEmpty(t.phone), SkillText(t),
     if IsActive(t) then "Active" else "Inactive"]
  }

  function CsvRows(items: seq<Technician>): (r: seq<seq<string>>)
    ensures |r| == |items|
    ensures forall i :: 0 <= i < |items| ==> r[i] == CsvRow(items[i])
  {
    if |items| == 0 then [] else [CsvRow(items[0])] + CsvRows(items[1..])
  }

  /** The export of the sorted, filtered list: nothing for an empty list,
      otherwise text that reads back as the header line and one row per
      technician, in list order. */
  function ExportCsv(sorted: seq<Technician>): (r: Option<string>)
    ensures r.None? <==> |sorted| == 0
    ensures r.Some? ==> ParseFile(r.value) == Some([Headers] + CsvRows(sorted))
  {
    if |sorted| == 0 then None
    else
      var table := [Headers] + CsvRows(sorted);
      ReadTable(table);
      Some(EncodeTable(table))
  }
}

=== FILE: customers_service.dfy ===
/** The customer service: create normalises the incoming fields, update
    touches only the keys the body supplies, delete removes one row. */
module CustomersService {
  import opened Text
  import opened Results
  import opened Store

  datatype Customer = Customer(name: string, phone: Option<string>, email: Option<string>, address: Option<string>)

  datatype CustomerCreate = CustomerCreate(name: string, phone: Option<string>, email: Option<string>, address: Option<string>)

  datatype CustomerUpdate = CustomerUpdate(
    name: Supplied<Option<string>>, phone: Supplied<Option<string>>,
    email: Supplied<Option<string>>, address: Supplied<Option<string>>)

  const NotFound := "Customer not found"

  /** Create's rule for phone and address: kept, stripped, only when present
      and not the empty string; the test runs before the strip. */
  function StripUnlessEmpty(v: Option<string>): (r: Option<string>)
    ensures r.Some? <==> v.Some? && v.value != ""
    ensures r.Some? ==> r.value == Trim(v.value)
  {
    if v.Some? && v.value != "" then Some(Trim(v.value)) else None
  }

  /** The row a create stores. */
  function NewCustomer(c: CustomerCreate): (r: Customer)
    ensures r.name == Trim(c.name)
    ensures r.phone == StripUnlessEmpty(c.phone) && r.address == StripUnlessEmpty(c.address)
    ensures r.email.Some? <==> c.email.Some?
    ensures c.email.Some? ==> r.email == Some(Lower(c.email.value))
  {
    Customer(Trim(c.name), StripUnlessEmpty(c.phone),
      if c.email.Some? then Some(Lower(c.email.value)) else None,
      StripUnlessEmpty(c.address))
  }

  /** Insert under a fresh id (the database sequence); nothing else changes. */
  function CreateCustomer(db: map<nat, Customer>, c: CustomerCreate, newId: nat): (r: map<nat, Customer>)
    requires newId !in db
    ensures r.Keys == db.Keys + {newId}
    ensures r[newId] == NewCustomer(c)
    ensures forall k :: k in db ==> r[k] == db[k]
  {
    db[newId := NewCustomer(c)]
  }

  /** A whitespace-only phone passes the emptiness test and is stored as `""`. */
  lemma BlankPhoneStoredEmpty(c: CustomerCreate)
    requires c.phone.Some? && c.phone.value != "" && AllSpace(c.phone.value)
    ensures NewCustomer(c).phone == Some("")
  {
  }

  /** A create whose phone and address are absent, empty or not blank, and
      whose email is not empty, stores a normalised row. */
  lemma NewCustomerNormalised(c: CustomerCreate)
    requires c.phone.Some? && c.phone.value != "" ==> !AllSpace(c.phone.value)
    requires c.address.Some? && c.address.value != "" ==> !AllSpace(c.address.value)
    requires c.email != Some("")
    ensures Normalised(NewCustomer(c))
  {
    var r := NewCustomer(c);
    TrimIdempotent(c.name);
    if r.phone.Some? {
      TrimIdempotent(c.phone.value);
    }
    if r.address.Some? {
      TrimIdempotent(c.address.value);
    }
    if r.email.Some? {
      LowerIdempotent(c.email.value);
    }
  }

  /** Update's rule for phone and address: a truthy value stripped, else null. */
  function StripOrNull(v: Option<string>): (r: Option<string>)
    ensures r.Some? <==> Filled(v)
    ensures r.Some? ==> r.value == Trim(v.value)
  {
    if Filled(v) then Some(Trim(v.value)) else None
  }

  /** The row after an update: each supplied key changes by its own rule, an
      unsupplied key keeps its value. */
  function Updated(c: Customer, u: CustomerUpdate): (r: Customer)
    ensures (u.name.Set? && u.name.value.Some?) ==> r.name == Trim(u.name.value.value)
    ensures !(u.name.Set? && u.name.value.Some?) ==> r.name == c.name
    ensures u.phone.Set? ==> r.phone == StripOrNull(u.phone.value)
    ensures u.phone.Unset? ==> r.phone == c.phone
    ensures u.email.Set? ==> (r.email.Some? <==> Filled(u.email.value))
    ensures u.email.Set? && Filled(u.email.value) ==> r.email == Some(Lower(u.email.value.value))
    ensures u.email.Unset? ==> r.email == c.email
    ensures u.address.Set? ==> r.address == StripOrNull(u.address.value)
    ensures u.address.Unset? ==> r.address == c.address
  {
    Customer(
      if u.name.Set? && u.name.value.Some? then Trim(u.name.value.value) else c.name,
      if u.phone.Set? then StripOrNull(u.phone.value) else c.phone,
      if u.email.Set? then (if Filled(u.email.value) then Some(Lower(u.email.value.value)) else None) else c.email,
      if u.address.Set? then StripOrNull(u.address.value) else c.address)
  }

  function UpdateCustomer(db: map<nat, Customer>, id: nat, u: CustomerUpdate): (r: Result<map<nat, Customer>, Failure>)
    ensures r.Err? <==> id !in db
    ensures r.Err? ==> r.error == Http(404, NotFound)
    ensures r.Ok? ==> r.value.Keys == db.Keys && r.value[id] == Updated(db[id], u)
    ensures r.Ok? ==> forall k :: k in db && k != id ==> r.value[k] == db[k]
  {
    Update(db, id, c => Updated(c, u), NotFound)
  }

  const NothingSupplied := CustomerUpdate(Unset, Unset, Unset, Unset)

  /** An empty body changes nothing. */
  lemma EmptyUpdateIsIdentity(db: map<nat, Customer>, id: nat)
    requires id in db
    ensures UpdateCustomer(db, id, NothingSupplied) == Ok(db)
  {
    assert db[id := db[id]] == db;
  }

  /** A row with nothing left to normalise: a stripped name, stripped non-empty
      phone and address, a lower-case non-empty email. */
  predicate Normalised(c: Customer) {
    Trim(c.name) == c.name
    && (c.phone.Some? ==> c.phone.value != "" && Trim(c.phone.value) == c.phone.value)
    && (c.email.Some? ==> c.email.value != "" && Lower(c.email.value) == c.email.value)
    && (c.address.Some? ==> c.address.value != "" && Trim(c.address.value) == c.address.value)
  }

  /** The body that sends every field back as it is stored. */
  function Resend(c: Customer): CustomerUpdate {
    CustomerUpdate(Set(Some(c.name)), Set(c.phone), Set(c.email), Set(c.address))
  }

  /** Sending a normalised row back unchanged leaves it as it is. */
  lemma ResendNormalisedIsIdentity(c: Customer)
    requires Normalised(c)
    ensures Updated(c, Resend(c)) == c
  {
    TrimIdempotent(c.name);
  }

  /** The `""` phone a create can store is not a fixed point: sending it back
      turns it into null. */
  lemma ResendEmptyPhoneClears(c: Customer)
    requires c.phone == Some("")
    ensures Updated(c, Resend(c)).phone == None
  {
  }

  /** An update that supplies every key, with no whitespace-only phone or
      address, leaves a normalised row whatever the old one was. */
  lemma UpdatedIsNormalisedWhenAllSet(c: Customer, u: CustomerUpdate)
    requires u.name.Set? && u.name.value.Some? && u.phone.Set? && u.email.Set? && u.address.Set?
    requires u.phone.value.Some? ==> Trim(u.phone.value.value) != ""
    requires u.address.value.Some? ==> Trim(u.address.value.value) != ""
    ensures Normalised(Updated(c, u))
  {
    var r := Updated(c, u);
    TrimIdempotent(u.name.value.value);
    if r.phone.Some? {
      TrimIdempotent(u.phone.value.value);
    }
    if r.address.Some? {
      TrimIdempotent(u.address.value.value);
    }
    if r.email.Some? {
      LowerIdempotent(u.email.value.value);
    }
  }

  function DeleteCustomer(db: map<nat, Customer>, id: nat): (r: Result<map<nat, Customer>, Failure>)
    ensures r.Err? <==> id !in db
    ensures r.Err? ==> r.error == Http(404, NotFound)
    ensures r.Ok? ==> r.value.Keys == db.Keys - {id}
    ensures r.Ok? ==> forall k :: k in r.value ==> r.value[k] == db[k]
  {
    Delete(db, id, NotFound)
  }
}

=== FILE: email.dfy ===
/** The forms' e-mail check `^[^\s@]+@[^\s@]+\.[^\s@]+$`: the regular
    expression's own reading (a split into three plain runs) and a direct scan
    for the `@` and an inner dot, proved to agree. */
module EmailShape {
  import opened Text

  /** `[^\s@]*`: no whitespace and no `@`. */
  predicate Plain(s: string) {
    forall k :: 0 <= k < |s| ==> !IsSpace(s[k]) && s[k] != '@'
  }

  /** The expression matches with the `@` at `i` and the chosen dot at `j`. */
  predicate MatchesAt(s: string, i: int, j: int) {
    0 < i && i + 1 < j && j + 1 < |s| && s[i] == '@' && s[j] == '.'
    && Plain(s[..i]) && Plain(s[i + 1..j]) && Plain(s[j + 1..])
  }

  /** Some way of splitting `s` matches the whole expression. */
  predicate RegexMatches(s: string) {
    exists i, j :: 0 <= i < |s| && 0 <= j < |s| && MatchesAt(s, i, j)
  }

  /** The first index of `c`, or -1. */
  function IndexOf(s: string, c: char): (r: int)
    ensures -1 <= r < |s|
    ensures r >= 0 ==> s[r] == c && c !in s[..r]
    ensures r == -1 ==> c !in s
  {
    if |s| == 0 then -1
    else if s[0] == c then 0
    else
      var r := IndexOf(s[1..], c);
      if r == -1 then -1
      else
        assert s[..r + 1] == [s[0]] + s[1..][..r];
        r + 1
  }

  lemma {:induction false} IndexOfFirst(s: string, c: char, i: int)
    requires 0 <= i < |s| && s[i] == c && c !in s[..i]
    ensures IndexOf(s, c) == i
  {
    if i > 0 {
      assert s[0] in s[..i];
      assert s[1..][..i - 1] == s[1..i];
      assert forall x :: x in s[1..i] ==> x in s[..i];
      IndexOfFirst(s[1..], c, i - 1);
    }
  }

  /** The scan: no whitespace, a first `@` after at least one character, no
      second `@`, and a dot strictly inside what follows the `@`. */
  predicate IsEmailShaped(s: string) {
    var i := IndexOf(s, '@');
    NoSpace(s) && i > 0 && '@' !in s[i + 1..] && i + 2 <= |s| - 1 && '.' in s[i + 2..|s| - 1]
  }

  lemma EmailShapedIsMatch(s: string)
    requires IsEmailShaped(s)
    ensures RegexMatches(s)
  {
    var i := IndexOf(s, '@');
    var m :| 0 <= m < |s[i + 2..|s| - 1]| && s[i + 2..|s| - 1][m] == '.';
    var j := i + 2 + m;
    assert s[j] == '.';
    assert Plain(s[..i]) by {
      forall k | 0 <= k < i ensures !IsSpace(s[..i][k]) && s[..i][k] != '@' {
        assert s[..i][k] == s[k];
        assert s[k] in s[..i];
      }
    }
    var d := s[i + 1..];
    var mid := s[i + 1..j];
    forall k | 0 <= k < |mid| ensures !IsSpace(mid[k]) && mid[k] != '@' {
      assert mid[k] == d[k];
    }
    var tail := s[j + 1..];
    forall k | 0 <= k < |tail| ensures !IsSpace(tail[k]) && tail[k] != '@' {
      assert tail[k] == d[k + j - i];
    }
    assert MatchesAt(s, i, j);
  }

  lemma MatchIsEmailShaped(s: string, i: int, j: int)
    requires MatchesAt(s, i, j)
    ensures IsEmailShaped(s)
  {
    assert '@' !in s[..i];
    IndexOfFirst(s, '@', i);
    forall k | 0 <= k < |s| ensures !IsSpace(s[k]) {
      if k < i {
        assert s[..i][k] == s[k];
      } else if i < k < j {
        assert s[i + 1..j][k - i - 1] == s[k];
      } else if j < k {
        assert s[j + 1..][k - j - 1] == s[k];
      }
    }
    var d := s[i + 1..];
    forall k | 0 <= k < |d| ensures d[k] != '@' {
      var p := i + 1 + k;
      if p < j {
        assert s[i + 1..j][k] == s[p];
      } else if p > j {
        assert s[j + 1..][p - j - 1] == s[p];
      }
    }
    assert s[i + 2..|s| - 1][j - i - 2] == '.';
  }

  /** The scan accepts exactly the strings the expression matches. */
  lemma EmailShapedIffRegex(s: string)
    ensures IsEmailShaped(s) <==> RegexMatches(s)
  {
    if IsEmailShaped(s) {
      EmailShapedIsMatch(s);
    }
    if RegexMatches(s) {
      var i, j :| MatchesAt(s, i, j);
      MatchIsEmailShaped(s, i, j);
    }
  }

  /** A matching address has no surrounding whitespace, so trimming keeps it. */
  lemma MatchIsTrimmed(s: string)
    requires RegexMatches(s)
    ensures Trim(s) == s
  {
    EmailShapedIffRegex(s);
    assert s[0] != ' ' && !IsSpace(s[0]) && !IsSpace(s[|s| - 1]);
    TrimOfTrimmed(s);
  }
}

=== FILE: forms.dfy ===
/** The web forms: the customer dialog, the new-technician page and the job
    create and edit dialogs. Each submit either rejects the form with field
    errors (and the banner "Please fix the highlighted fields."), or builds
    the payload that is sent. Also the list patches the pages apply
    afterwards: append, replace by id and remove by id. */
module Forms {
  import opened Text
  import opened Results
  import opened Seqs
  import opened EmailShape

  const FixFieldsBanner := "Please fix the highlighted fields."

  /** The result of a submit click: rejected with field errors, a payload ready
      to send, or an exception thrown while the payload was being built. */
  datatype Submission<P> = Rejected(errors: map<Field, string>) | Ready(payload: P) | Thrown

  /** The form fields an error can be attached to (the keys of the pages'
      error objects). */
  datatype Field = Name | Email | FirstName | LastName | Phone | SkillsText | Title | CustomerId

  /** `s.trim() || null`. */
  function TrimOrNull(s: string): (r: Option<string>)
    ensures r.None? <==> AllSpace(s)
    ensures r.Some? ==> r.value == Trim(s) && r.value != ""
  {
    var t := Trim(s);
    if t == "" then None else Some(t)
  }

  // -------------------------------------------------------------- customers

  datatype CustomerForm = CustomerForm(name: string, email: string, phone: string, address: string)

  /** `None` is JSON `null`. */
  datatype CustomerPayload = CustomerPayload(name: string, email: Option<string>, phone: Option<string>, address: Option<string>)

  function CustomerErrors(f: CustomerForm): (r: map<Field, string>)
    ensures r.Keys <= {Name, Email}
    ensures Name in r <==> AllSpace(f.name)
    ensures Name in r ==> r[Name] == "Name is required."
    ensures Email in r <==> !AllSpace(f.email) && !RegexMatches(f.email)
    ensures Email in r ==> r[Email] == InvalidEmail
  {
    var e := if Trim(f.name) == "" then map[Name := "Name is required."] else map[];
    if Trim(f.email) != "" && !RegexMatches(f.email) then e[Email := InvalidEmail] else e
  }

  /** The customer dialog's submit. A blank email is allowed; a non-blank one
      must match the pattern as typed, before trimming. */
  function SubmitCustomer(f: CustomerForm): (r: Submission<CustomerPayload>)
    ensures r.Rejected? <==> AllSpace(f.name) || (!AllSpace(f.email) && !RegexMatches(f.email))
    ensures r.Rejected? ==> r.errors == CustomerErrors(f) && r.errors != map[]
    ensures !r.Thrown?
    ensures r.Ready? ==> r.payload.name == Trim(f.name) && r.payload.email == TrimOrNull(f.email)
    ensures r.Ready? ==> r.payload.phone == TrimOrNull(f.phone) && r.payload.address == TrimOrNull(f.address)
  {
    var errors := CustomerErrors(f);
    if errors != map[] then Rejected(errors)
    else Ready(CustomerPayload(Trim(f.name), TrimOrNull(f.email), TrimOrNull(f.phone), TrimOrNull(f.address)))
  }

  /** What a sent customer payload satisfies: a non-empty trimmed name and, if
      present, an email matching the pattern exactly as typed; blanks are sent
      as `null`. */
  lemma CustomerPayloadValid(f: CustomerForm)
    requires SubmitCustomer(f).Ready?
    ensures SubmitCustomer(f).payload.name != ""
    ensures Trim(SubmitCustomer(f).payload.name) == SubmitCustomer(f).payload.name
    ensures SubmitCustomer(f).payload.email.Some? ==>
      RegexMatches(f.email) && SubmitCustomer(f).payload.email.value == f.email
    ensures SubmitCustomer(f).payload.phone != Some("") && SubmitCustomer(f).payload.address != Some("")
  {
    TrimIdempotent(f.name);
    if SubmitCustomer(f).payload.email.Some? {
      CustomerEmailSent(f);
    }
  }

  lemma CustomerEmailSent(f: CustomerForm)
    requires SubmitCustomer(f).Ready? && SubmitCustomer(f).payload.email.Some?
    ensures RegexMatches(f.email) && SubmitCustomer(f).payload.email.value == f.email
  {
    MatchIsTrimmed(f.email);
  }

  /** Surrounding spaces make an otherwise valid email fail. */
  lemma PaddedEmailRejected()
    ensures !RegexMatches(" a@b.co")
  {
    var s := " a@b.co";
    EmailShapedIffRegex(s);
    assert !NoSpace(s) by { assert IsSpace(s[0]); }
  }

  // ------------------------------------------------------------ technicians

  datatype TechnicianForm = TechnicianForm(
    firstName: string, lastName: string, email: string, phone: string, skillsText: string, isActive: bool)

  /** `None` is an omitted key. */
  datatype TechnicianPayload = TechnicianPayload(
    firstName: string, lastName: string, email: string, phone: Option<string>, skills: Option<seq<string>>, isActive: bool)

  /** The number of characters left by `replace(/\D/g, "")`. */
  function DigitCount(s: string): nat {
    |Filter(s, IsDigit)|
  }

  /** Trimming removes only whitespace, so the digit count is unchanged. */
  lemma DigitCountOfTrim(s: string)
    ensures DigitCount(Trim(s)) == DigitCount(s)
  {
    var r := Trim(s);
    TrimSplits(s);
    var a, b := s[..TrimFrom(s)], s[TrimTo(s)..];
    assert s == a + r + b;
    DigitCountConcat(a + r, b);
    DigitCountConcat(a, r);
    DigitCountOfSpace(a);
    DigitCountOfSpace(b);
  }

  lemma DigitCountConcat(a: string, b: string)
    ensures DigitCount(a + b) == DigitCount(a) + DigitCount(b)
  {
    FilterConcat(a, b, IsDigit);
  }

  lemma DigitCountOfSpace(a: string)
    requires AllSpace(a)
    ensures DigitCount(a) == 0
  {
    FilterDropsAll(a, IsDigit);
  }

  const FirstNameRequired := "First name is required."
  const LastNameRequired := "Last name is required."
  const EmailRequired := "Email is required."
  const InvalidEmail := "Enter a valid email address."
  const PhoneTooShort := "Phone number looks too short."
  const SkillsRequired := "Please add at least one skill."

  function TechnicianErrors(f: TechnicianForm): (r: map<Field, string>)
    ensures r.Keys <= {FirstName, LastName, Email, Phone, SkillsText}
    ensures FirstName in r <==> AllSpace(f.firstName)
    ensures LastName in r <==> AllSpace(f.lastName)
    ensures Email in r <==> AllSpace(f.email) || !RegexMatches(f.email)
    ensures Email in r ==> r[Email] == if AllSpace(f.email) then EmailRequired else InvalidEmail
    ensures Phone in r <==> 0 < DigitCount(f.phone) < 8
    ensures Phone in r ==> r[Phone] == PhoneTooShort
    ensures SkillsText in r <==> AllSpace(f.skillsText)
  {
    assert f.phone == "" ==> DigitCount(f.phone) == 0 by {
      if f.phone == "" {
        DigitCountOfSpace(f.phone);
      }
    }
    TechnicianErrorMap(Trim(f.firstName) == "", Trim(f.lastName) == "",
      Trim(f.email) == "", !RegexMatches(f.email),
      f.phone != "" && 0 < DigitCount(f.phone) < 8, Trim(f.skillsText) == "")
  }

  /** The technician form's error object, built field by field in the order the
      page checks them; an email error is "required" when the field is blank. */
  function TechnicianErrorMap(noFirst: bool, noLast: bool, noEmail: bool, badEmail: bool,
                              shortPhone: bool, noSkills: bool): (r: map<Field, string>)
    ensures r.Keys <= {FirstName, LastName, Email, Phone, SkillsText}
    ensures FirstName in r <==> noFirst
    ensures LastName in r <==> noLast
    ensures Email in r <==> noEmail || badEmail
    ensures Email in r ==> r[Email] == if noEmail then EmailRequired else InvalidEmail
    ensures Phone in r <==> shortPhone
    ensures Phone in r ==> r[Phone] == PhoneTooShort
    ensures SkillsText in r <==> noSkills
  {
    var e1 := AddIf(map[], noFirst, FirstName, FirstNameRequired);
    var e2 := AddIf(e1, noLast, LastName, LastNameRequired);
    var e3 := AddIf(e2, noEmail || badEmail, Email,
      if noEmail then EmailRequired else InvalidEmail);
    var e4 := AddIf(e3, shortPhone, Phone, PhoneTooShort);
    AddIf(e4, noSkills, SkillsText, SkillsRequired)
  }

  /** The error map with `k` set to `msg` when `cond` holds, and otherwise as it was. */
  function AddIf(m: map<Field, string>, cond: bool, k: Field, msg: string): (r: map<Field, string>)
    ensures k in r <==> cond || k in m
    ensures cond ==> r[k] == msg
    ensures !cond && k in m ==> r[k] == m[k]
    ensures forall x :: x != k ==> (x in r <==> x in m)
    ensures forall x :: x != k && x in m ==> r[x] == m[x]
  {
    if cond then m[k := msg] else m
  }

  /** A skill as the parser can produce it. */
  predicate CleanSkill(x: string) {
    x != "" && Trim(x) == x && ',' !in x
  }

  /** `split(",").map(trim).filter(Boolean)`: every non-empty trimmed piece,
      as often as it occurs, in order. */
  function ParseSkills(text: string): (r: seq<string>)
    ensures IsSubsequence(r, TrimAll(Split(text, ',')))
    ensures forall x :: multiset(r)[x] == if x == "" then 0 else multiset(TrimAll(Split(text, ',')))[x]
    ensures forall i :: 0 <= i < |r| ==> CleanSkill(r[i])
  {
    var pieces := Split(text, ',');
    var trimmed := TrimAll(pieces);
    var r := Filter(trimmed, NonEmpty);
    assert forall x :: multiset(r)[x] == if x == "" then 0 else multiset(trimmed)[x] by {
      forall x ensures multiset(r)[x] == if x == "" then 0 else multiset(trimmed)[x] {
        FilterCounts(trimmed, NonEmpty, x);
      }
    }
    SplitJoin(text, ',');
    assert forall i :: 0 <= i < |r| ==> CleanSkill(r[i]) by {
      forall i | 0 <= i < |r| ensures CleanSkill(r[i]) {
        assert r[i] in trimmed;
        var k :| 0 <= k < |trimmed| && trimmed[k] == r[i];
        TrimChars(pieces[k]);
        TrimIdempotent(pieces[k]);
      }
    }
    r
  }

  /** `" " + x` for every element. */
  function PadAll(xs: seq<string>): (r: seq<string>)
    ensures |r| == |xs|
    ensures forall i :: 0 <= i < |xs| ==> r[i] == " " + xs[i]
  {
    if |xs| == 0 then [] else [" " + xs[0]] + PadAll(xs[1..])
  }

  lemma {:induction false} JoinPadded(zs: seq<string>)
    requires |zs| >= 1
    ensures Join(PadAll(zs), ",") == " " + Join(zs, ", ")
  {
    if |zs| > 1 {
      JoinPadded(zs[1..]);
      assert PadAll(zs)[1..] == PadAll(zs[1..]);
    }
  }

  /** Skills shown joined by `", "` (or by `","`) read back as the same list. */
  lemma ParseSkillsOfJoined(xs: seq<string>)
    requires forall i :: 0 <= i < |xs| ==> CleanSkill(xs[i])
    ensures ParseSkills(Join(xs, ",")) == xs
    ensures ParseSkills(Join(xs, ", ")) == xs
  {
    if |xs| == 0 {
      ParseSkillsOfBlank();
    } else {
      ParseSkillsOfPieces(xs, xs);
      JoinCommaSpace(xs);
      PaddedPieces(xs);
      ParseSkillsOfPieces([xs[0]] + PadAll(xs[1..]), xs);
    }
  }

  lemma ParseSkillsOfBlank()
    ensures ParseSkills("") == []
  {
    assert Split("", ',') == [""];
    assert TrimAll([""]) == [""];
    FilterDropsAll([""], NonEmpty);
  }

  /** Padding a clean skill keeps it comma-free and trims back to it. */
  lemma PaddedPieces(xs: seq<string>)
    requires |xs| >= 1
    requires forall i :: 0 <= i < |xs| ==> CleanSkill(xs[i])
    ensures var ys := [xs[0]] + PadAll(xs[1..]);
      |ys| == |xs| && forall i :: 0 <= i < |ys| ==> ',' !in ys[i] && Trim(ys[i]) == xs[i]
  {
    var ys := [xs[0]] + PadAll(xs[1..]);
    forall i | 0 <= i < |ys| ensures ',' !in ys[i] && Trim(ys[i]) == xs[i] {
      if i > 0 {
        assert ys[i] == " " + xs[i];
        TrimLeadingSpace(xs[i]);
      }
    }
  }

  /** Joining with `", "` is joining with `","` after padding all but the first part. */
  lemma JoinCommaSpace(xs: seq<string>)
    requires |xs| >= 1
    ensures Join(xs, ", ") == Join([xs[0]] + PadAll(xs[1..]), ",")
  {
    var ys := [xs[0]] + PadAll(xs[1..]);
    if |xs| == 1 {
      assert ys == xs;
    } else {
      var rest := Join(xs[1..], ", ");
      assert Join(ys, ",") == xs[0] + "," + Join(PadAll(xs[1..]), ",") by {
        assert ys[1..] == PadAll(xs[1..]);
      }
      JoinPadded(xs[1..]);
      assert Join(xs, ", ") == xs[0] + ", " + rest;
      ConcatCommaSpace(xs[0], rest);
    }
  }

  lemma ConcatCommaSpace(a: string, b: string)
    ensures a + "," + (" " + b) == a + ", " + b
  {
  }

  /** Comma-free pieces that trim to clean skills parse back to those skills. */
  lemma ParseSkillsOfPieces(ys: seq<string>, xs: seq<string>)
    requires |ys| == |xs| >= 1
    requires forall i :: 0 <= i < |ys| ==> ',' !in ys[i] && Trim(ys[i]) == xs[i]
    requires forall i :: 0 <= i < |xs| ==> CleanSkill(xs[i])
    ensures ParseSkills(Join(ys, ",")) == xs
  {
    SplitUnique(ys, ',');
    assert TrimAll(ys) == xs;
    FilterKeepsAll(xs, NonEmpty);
  }

  /** The new-technician page's submit. */
  function SubmitTechnician(f: TechnicianForm): (r: Submission<TechnicianPayload>)
    ensures r.Rejected? <==>
      AllSpace(f.firstName) || AllSpace(f.lastName) || AllSpace(f.email) || !RegexMatches(f.email)
      || 0 < DigitCount(f.phone) < 8 || AllSpace(f.skillsText)
    ensures r.Rejected? ==> r.errors == TechnicianErrors(f)
    ensures !r.Thrown?
    ensures r.Ready? ==> r.payload.firstName == Trim(f.firstName) && r.payload.lastName == Trim(f.lastName)
    ensures r.Ready? ==> r.payload.email == Trim(f.email) && r.payload.phone == TrimOrNull(f.phone)
    ensures r.Ready? ==> r.payload.isActive == f.isActive
    ensures r.Ready? ==> (r.payload.skills.None? <==> ParseSkills(f.skillsText) == [])
    ensures r.Ready? && r.payload.skills.Some? ==> r.payload.skills.value == ParseSkills(f.skillsText)
  {
    var errors := TechnicianErrors(f);
    if errors.Keys != {} then Rejected(errors)
    else
      var skills := ParseSkills(f.skillsText);
      Ready(TechnicianPayload(
        Trim(f.firstName), Trim(f.lastName), Trim(f.email), TrimOrNull(f.phone),
        if |skills| > 0 then Some(skills) else None, f.isActive))
  }

  /** What a sent technician payload satisfies. */
  lemma TechnicianPayloadValid(f: TechnicianForm)
    requires SubmitTechnician(f).Ready?
    ensures var p := SubmitTechnician(f).payload;
      p.firstName != "" && p.lastName != "" && RegexMatches(p.email)
      && (p.phone.Some? ==> DigitCount(p.phone.value) == 0 || DigitCount(p.phone.value) >= 8)
      && (p.skills.Some? ==> |p.skills.value| > 0 && forall i :: 0 <= i < |p.skills.value| ==> CleanSkill(p.skills.value[i]))
  {
    MatchIsTrimmed(f.email);
    DigitCountOfTrim(f.phone);
  }

  /** Skills text made of commas passes the blank check yet sends no skills. */
  lemma OnlyCommasSendsNoSkills()
    ensures ParseSkills(",,,") == []
  {
    var parts := Split(",,,", ',');
    assert parts == ["", "", "", ""];
    assert TrimAll(parts) == ["", "", "", ""];
    FilterDropsAll(TrimAll(parts), NonEmpty);
  }

  // ------------------------------------------------------------------- jobs

  /** A JavaScript number as far as the forms use it. */
  datatype JsNumber = NaN | Num(value: int)

  /** `Number(s)` on integer text: surrounding whitespace is ignored, blank is
      0, an optional sign and decimal digits give the integer, anything else
      is NaN. */
  function ToNumber(s: string): (r: JsNumber)
    ensures AllSpace(s) ==> r == Num(0)
  {
    var t := Trim(s);
    if t == "" then Num(0) else Signed(t)
  }

  /** Decimal digits, at least one. */
  function Unsigned(t: string): (r: JsNumber)
    ensures r.Num? <==> |t| > 0 && AllDigits(t)
    ensures r.Num? ==> r.value >= 0
  {
    if |t| > 0 && AllDigits(t) then Num(DecimalValue(t)) else NaN
  }

  /** An optional sign and then decimal digits. */
  function Signed(t: string): (r: JsNumber)
  {
    if |t| > 0 && t[0] == '-' then
      match Unsigned(t[1..])
      case Num(v) => Num(-v)
      case NaN => NaN
    else if |t| > 0 && t[0] == '+' then Unsigned(t[1..])
    else Unsigned(t)
  }

  lemma SignedOfDigits(t: string)
    requires |t| > 0 && AllDigits(t)
    ensures Signed(t) == Num(DecimalValue(t))
  {
    assert IsDigit(t[0]);
  }

  /** `Number(String(n)) == n`. */
  lemma ToNumberOfDecimal(n: int)
    ensures ToNumber(IntToDecimal(n)) == Num(n)
  {
    var s := IntToDecimal(n);
    if n >= 0 {
      DecimalRoundTrip(n);
      TrimOfTrimmed(s);
      SignedOfDigits(s);
    } else {
      var d := IntToDecimal(-n);
      DecimalRoundTrip(-n);
      assert s == "-" + d && s[1..] == d;
      assert !IsSpace(s[|s| - 1]) by { assert s[|s| - 1] == d[|d| - 1]; }
      TrimOfTrimmed(s);
    }
  }

  predicate Positive(v: JsNumber) {
    v.Num? && v.value > 0
  }

  datatype JobForm = JobForm(
    title: string, description: string, status: string, scheduledStart: string, scheduledEnd: string,
    customerId: string, technicianId: string)

  /** `None` is JSON `null`. */
  datatype JobCreatePayload = JobCreatePayload(
    title: string, description: Option<string>, status: string, scheduledStart: Option<string>,
    scheduledEnd: Option<string>, customerId: JsNumber, technicianId: Option<string>)

  function JobErrors(f: JobForm): (r: map<Field, string>)
    ensures r.Keys <= {Title, CustomerId}
    ensures Title in r <==> AllSpace(f.title)
    ensures Title in r ==> r[Title] == "Title is required."
    ensures CustomerId in r <==> !Positive(ToNumber(f.customerId))
    ensures CustomerId in r && f.customerId == "" ==> r[CustomerId] == "Customer ID is required."
    ensures CustomerId in r && f.customerId != "" ==> r[CustomerId] == "Customer ID must be a valid positive number."
  {
    var e1 := if Trim(f.title) == "" then map[Title := "Title is required."] else map[];
    var e2 := if Trim(f.customerId) == "" then e1[CustomerId := "Customer ID is required."] else e1;
    if f.customerId != "" && !Positive(ToNumber(f.customerId)) then
      e2[CustomerId := "Customer ID must be a valid positive number."]
    else e2
  }

  /** A date-time input's value as `new Date(v).toISOString()` renders it;
      `None` where that throws. The clock and time zone are outside the model. */
  type IsoRenderer = string -> Option<string>

  /** A filled-in date the renderer cannot render. */
  predicate BadDate(v: string, toIso: IsoRenderer) {
    v != "" && toIso(v).None?
  }

  /** `v ? new Date(v).toISOString() : null`, with `None` on the outside for a throw. */
  function IsoOrNull(v: string, toIso: IsoRenderer): (r: Option<Option<string>>)
    ensures v == "" ==> r == Some(None)
    ensures v != "" ==> (r.None? <==> toIso(v).None?) && (r.Some? ==> r.value == toIso(v))
  {
    if v == "" then Some(None)
    else match toIso(v)
      case None => None
      case Some(iso) => Some(Some(iso))
  }

  /** The job dialog's submit. */
  function SubmitJob(f: JobForm, toIso: IsoRenderer): (r: Submission<JobCreatePayload>)
    ensures r.Rejected? <==> AllSpace(f.title) || !Positive(ToNumber(f.customerId))
    ensures r.Rejected? ==> r.errors == JobErrors(f)
    ensures r.Thrown? <==> !r.Rejected? && (BadDate(f.scheduledStart, toIso) || BadDate(f.scheduledEnd, toIso))
    ensures r.Ready? ==> Positive(r.payload.customerId) && r.payload.customerId == ToNumber(f.customerId)
    ensures r.Ready? ==> r.payload.title == Trim(f.title) && r.payload.title != ""
    ensures r.Ready? ==> r.payload.description == TrimOrNull(f.description)
    ensures r.Ready? ==> r.payload.status == TrimOrNull(f.status).GetOr("NEW")
    ensures r.Ready? ==> r.payload.technicianId == TrimOrNull(f.technicianId)
  {
    var errors := JobErrors(f);
    if errors.Keys != {} then Rejected(errors)
    else
      var start := IsoOrNull(f.scheduledStart, toIso);
      var end := IsoOrNull(f.scheduledEnd, toIso);
      if start.None? || end.None? then Thrown
      else
        Ready(JobCreatePayload(
          Trim(f.title), TrimOrNull(f.description), TrimOrNull(f.status).GetOr("NEW"),
          start.value, end.value, ToNumber(f.customerId), TrimOrNull(f.technicianId)))
  }

  /** The status sent is never blank: `"NEW"` stands in for a blank one. */
  lemma JobStatusNeverBlank(f: JobForm, toIso: IsoRenderer)
    requires SubmitJob(f, toIso).Ready?
    ensures SubmitJob(f, toIso).payload.status != ""
    ensures AllSpace(f.status) ==> SubmitJob(f, toIso).payload.status == "NEW"
  {
  }

  /** A job as the list holds it. */
  datatype JobRecord = JobRecord(
    id: int, title: string, description: Option<string>, status: string, scheduledStart: Option<string>,
    scheduledEnd: Option<string>, customerId: int, technicianId: Option<string>)

  function JobId(j: JobRecord): int {
    j.id
  }

  /** The edit dialog's fields, all text. */
  datatype JobEdit = JobEdit(
    id: int, title: string, description: string, status: string, scheduledStart: string,
    scheduledEnd: string, customerId: string, technicianId: string)

  /** `s.substring(0, 16)`: the date and minutes of an ISO timestamp. */
  function First16(s: string): (r: string)
    ensures |r| <= 16 && |r| <= |s| && r == s[..|r|]
    ensures |s| >= 16 ==> |r| == 16
  {
    if |s| <= 16 then s else s[..16]
  }

  /** `x ? x.substring(0, 16) : ""`. */
  function DateField(v: Option<string>): (r: string)
    ensures r == "" <==> v.None? || v.value == ""
    ensures v.Some? ==> r == First16(v.value)
  {
    if v.Some? && v.value != "" then First16(v.value) else ""
  }

  /** Opening the edit dialog. */
  function SeedEdit(job: JobRecord): (e: JobEdit)
    ensures e.id == job.id && e.title == job.title
    ensures e.description == job.description.GetOr("")
    ensures e.status == (if job.status == "" then "NEW" else job.status)
    ensures e.scheduledStart == DateField(job.scheduledStart) && e.scheduledEnd == DateField(job.scheduledEnd)
    ensures ToNumber(e.customerId) == Num(job.customerId)
    ensures e.technicianId == job.technicianId.GetOr("")
  {
    ToNumberOfDecimal(job.customerId);
    JobEdit(
      job.id, job.title, job.description.GetOr(""), if job.status == "" then "NEW" else job.status,
      DateField(job.scheduledStart), DateField(job.scheduledEnd), IntToDecimal(job.customerId),
      job.technicianId.GetOr(""))
  }

  /** `None` for the customer id is an omitted key. */
  datatype JobUpdatePayload = JobUpdatePayload(
    title: string, description: Option<string>, status: string, scheduledStart: Option<string>,
    scheduledEnd: Option<string>, customerId: Option<JsNumber>, technicianId: Option<string>)

  /** The edit dialog's save: no field checks; `None` when a date throws. */
  function EditPayload(e: JobEdit, toIso: IsoRenderer): (r: Option<JobUpdatePayload>)
    ensures r.None? <==> BadDate(e.scheduledStart, toIso) || BadDate(e.scheduledEnd, toIso)
    ensures r.Some? ==> r.value.title == Trim(e.title) && r.value.status == TrimOrNull(e.status).GetOr("NEW")
    ensures r.Some? ==> r.value.description == TrimOrNull(e.description) && r.value.technicianId == TrimOrNull(e.technicianId)
    ensures r.Some? ==> r.value.customerId == if e.customerId == "" then None else Some(ToNumber(e.customerId))
  {
    var start := IsoOrNull(e.scheduledStart, toIso);
    var end := IsoOrNull(e.scheduledEnd, toIso);
    if start.None? || end.None? then None
    else
      Some(JobUpdatePayload(
        Trim(e.title), TrimOrNull(e.description), TrimOrNull(e.status).GetOr("NEW"), start.value, end.value,
        if e.customerId == "" then None else Some(ToNumber(e.customerId)), TrimOrNull(e.technicianId)))
  }

  /** Trimmed text is kept, blank text is a null. */
  predicate Tidy(v: Option<string>) {
    v.None? || (v.value != "" && Trim(v.value) == v.value)
  }

  /** Opening a tidy job for edit and saving it unchanged sends the job's own
      values (the dates through the renderer, cut to minutes). */
  lemma SaveUnchangedEdit(job: JobRecord, toIso: IsoRenderer)
    requires Trim(job.title) == job.title && Tidy(job.description) && Tidy(job.technicianId)
    requires job.status != "" && Trim(job.status) == job.status
    requires job.scheduledStart.None? && job.scheduledEnd.None?
    ensures EditPayload(SeedEdit(job), toIso) == Some(JobUpdatePayload(
      job.title, job.description, job.status, None, None, Some(Num(job.customerId)), job.technicianId))
  {
    var e := SeedEdit(job);
    assert e.customerId != "" by { ToNumberOfDecimal(job.customerId); }
    TidyRoundTrip(job.description);
    TidyRoundTrip(job.technicianId);
    TidyRoundTrip(Some(job.status));
  }

  /** A tidy value survives being shown in a text field and read back. */
  lemma TidyRoundTrip(v: Option<string>)
    requires Tidy(v)
    ensures TrimOrNull(v.GetOr("")) == v
  {
    if v.None? {
      assert AllSpace("");
    }
  }

  // ------------------------------------------------------------ list patches

  /** `rows.filter(r => r.id !== id)`: every entry with that id goes, every
      other entry stays as often as it was there, in order. */
  function RemoveById<T(!new)>(rows: seq<T>, idOf: T -> int, id: int): (r: seq<T>)
    ensures IsSubsequence(r, rows)
    ensures forall x :: x in r <==> x in rows && idOf(x) != id
    ensures forall x :: Count(r, x) == if idOf(x) != id then Count(rows, x) else 0
  {
    Filter(rows, x => idOf(x) != id)
  }

  /** `rows.map(r => r.id === updated.id ? updated : r)`. */
  function ReplaceById<T>(rows: seq<T>, idOf: T -> int, updated: T): (r: seq<T>)
    ensures |r| == |rows|
    ensures forall i :: 0 <= i < |rows| && idOf(rows[i]) == idOf(updated) ==> r[i] == updated
    ensures forall i :: 0 <= i < |rows| && idOf(rows[i]) != idOf(updated) ==> r[i] == rows[i]
  {
    if |rows| == 0 then []
    else [if idOf(rows[0]) == idOf(updated) then updated else rows[0]] + ReplaceById(rows[1..], idOf, updated)
  }

  /** Replacing touches nothing outside the updated id: removing that id
      afterwards gives what removing it before gives. */
  lemma {:induction false} ReplaceThenRemove<T(!new)>(rows: seq<T>, idOf: T -> int, updated: T)
    ensures RemoveById(ReplaceById(rows, idOf, updated), idOf, idOf(updated)) == RemoveById(rows, idOf, idOf(updated))
  {
    if |rows| > 0 {
      ReplaceThenRemove(rows[1..], idOf, updated);
      var r := ReplaceById(rows, idOf, updated);
      assert r[1..] == ReplaceById(rows[1..], idOf, updated);
    }
  }

  /** Which exception fields the customer page shows, in order of preference. */
  datatype DeleteError = DeleteError(detail: Option<string>, message: Option<string>)

  function CustomerDeleteMessage(e: DeleteError): (r: string)
    ensures r != ""
    ensures e.detail.Some? && e.detail.value != "" ==> r == e.detail.value
    ensures !(e.detail.Some? && e.detail.value != "") && e.message.Some? && e.message.value != "" ==> r == e.message.value
    ensures r == "Failed to delete customer." || Some(r) == e.detail || Some(r) == e.message
  {
    if e.detail.Some? && e.detail.value != "" then e.detail.value
    else if e.message.Some? && e.message.value != "" then e.message.value
    else "Failed to delete customer."
  }

  /** The customer row's delete button: nothing happens unless confirmed; on
      success the rows with that id go and the error is cleared; on failure the
      rows stay and the message is shown. */
  function DeleteCustomerFlow<T(!new)>(rows: seq<T>, idOf: T -> int, id: int, confirmed: bool,
                                       outcome: Result<(), DeleteError>, shown: Option<string>): (r: (seq<T>, Option<string>))
    ensures !confirmed ==> r == (rows, shown)
    ensures confirmed && outcome.Ok? ==> r.1.None? && IsSubsequence(r.0, rows)
    ensures confirmed && outcome.Ok? ==> forall x :: x in r.0 <==> x in rows && idOf(x) != id
    ensures confirmed && outcome.Ok? ==> forall x :: Count(r.0, x) == if idOf(x) != id then Count(rows, x) else 0
    ensures confirmed && outcome.Err? ==> r == (rows, Some(CustomerDeleteMessage(outcome.error)))
  {
    if !confirmed then (rows, shown)
    else match outcome
      case Ok(_) => (RemoveById(rows, idOf, id), None)
      case Err(e) => (rows, Some(CustomerDeleteMessage(e)))
  }

  /** The job row's delete button; a failure raises the alert text. */
  function DeleteJobFlow<E>(jobs: seq<JobRecord>, id: int, confirmed: bool, outcome: Result<(), E>): (r: (seq<JobRecord>, Option<string>))
    ensures !confirmed ==> r == (jobs, None)
    ensures confirmed && outcome.Ok? ==> r.1.None? && IsSubsequence(r.0, jobs)
    ensures confirmed && outcome.Ok? ==> forall j :: j in r.0 <==> j in jobs && j.id != id
    ensures confirmed && outcome.Ok? ==> forall j :: Count(r.0, j) == if j.id != id then Count(jobs, j) else 0
    ensures confirmed && outcome.Err? ==> r == (jobs, Some("Failed to delete job"))
  {
    if !confirmed then (jobs, None)
    else match outcome
      case Ok(_) => (RemoveById(jobs, JobId, id), None)
      case Err(_) => (jobs, Some("Failed to delete job"))
  }

  /** After a create call: the new job goes at the end of the list. */
  function CreateJobFlow<E>(jobs: seq<JobRecord>, outcome: Result<JobRecord, E>): (r: (seq<JobRecord>, Option<string>))
    ensures outcome.Ok? ==> |r.0| == |jobs| + 1 && r.0[..|jobs|] == jobs && r.0[|jobs|] == outcome.value && r.1.None?
    ensures outcome.Err? ==> r == (jobs, Some("Failed to create job"))
  {
    match outcome
    case Ok(job) => (jobs + [job], None)
    case Err(_) => (jobs, Some("Failed to create job"))
  }

  /** After the edit dialog's save: a thrown date or a failed call leave the list
      alone with "Failed to update job"; a saved job replaces every job with its id. */
  function UpdateJobFlow<E>(jobs: seq<JobRecord>, e: JobEdit, toIso: IsoRenderer,
                            save: JobUpdatePayload -> Result<JobRecord, E>): (r: (seq<JobRecord>, Option<string>))
    ensures r.1.None? <==> EditPayload(e, toIso).Some? && save(EditPayload(e, toIso).value).Ok?
    ensures r.1.Some? ==> r == (jobs, Some("Failed to update job"))
    ensures r.1.None? ==> r.0 == ReplaceById(jobs, JobId, save(EditPayload(e, toIso).value).value)
  {
    match EditPayload(e, toIso)
    case None => (jobs, Some("Failed to update job"))
    case Some(payload) =>
      match save(payload)
      case Err(_) => (jobs, Some("Failed to update job"))
      case Ok(updated) => (ReplaceById(jobs, JobId, updated), None)
  }
}

=== FILE: http_client.dfy ===
/** The shared HTTP client of the web app: its defaults, the request
    interceptor that puts `/api` in front of relative paths and attaches the
    bearer token, the pass-through response handling, and the "retry under
    `/api` on 404" pattern every resource call uses. The network is a
    parameter: a function from a request and the attempt number to a reply. */
module HttpClient {
  import opened Text
  import opened Results
  import opened Json

  datatype Method = Get | Post | Put | Delete

  datatype Request = Request(
    verb: Method,
    url: Option<string>,
    headers: map<string, string>,
    params: map<string, string>,
    body: Option<Json>,
    timeoutMs: int)

  /** What comes back: a status and a decoded body, or nothing at all. */
  datatype Reply = Response(status: int, data: Json) | NoResponse

  /** Why a call was rejected: an HTTP status outside 2xx, no reply, or a
      `TypeError` from reading a property of `null`. */
  datatype Failure = HttpStatus(status: int) | NoReply | NullData

  /** The instance defaults: JSON in both directions and a ten-second timeout. */
  const TimeoutMs := 10000
  const DefaultHeaders: map<string, string> :=
    map["Accept" := "application/json", "Content-Type" := "application/json"]

  function NewRequest(verb: Method, url: string, params: map<string, string>, body: Option<Json>): (r: Request)
    ensures r.url == Some(url) && r.timeoutMs == TimeoutMs
    ensures "Accept" in r.headers && r.headers["Accept"] == "application/json"
    ensures "Content-Type" in r.headers && r.headers["Content-Type"] == "application/json"
  {
    Request(verb, Some(url), DefaultHeaders, params, body, TimeoutMs)
  }

  /** The URL rewrite: a non-empty URL that starts with neither `/api/` nor
      `http` gets `/api` in front (with a `/` between when it has none). */
  function PrefixUrl(url: Option<string>): (r: Option<string>)
    ensures r.None? <==> url.None?
    ensures url == Some("") ==> r == url
    ensures r.Some? && r.value != "" ==> StartsWith(r.value, "/api/") || StartsWith(r.value, "http")
    ensures r.Some? && url.Some? ==> r.value == url.value || (|url.value| <= |r.value| && r.value[|r.value| - |url.value|..] == url.value)
  {
    match url
    case None => None
    case Some(u) =>
      if u != "" && !StartsWith(u, "/api/") && !StartsWith(u, "http") then
        var p := if StartsWith(u, "/") then "/api" + u else "/api/" + u;
        assert p[|p| - |u|..] == u;
        assert StartsWith(u, "/") ==> p[..5] == "/api/" by {
          if StartsWith(u, "/") {
            assert p[4] == u[0];
          }
        }
        Some(p)
      else url
  }

  lemma PrefixUrlIdempotent(url: Option<string>)
    ensures PrefixUrl(PrefixUrl(url)) == PrefixUrl(url)
  {
  }

  /** `/x` and `/api/x` end up as the same URL. */
  lemma PrefixUrlCollapses(p: string)
    requires StartsWith(p, "/") && !StartsWith(p, "/api/")
    ensures PrefixUrl(Some("/api" + p)) == PrefixUrl(Some(p)) == Some("/api" + p)
  {
    var q := "/api" + p;
    assert q[..5] == "/api/" by { assert q[4] == p[0]; }
    assert !StartsWith(p, "http") by { assert p[0] == '/'; }
  }

  /** Edge cases of the prefix test: `/api` itself is not `/api/`, a path without
      a slash gets one, and anything starting with `http` is left alone. */
  lemma PrefixUrlEdgeCases()
    ensures PrefixUrl(Some("/api")) == Some("/api/api")
    ensures PrefixUrl(Some("jobs")) == Some("/api/jobs")
    ensures PrefixUrl(Some("httpbin/get")) == Some("httpbin/get")
  {
    FirstCharDiffers("/api", "http");
    assert StartsWith("/api", "/");
    FirstCharDiffers("jobs", "/api/");
    FirstCharDiffers("jobs", "http");
    FirstCharDiffers("jobs", "/");
    assert "/api/api" == "/api" + "/api";
    assert "/api/jobs" == "/api/" + "jobs";
    assert StartsWith("httpbin/get", "http");
  }

  lemma FirstCharDiffers(s: string, p: string)
    requires |s| > 0 && |p| > 0 && s[0] != p[0]
    ensures !StartsWith(s, p)
  {
  }

  /** The bearer header, set exactly when a non-empty token is stored. */
  function AttachAuth(headers: map<string, string>, token: Option<string>): (r: map<string, string>)
    ensures token.Some? && token.value != "" ==>
      "Authorization" in r && r["Authorization"] == "Bearer " + token.value
    ensures !(token.Some? && token.value != "") ==> r == headers
    ensures forall k :: k != "Authorization" ==> (k in r <==> k in headers)
    ensures forall k :: k != "Authorization" && k in r ==> r[k] == headers[k]
  {
    if token.Some? && token.value != "" then headers["Authorization" := "Bearer " + token.value]
    else headers
  }

  /** The request interceptor. `token` is the stored token, `None` when there is
      none or when no browser window exists. */
  function InterceptRequest(req: Request, token: Option<string>): (r: Request)
    ensures r.url == PrefixUrl(req.url) && r.headers == AttachAuth(req.headers, token)
    ensures r.verb == req.verb && r.params == req.params && r.body == req.body && r.timeoutMs == req.timeoutMs
  {
    req.(url := PrefixUrl(req.url), headers := AttachAuth(req.headers, token))
  }

  /** Running the interceptor on its own output changes nothing. */
  lemma InterceptRequestIdempotent(req: Request, token: Option<string>)
    ensures InterceptRequest(InterceptRequest(req, token), token) == InterceptRequest(req, token)
  {
    PrefixUrlIdempotent(req.url);
  }

  /** Axios settles 2xx replies and rejects everything else; the response
      interceptor passes both on unchanged (its 401 branch does nothing). */
  function Settle(reply: Reply): (r: Result<Json, Failure>)
    ensures r.Ok? <==> reply.Response? && 200 <= reply.status < 300
    ensures r.Ok? ==> r.value == reply.data
    ensures reply.NoResponse? ==> r == Err(NoReply)
    ensures reply.Response? && !(200 <= reply.status < 300) ==> r == Err(HttpStatus(reply.status))
  {
    match reply
    case NoResponse => Err(NoReply)
    case Response(status, data) =>
      if 200 <= status < 300 then Ok(data) else Err(HttpStatus(status))
  }

  /** The network: the reply to a request on a given attempt. */
  type Network = (Request, nat) -> Reply

  function Send(net: Network, token: Option<string>, req: Request, attempt: nat): Result<Json, Failure> {
    Settle(net(InterceptRequest(req, token), attempt))
  }

  /** Sends `req`; only when that is rejected with 404, sends it again with the URL
      `fallbackUrl`. Gives the outcome and the number of requests sent. */
  function WithFallback(net: Network, token: Option<string>, req: Request, fallbackUrl: string): (r: (Result<Json, Failure>, nat))
    ensures r.1 == 2 <==> Send(net, token, req, 0) == Err(HttpStatus(404))
    ensures r.1 == 1 ==> r.0 == Send(net, token, req, 0)
    ensures r.1 == 2 ==> r.0 == Send(net, token, req.(url := Some(fallbackUrl)), 1)
    ensures r.1 == 1 || r.1 == 2
  {
    var first := Send(net, token, req, 0);
    if first == Err(HttpStatus(404)) then (Send(net, token, req.(url := Some(fallbackUrl)), 1), 2)
    else (first, 1)
  }

  /** After the interceptor the fallback request is the first request again. */
  lemma FallbackIsSameRequest(req: Request, token: Option<string>, p: string)
    requires StartsWith(p, "/") && !StartsWith(p, "/api/")
    ensures InterceptRequest(req.(url := Some("/api" + p)), token) == InterceptRequest(req.(url := Some(p)), token)
  {
    PrefixUrlCollapses(p);
  }

  /** So against a server whose answer does not depend on the attempt, a 404 on
      the first request is also the final outcome. */
  lemma StatelessFallbackRepeats404(net: Network, token: Option<string>, req: Request, p: string)
    requires req.url == Some(p) && StartsWith(p, "/") && !StartsWith(p, "/api/")
    requires forall x :: net(x, 0) == net(x, 1)
    requires Send(net, token, req, 0) == Err(HttpStatus(404))
    ensures WithFallback(net, token, req, "/api" + p) == (Err(HttpStatus(404)), 2)
  {
    FallbackIsSameRequest(req, token, p);
    assert req.(url := Some(p)) == req;
  }
}

=== FILE: jobs_service.dfy ===
/** The job service: create normalises title and description, update touches
    only supplied keys (some only when not null), delete removes one row.
    Timestamps are opaque strings. */
module JobsService {
  import opened Text
  import opened Results
  import opened Store

  type Timestamp = string

  datatype Job = Job(
    title: string, description: Option<string>, status: string,
    start: Option<Timestamp>, end: Option<Timestamp>,
    customerId: int, technicianId: Option<int>)

  datatype JobCreate = JobCreate(
    title: string, description: Option<string>, status: string,
    start: Option<Timestamp>, end: Option<Timestamp>,
    customerId: int, technicianId: Option<int>)

  datatype JobUpdate = JobUpdate(
    title: Supplied<Option<string>>, description: Supplied<Option<string>>, status: Supplied<Option<string>>,
    start: Supplied<Option<Timestamp>>, end: Supplied<Option<Timestamp>>,
    customerId: Supplied<Option<int>>, technicianId: Supplied<Option<int>>)

  const NotFound := "Job not found"

  /** The row a create stores: the title stripped, a non-empty description
      stripped, everything else copied (an absent optional stays null). */
  function NewJob(j: JobCreate): (r: Job)
    ensures r.title == Trim(j.title)
    ensures r.description.Some? <==> j.description.Some? && j.description.value != ""
    ensures r.description.Some? ==> r.description.value == Trim(j.description.value)
    ensures r.status == j.status && r.customerId == j.customerId
    ensures r.start == j.start && r.end == j.end && r.technicianId == j.technicianId
  {
    Job(Trim(j.title),
      if j.description.Some? && j.description.value != "" then Some(Trim(j.description.value)) else None,
      j.status, j.start, j.end, j.customerId, j.technicianId)
  }

  function CreateJob(db: map<nat, Job>, j: JobCreate, newId: nat): (r: map<nat, Job>)
    requires newId !in db
    ensures r.Keys == db.Keys + {newId}
    ensures r[newId] == NewJob(j)
    ensures forall k :: k in db ==> r[k] == db[k]
  {
    db[newId := NewJob(j)]
  }

  /** A non-null supplied value, or the old one. */
  function IfGiven<T>(s: Supplied<Option<T>>, current: T): (r: T)
    ensures s.Set? && s.value.Some? ==> r == s.value.value
    ensures !(s.Set? && s.value.Some?) ==> r == current
  {
    if s.Set? && s.value.Some? then s.value.value else current
  }

  /** A supplied value, even null, or the old one. */
  function IfSupplied<T>(s: Supplied<T>, current: T): (r: T)
    ensures s.Set? ==> r == s.value
    ensures s.Unset? ==> r == current
  {
    if s.Set? then s.value else current
  }

  function Updated(j: Job, u: JobUpdate): (r: Job)
    ensures u.title.Set? && u.title.value.Some? ==> r.title == Trim(u.title.value.value)
    ensures !(u.title.Set? && u.title.value.Some?) ==> r.title == j.title
    ensures u.description.Set? ==> (r.description.Some? <==> Filled(u.description.value))
    ensures u.description.Set? && Filled(u.description.value) ==> r.description == Some(Trim(u.description.value.value))
    ensures u.description.Unset? ==> r.description == j.description
    ensures r.status == IfGiven(u.status, j.status) && r.customerId == IfGiven(u.customerId, j.customerId)
    ensures r.start == IfSupplied(u.start, j.start) && r.end == IfSupplied(u.end, j.end)
    ensures r.technicianId == IfSupplied(u.technicianId, j.technicianId)
  {
    Job(
      if u.title.Set? && u.title.value.Some? then Trim(u.title.value.value) else j.title,
      if u.description.Set? then (if Filled(u.description.value) then Some(Trim(u.description.value.value)) else None) else j.description,
      IfGiven(u.status, j.status),
      IfSupplied(u.start, j.start), IfSupplied(u.end, j.end),
      IfGiven(u.customerId, j.customerId),
      IfSupplied(u.technicianId, j.technicianId))
  }

  function UpdateJob(db: map<nat, Job>, id: nat, u: JobUpdate): (r: Result<map<nat, Job>, Failure>)
    ensures r.Err? <==> id !in db
    ensures r.Err? ==> r.error == Http(404, NotFound)
    ensures r.Ok? ==> r.value.Keys == db.Keys && r.value[id] == Updated(db[id], u)
    ensures r.Ok? ==> forall k :: k in db && k != id ==> r.value[k] == db[k]
  {
    Update(db, id, j => Updated(j, u), NotFound)
  }

  const NothingSupplied := JobUpdate(Unset, Unset, Unset, Unset, Unset, Unset, Unset)

  /** An empty body changes nothing. */
  lemma EmptyUpdateIsIdentity(db: map<nat, Job>, id: nat)
    requires id in db
    ensures UpdateJob(db, id, NothingSupplied) == Ok(db)
  {
    assert db[id := db[id]] == db;
  }

  /** An explicit null clears the schedule and the technician, but leaves the
      title, status and customer as they were. */
  lemma NullClearsOnlyNullableKeys(j: Job)
    ensures var r := Updated(j, JobUpdate(Set(None), Set(None), Set(None), Set(None), Set(None), Set(None), Set(None)));
      r == j.(description := None, start := None, end := None, technicianId := None)
  {
  }

  /** Sending the same update twice gives the same row as sending it once. */
  lemma UpdateIdempotent(j: Job, u: JobUpdate)
    ensures Updated(Updated(j, u), u) == Updated(j, u)
  {
  }

  /** A row with a stripped title and a stripped, non-empty description (or
      none). */
  predicate Normalised(j: Job) {
    Trim(j.title) == j.title && (j.description.Some? ==> j.description.value != "" && Trim(j.description.value) == j.description.value)
  }

  /** Create stores a normalised row unless the description is blank but not
      empty, which is kept as `""`. */
  lemma NewJobNormalised(j: JobCreate)
    requires j.description.Some? && j.description.value != "" ==> !AllSpace(j.description.value)
    ensures Normalised(NewJob(j))
  {
    TrimIdempotent(j.title);
    if j.description.Some? && j.description.value != "" {
      TrimIdempotent(j.description.value);
    }
  }

  lemma BlankDescriptionStoredEmpty(j: JobCreate)
    requires j.description.Some? && j.description.value != "" && AllSpace(j.description.value)
    ensures NewJob(j).description == Some("")
  {
  }

  /** The body that sends every field back as it is stored. */
  function Resend(j: Job): JobUpdate {
    JobUpdate(Set(Some(j.title)), Set(j.description), Set(Some(j.status)), Set(j.start), Set(j.end),
      Set(Some(j.customerId)), Set(j.technicianId))
  }

  /** Sending a normalised row back unchanged leaves it as it is. */
  lemma ResendNormalisedIsIdentity(j: Job)
    requires Normalised(j)
    ensures Updated(j, Resend(j)) == j
  {
  }

  function DeleteJob(db: map<nat, Job>, id: nat): (r: Result<map<nat, Job>, Failure>)
    ensures r.Err? <==> id !in db
    ensures r.Err? ==> r.error == Http(404, NotFound)
    ensures r.Ok? ==> r.value.Keys == db.Keys - {id}
    ensures r.Ok? ==> forall k :: k in r.value ==> r.value[k] == db[k]
  {
    Delete(db, id, NotFound)
  }
}

=== FILE: json.dfy ===
/** JSON values as the web client receives them, with the JavaScript tests the
    client applies to them: truthiness, `typeof … === "object"`,
    `Array.isArray` and property access. */
module Json {
  import opened Results

  datatype Json =
    | JNull
    | JBool(b: bool)
    | JNum(n: int)
    | JStr(s: string)
    | JArr(elems: seq<Json>)
    | JObj(fields: map<string, Json>)

  /** JavaScript truthiness: `null`, `false`, `0` and `""` are falsy; arrays and
      objects, even empty ones, are truthy. */
  predicate Truthy(j: Json) {
    match j
    case JNull => false
    case JBool(b) => b
    case JNum(n) => n != 0
    case JStr(s) => s != ""
    case JArr(_) => true
    case JObj(_) => true
  }

  /** `typeof j === "object"`, which also holds for `null` and arrays. */
  predicate IsObjectType(j: Json) {
    j.JNull? || j.JArr? || j.JObj?
  }

  /** `j.key` on a value that is not `null`: `None` stands for `undefined`. */
  function Property(j: Json, key: string): (r: Option<Json>)
    requires !j.JNull?
    ensures r.Some? ==> j.JObj? && key in j.fields && r.value == j.fields[key]
    ensures j.JObj? && key in j.fields ==> r.Some?
  {
    if j.JObj? && key in j.fields then Some(j.fields[key]) else None
  }

  /** `Array.isArray(j.key)`. */
  predicate PropertyIsArray(j: Json, key: string)
    requires !j.JNull?
  {
    var p := Property(j, key);
    p.Some? && p.value.JArr?
  }

  /** The one value that is falsy yet of object type. */
  lemma NullIsTheFalsyObject(j: Json)
    ensures IsObjectType(j) && !Truthy(j) <==> j == JNull
  {
  }
}

=== FILE: resource_clients.dfy ===
/** The web client's calls for the three resources. Technicians, jobs and
    customers each have list, get, create, update and delete calls of the same
    shape: send to `/<resource>[/<id>]`, on 404 send again to
    `/api/<resource>[/<id>]`, then normalise the list or unwrap the item. The
    model writes each call once, with the resource as a parameter. */
module ResourceApi {
  import opened Text
  import opened Results
  import opened Json
  import opened HttpClient

  datatype Resource = Technicians | Jobs | Customers

  function CollectionPath(res: Resource): (r: string)
    ensures StartsWith(r, "/") && !StartsWith(r, "/api/")
  {
    match res
    case Technicians => "/technicians"
    case Jobs => assert "/jobs"[..5][1] != "/api/"[1]; "/jobs"
    case Customers => "/customers"
  }

  /** Technician ids are strings or numbers; job and customer ids are numbers. */
  datatype Id = TextId(text: string) | NumberId(number: int)

  /** The id as a template literal renders it. */
  function IdSegment(id: Id): string {
    match id
    case TextId(s) => s
    case NumberId(n) => IntToDecimal(n)
  }

  function ItemPath(res: Resource, id: Id): (r: string)
    ensures StartsWith(r, CollectionPath(res) + "/")
    ensures StartsWith(r, "/") && !StartsWith(r, "/api/")
  {
    var c := CollectionPath(res);
    var r := c + "/" + IdSegment(id);
    assert r[..|c + "/"|] == c + "/";
    assert r[..5] == c[..5];
    r
  }

  // ----------------------------------------------------------- normalising

  /** The list body in any of the accepted shapes: a bare array, `{items: [...]}`
      or `{results: [...]}` (in that order of preference); anything else is the
      empty list, except `null`, on which reading `.items` throws. */
  function NormaliseList(data: Json): (r: Result<seq<Json>, Failure>)
    ensures r.Err? <==> data == JNull
    ensures r.Err? ==> r.error == NullData
    ensures data.JArr? ==> r == Ok(data.elems)
    ensures r.Ok? && r.value != [] ==>
      data == JArr(r.value)
      || (data.JObj? && "items" in data.fields && data.fields["items"] == JArr(r.value))
      || (data.JObj? && "results" in data.fields && data.fields["results"] == JArr(r.value))
    ensures data.JObj? && "items" in data.fields && data.fields["items"].JArr? ==>
      r == Ok(data.fields["items"].elems)
    ensures (data.JObj? && !("items" in data.fields && data.fields["items"].JArr?)
             && "results" in data.fields && data.fields["results"].JArr?) ==>
      r == Ok(data.fields["results"].elems)
    ensures (data != JNull && !data.JArr?
             && !(data.JObj? && "items" in data.fields && data.fields["items"].JArr?)
             && !(data.JObj? && "results" in data.fields && data.fields["results"].JArr?)) ==>
      r == Ok([])
  {
    if data.JArr? then Ok(data.elems)
    else if data == JNull then Err(NullData)
    else if PropertyIsArray(data, "items") then Ok(Property(data, "items").value.elems)
    else if PropertyIsArray(data, "results") then Ok(Property(data, "results").value.elems)
    else Ok([])
  }

  /** Whatever else an object holds (the backend's page envelope adds `page`,
      `page_size` and `total`), an `items` array is the list and any `results`
      is ignored; a `results` array is the list when there is no `items`
      array; wrapping a list in either key gives the same list as sending it
      bare. */
  lemma NormaliseListShapes(xs: seq<Json>, ys: seq<Json>, m: map<string, Json>)
    ensures NormaliseList(JObj(m["items" := JArr(xs)])) == NormaliseList(JArr(xs))
    ensures NormaliseList(JObj(m["items" := JArr(xs)]["results" := JArr(ys)])) == Ok(xs)
    ensures "items" !in m ==> NormaliseList(JObj(m["results" := JArr(xs)])) == NormaliseList(JArr(xs))
    ensures ("items" !in m || !m["items"].JArr?) && ("results" !in m || !m["results"].JArr?) ==>
      NormaliseList(JObj(m)) == Ok([])
  {
    var both := m["items" := JArr(xs)]["results" := JArr(ys)];
    assert "items" in both && both["items"] == JArr(xs);
  }

  /** The get calls' unwrapping: a truthy object with a truthy, object-typed
      `item` gives that item; anything else is returned as it came. */
  function UnwrapFetched(data: Json): (r: Json)
    ensures r == data || (data.JObj? && "item" in data.fields && r == data.fields["item"])
    ensures r != data ==> Truthy(r) && IsObjectType(r)
    ensures data.JObj? && "item" in data.fields && Truthy(data.fields["item"]) && IsObjectType(data.fields["item"]) ==>
      r == data.fields["item"]
  {
    if Truthy(data) && IsObjectType(data) then
      var item := Property(data, "item");
      if item.Some? && Truthy(item.value) && IsObjectType(item.value) then item.value else data
    else data
  }

  /** The create and update calls' unwrapping: any truthy `item` is taken. */
  function UnwrapSaved(data: Json): (r: Json)
    ensures r == data || (data.JObj? && "item" in data.fields && r == data.fields["item"])
    ensures r != data ==> Truthy(r)
    ensures data.JObj? && "item" in data.fields && Truthy(data.fields["item"]) ==> r == data.fields["item"]
  {
    if Truthy(data) && IsObjectType(data) then
      var item := Property(data, "item");
      if item.Some? && Truthy(item.value) then item.value else data
    else data
  }

  /** Wrapping an object as `{item: x}` is undone by both unwrappers, and an
      object without `item` passes through both. */
  lemma UnwrapInvertsWrap(x: Json, plain: map<string, Json>)
    requires x.JObj?
    ensures UnwrapFetched(JObj(map["item" := x])) == x
    ensures UnwrapSaved(JObj(map["item" := x])) == x
    ensures "item" !in plain ==> UnwrapFetched(JObj(plain)) == JObj(plain) && UnwrapSaved(JObj(plain)) == JObj(plain)
  {
  }

  /** The two unwrappers differ on a non-object item: get keeps the wrapper. */
  lemma UnwrappersDisagreeOnScalarItem()
    ensures UnwrapSaved(JObj(map["item" := JStr("x")])) == JStr("x")
    ensures UnwrapFetched(JObj(map["item" := JStr("x")])) == JObj(map["item" := JStr("x")])
  {
  }

  // ------------------------------------------------------------------ calls

  /** The URL a call sends to after the interceptor: the `/api` path, for the
      first request and for its fallback alike. */
  lemma CallsReachApiPath(res: Resource, id: Id)
    ensures PrefixUrl(Some(CollectionPath(res))) == Some("/api" + CollectionPath(res))
    ensures PrefixUrl(Some("/api" + CollectionPath(res))) == Some("/api" + CollectionPath(res))
    ensures PrefixUrl(Some(ItemPath(res, id))) == Some("/api" + ItemPath(res, id))
    ensures PrefixUrl(Some("/api" + ItemPath(res, id))) == Some("/api" + ItemPath(res, id))
  {
    PrefixUrlCollapses(CollectionPath(res));
    PrefixUrlCollapses(ItemPath(res, id));
  }

  function ListRequest(res: Resource, params: map<string, string>): Request {
    NewRequest(Get, CollectionPath(res), if res == Technicians then params else map[], None)
  }

  /** The list call; only the technician list forwards query parameters. */
  function ListAll(net: Network, token: Option<string>, res: Resource, params: map<string, string>): (r: Result<seq<Json>, Failure>)
    ensures var first := Send(net, token, ListRequest(res, params), 0);
      (first.Ok? ==> r == NormaliseList(first.value))
      && (first.Err? && first.error != HttpStatus(404) ==> r == Err(first.error))
    ensures var second := Send(net, token, ListRequest(res, params).(url := Some("/api" + CollectionPath(res))), 1);
      Send(net, token, ListRequest(res, params), 0) == Err(HttpStatus(404)) ==>
      r == (if second.Ok? then NormaliseList(second.value) else Err(second.error))
  {
    var (got, _) := WithFallback(net, token, ListRequest(res, params), "/api" + CollectionPath(res));
    match got
    case Err(e) => Err(e)
    case Ok(data) => NormaliseList(data)
  }

  function GetRequest(res: Resource, id: Id): Request {
    NewRequest(Get, ItemPath(res, id), map[], None)
  }

  function FetchOne(net: Network, token: Option<string>, res: Resource, id: Id): (r: Result<Json, Failure>)
    ensures var first := Send(net, token, GetRequest(res, id), 0);
      (first.Ok? ==> r == Ok(UnwrapFetched(first.value)))
      && (first.Err? && first.error != HttpStatus(404) ==> r == Err(first.error))
    ensures var second := Send(net, token, GetRequest(res, id).(url := Some("/api" + ItemPath(res, id))), 1);
      Send(net, token, GetRequest(res, id), 0) == Err(HttpStatus(404)) ==>
      r == (if second.Ok? then Ok(UnwrapFetched(second.value)) else Err(second.error))
  {
    var (got, _) := WithFallback(net, token, GetRequest(res, id), "/api" + ItemPath(res, id));
    match got
    case Err(e) => Err(e)
    case Ok(data) => Ok(UnwrapFetched(data))
  }

  function CreateRequest(res: Resource, payload: Json): Request {
    NewRequest(Post, CollectionPath(res), map[], Some(payload))
  }

  function CreateOne(net: Network, token: Option<string>, res: Resource, payload: Json): (r: Result<Json, Failure>)
    ensures var first := Send(net, token, CreateRequest(res, payload), 0);
      (first.Ok? ==> r == Ok(UnwrapSaved(first.value)))
      && (first.Err? && first.error != HttpStatus(404) ==> r == Err(first.error))
    ensures var second := Send(net, token, CreateRequest(res, payload).(url := Some("/api" + CollectionPath(res))), 1);
      Send(net, token, CreateRequest(res, payload), 0) == Err(HttpStatus(404)) ==>
      r == (if second.Ok? then Ok(UnwrapSaved(second.value)) else Err(second.error))
  {
    var (got, _) := WithFallback(net, token, CreateRequest(res, payload), "/api" + CollectionPath(res));
    match got
    case Err(e) => Err(e)
    case Ok(data) => Ok(UnwrapSaved(data))
  }

  function UpdateRequest(res: Resource, id: Id, payload: Json): Request {
    NewRequest(Put, ItemPath(res, id), map[], Some(payload))
  }

  function UpdateOne(net: Network, token: Option<string>, res: Resource, id: Id, payload: Json): (r: Result<Json, Failure>)
    ensures var first := Send(net, token, UpdateRequest(res, id, payload), 0);
      (first.Ok? ==> r == Ok(UnwrapSaved(first.value)))
      && (first.Err? && first.error != HttpStatus(404) ==> r == Err(first.error))
    ensures var second := Send(net, token, UpdateRequest(res, id, payload).(url := Some("/api" + ItemPath(res, id))), 1);
      Send(net, token, UpdateRequest(res, id, payload), 0) == Err(HttpStatus(404)) ==>
      r == (if second.Ok? then Ok(UnwrapSaved(second.value)) else Err(second.error))
  {
    var (got, _) := WithFallback(net, token, UpdateRequest(res, id, payload), "/api" + ItemPath(res, id));
    match got
    case Err(e) => Err(e)
    case Ok(data) => Ok(UnwrapSaved(data))
  }

  function DeleteRequest(res: Resource, id: Id): Request {
    NewRequest(Delete, ItemPath(res, id), map[], None)
  }

  /** The delete call; the reply body is ignored. */
  function DeleteOne(net: Network, token: Option<string>, res: Resource, id: Id): (r: Result<(), Failure>)
    ensures var first := Send(net, token, DeleteRequest(res, id), 0);
      (first.Ok? ==> r == Ok(()))
      && (first.Err? && first.error != HttpStatus(404) ==> r == Err(first.error))
    ensures var second := Send(net, token, DeleteRequest(res, id).(url := Some("/api" + ItemPath(res, id))), 1);
      Send(net, token, DeleteRequest(res, id), 0) == Err(HttpStatus(404)) ==>
      r == (if second.Ok? then Ok(()) else Err(second.error))
  {
    var (got, _) := WithFallback(net, token, DeleteRequest(res, id), "/api" + ItemPath(res, id));
    match got
    case Err(e) => Err(e)
    case Ok(_) => Ok(())
  }

  /** Against a server that answers the same request the same way every time, a
      missing record stays missing: the fallback delete reports the same 404. */
  lemma DeleteOfMissingFails(net: Network, token: Option<string>, res: Resource, id: Id)
    requires forall x :: net(x, 0) == net(x, 1)
    requires Send(net, token, DeleteRequest(res, id), 0) == Err(HttpStatus(404))
    ensures DeleteOne(net, token, res, id) == Err(HttpStatus(404))
  {
    StatelessFallbackRepeats404(net, token, DeleteRequest(res, id), ItemPath(res, id));
  }

  /** The same for the list call. */
  lemma ListOfMissingRouteFails(net: Network, token: Option<string>, res: Resource, params: map<string, string>)
    requires forall x :: net(x, 0) == net(x, 1)
    requires Send(net, token, ListRequest(res, params), 0) == Err(HttpStatus(404))
    ensures ListAll(net, token, res, params) == Err(HttpStatus(404))
  {
    StatelessFallbackRepeats404(net, token, ListRequest(res, params), CollectionPath(res));
  }
}

=== FILE: seqs.dfy ===
/** Optional values, standing for JavaScript's `null`/`undefined` and Python's
    `None`, and results with an error, standing for thrown errors. */
module Results {

  datatype Option<+T> = None | Some(value: T) {
    function GetOr(default: T): T {
      match this
      case Some(v) => v
      case None => default
    }
  }

  datatype Result<+T, +E> = Ok(value: T) | Err(error: E)
}

/** Order-preserving sequence operations: subsequences, filtering and
    first-occurrence de-duplication. */
module Seqs {

  function Min(a: int, b: int): int {
    if a < b then a else b
  }

  /** `a` is obtained from `b` by deleting elements, order kept. */
  predicate IsSubsequence<T(==)>(a: seq<T>, b: seq<T>)
    decreases |b|
  {
    if |a| == 0 then true
    else if |b| == 0 then false
    else if a[0] == b[0] then IsSubsequence(a[1..], b[1..])
    else IsSubsequence(a, b[1..])
  }

  lemma {:induction false} SubsequenceDropHead<T>(a: seq<T>, b: seq<T>)
    requires |a| > 0 && IsSubsequence(a, b)
    ensures IsSubsequence(a[1..], b)
    decreases |b|, 1
  {
    if a[0] != b[0] {
      SubsequenceDropHead(a, b[1..]);
      SubsequenceSkip(a[1..], b);
    } else {
      SubsequenceSkip(a[1..], b);
    }
  }

  lemma {:induction false} SubsequenceSkip<T>(a: seq<T>, b: seq<T>)
    requires |b| > 0 && IsSubsequence(a, b[1..])
    ensures IsSubsequence(a, b)
    decreases |b|, 0
  {
    if |a| > 0 && a[0] == b[0] {
      SubsequenceDropHead(a, b[1..]);
    }
  }

  lemma {:induction false} SubsequenceReflexive<T>(a: seq<T>)
    ensures IsSubsequence(a, a)
  {
    if |a| > 0 {
      SubsequenceReflexive(a[1..]);
    }
  }

  /** A subsequence is never longer than what it was taken from. */
  lemma {:induction false} SubsequenceLength<T>(a: seq<T>, b: seq<T>)
    requires IsSubsequence(a, b)
    ensures |a| <= |b|
    decreases |b|
  {
    if |a| > 0 {
      if a[0] == b[0] {
        SubsequenceLength(a[1..], b[1..]);
      } else {
        SubsequenceLength(a, b[1..]);
      }
    }
  }

  /** Chained order-preserving deletions are one order-preserving deletion. */
  lemma {:induction false} SubsequenceTransitive<T>(a: seq<T>, b: seq<T>, c: seq<T>)
    requires IsSubsequence(a, b) && IsSubsequence(b, c)
    ensures IsSubsequence(a, c)
    decreases |c|
  {
    if |a| == 0 {
    } else if |b| == 0 {
    } else if b[0] == c[0] {
      if a[0] == b[0] {
        SubsequenceTransitive(a[1..], b[1..], c[1..]);
      } else {
        SubsequenceTransitive(a, b[1..], c[1..]);
        SubsequenceSkip(a, c);
      }
    } else {
      SubsequenceTransitive(a, b, c[1..]);
      SubsequenceSkip(a, c);
    }
  }

  /** A property every element of `b` has, every element of a subsequence has. */
  lemma SubsequenceKeeps<T>(a: seq<T>, b: seq<T>, p: T -> bool)
    requires IsSubsequence(a, b)
    requires forall i :: 0 <= i < |b| ==> p(b[i])
    ensures forall i :: 0 <= i < |a| ==> p(a[i])
  {
    SubsequenceMembers(a, b);
    forall i | 0 <= i < |a| ensures p(a[i]) {
      assert a[i] in b;
    }
  }

  lemma {:induction false} SubsequenceMembers<T>(a: seq<T>, b: seq<T>)
    requires IsSubsequence(a, b)
    ensures forall x :: x in a ==> x in b
    decreases |b|
  {
    if |a| > 0 {
      assert b == [b[0]] + b[1..];
      if a[0] == b[0] {
        SubsequenceMembers(a[1..], b[1..]);
        assert a == [a[0]] + a[1..];
      } else {
        SubsequenceMembers(a, b[1..]);
      }
    }
  }

  /** How many times `x` occurs in `s`. */
  ghost function Count<T>(s: seq<T>, x: T): nat {
    if |s| == 0 then 0 else (if s[0] == x then 1 else 0) + Count(s[1..], x)
  }

  /** Count is multiset multiplicity. */
  lemma {:induction false} CountIsMultiplicity<T>(s: seq<T>, x: T)
    ensures Count(s, x) == multiset(s)[x]
  {
    if |s| > 0 {
      CountIsMultiplicity(s[1..], x);
      assert s == [s[0]] + s[1..];
    }
  }

  /** `s.filter(p)`: the elements satisfying `p`, in order, each as often as in `s`. */
  function Filter<T(!new)>(s: seq<T>, p: T -> bool): (r: seq<T>)
    ensures IsSubsequence(r, s)
    ensures forall x :: x in r <==> x in s && p(x)
    ensures forall x :: Count(r, x) == if p(x) then Count(s, x) else 0
  {
    if |s| == 0 then []
    else
      var rest := Filter(s[1..], p);
      assert s == [s[0]] + s[1..];
      assert ([s[0]] + rest)[0] == s[0] && ([s[0]] + rest)[1..] == rest;
      if p(s[0]) then [s[0]] + rest
      else
        SubsequenceSkip(rest, s);
        rest
  }

  /** Each kept value is kept as often as it occurs; the others not at all. */
  lemma {:induction false} FilterCounts<T(!new)>(s: seq<T>, p: T -> bool, x: T)
    ensures multiset(Filter(s, p))[x] == if p(x) then multiset(s)[x] else 0
  {
    if |s| > 0 {
      FilterCounts(s[1..], p, x);
      assert s == [s[0]] + s[1..];
    }
  }

  /** Filtering a list with a head: the head, if it passes, then the tail's filter. */
  lemma FilterCons<T(!new)>(x: T, s: seq<T>, p: T -> bool)
    ensures Filter([x] + s, p) == if p(x) then [x] + Filter(s, p) else Filter(s, p)
  {
    assert ([x] + s)[0] == x && ([x] + s)[1..] == s;
  }

  lemma {:induction false} FilterConcat<T(!new)>(a: seq<T>, b: seq<T>, p: T -> bool)
    ensures Filter(a + b, p) == Filter(a, p) + Filter(b, p)
  {
    if |a| > 0 {
      var x, t := a[0], a[1..];
      assert a == [x] + t;
      assert a + b == [x] + (t + b);
      FilterCons(x, t + b, p);
      FilterCons(x, t, p);
      FilterConcat(t, b, p);
      if p(x) {
        calc {
          Filter(a + b, p);
          [x] + Filter(t + b, p);
          [x] + (Filter(t, p) + Filter(b, p));
          ([x] + Filter(t, p)) + Filter(b, p);
          Filter(a, p) + Filter(b, p);
        }
      }
    } else {
      assert a + b == b;
    }
  }

  lemma {:induction false} FilterKeepsAll<T(!new)>(s: seq<T>, p: T -> bool)
    requires forall i :: 0 <= i < |s| ==> p(s[i])
    ensures Filter(s, p) == s
  {
    if |s| > 0 {
      FilterKeepsAll(s[1..], p);
    }
  }

  lemma {:induction false} FilterDropsAll<T(!new)>(s: seq<T>, p: T -> bool)
    requires forall i :: 0 <= i < |s| ==> !p(s[i])
    ensures Filter(s, p) == []
  {
    if |s| > 0 {
      FilterDropsAll(s[1..], p);
    }
  }

  /** `s[i]` is the first element of `s` with its key. */
  predicate FirstOfKey<T, K(==)>(s: seq<T>, key: T -> K, i: int) {
    0 <= i < |s| && forall j :: 0 <= j < i ==> key(s[j]) != key(s[i])
  }

  /** Keeps the first element for each key not already in `seen`, in order. */
  function DedupeBy<T(==,!new), K(==)>(xs: seq<T>, key: T -> K, seen: set<K>): (r: seq<T>)
    ensures IsSubsequence(r, xs)
    ensures forall i, j :: 0 <= i < j < |r| ==> key(r[i]) != key(r[j])
    ensures forall i :: 0 <= i < |r| ==> key(r[i]) !in seen
  {
    if |xs| == 0 then []
    else
      var x := xs[0];
      if key(x) in seen then
        var r := DedupeBy(xs[1..], key, seen);
        SubsequenceSkip(r, xs);
        r
      else
        var rest := DedupeBy(xs[1..], key, seen + {key(x)});
        assert ([x] + rest)[1..] == rest;
        [x] + rest
  }

  /** Every kept element is the first one of `xs` with its key. */
  lemma {:induction false} DedupeByKeepsFirst<T(!new), K>(xs: seq<T>, key: T -> K, seen: set<K>)
    ensures forall k :: 0 <= k < |DedupeBy(xs, key, seen)| ==>
      exists i :: FirstOfKey(xs, key, i) && xs[i] == DedupeBy(xs, key, seen)[k]
  {
    if |xs| > 0 {
      var x := xs[0];
      var r := DedupeBy(xs, key, seen);
      if key(x) in seen {
        DedupeByKeepsFirst(xs[1..], key, seen);
        assert r == DedupeBy(xs[1..], key, seen);
        forall k | 0 <= k < |r| ensures exists i :: FirstOfKey(xs, key, i) && xs[i] == r[k] {
          var i :| FirstOfKey(xs[1..], key, i) && xs[1..][i] == r[k];
          assert key(r[k]) !in seen;
          assert forall j :: 1 <= j < i + 1 ==> xs[j] == xs[1..][j - 1];
          assert FirstOfKey(xs, key, i + 1);
        }
        assert forall k :: 0 <= k < |r| ==> exists i :: FirstOfKey(xs, key, i) && xs[i] == r[k];
      } else {
        var rest := DedupeBy(xs[1..], key, seen + {key(x)});
        DedupeByKeepsFirst(xs[1..], key, seen + {key(x)});
        assert r == [x] + rest;
        forall k | 0 <= k < |r| ensures exists i :: FirstOfKey(xs, key, i) && xs[i] == r[k] {
          if k == 0 {
            assert FirstOfKey(xs, key, 0);
          } else {
            var i :| FirstOfKey(xs[1..], key, i) && xs[1..][i] == rest[k - 1];
            assert key(rest[k - 1]) != key(x);
            assert forall j :: 1 <= j < i + 1 ==> xs[j] == xs[1..][j - 1];
            assert FirstOfKey(xs, key, i + 1);
          }
        }
        assert forall k :: 0 <= k < |r| ==> exists i :: FirstOfKey(xs, key, i) && xs[i] == r[k];
      }
    } else {
      assert DedupeBy(xs, key, seen) == [];
    }
  }

  /** `r` is read off `xs` at the positions `idx`, which are exactly the
      indices whose element is the first of its key and whose key is not in
      `seen`, in increasing order. */
  predicate KeptAt<T(==), K(==)>(xs: seq<T>, key: T -> K, seen: set<K>, r: seq<T>, idx: seq<nat>) {
    |idx| == |r|
    && (forall k :: 0 <= k < |idx| ==> FirstOfKey(xs, key, idx[k]) && key(xs[idx[k]]) !in seen && xs[idx[k]] == r[k])
    && Increasing(idx)
    && (forall i :: 0 <= i < |xs| && FirstOfKey(xs, key, i) && key(xs[i]) !in seen ==> i in idx)
  }

  function Shifted(idx: seq<nat>): (r: seq<nat>)
    ensures |r| == |idx| && forall k :: 0 <= k < |idx| ==> r[k] == idx[k] + 1
  {
    seq(|idx|, k requires 0 <= k < |idx| => idx[k] + 1)
  }

  /** DedupeBy keeps the first element of each unseen key, in the order those
      first elements occur in `xs`. */
  lemma {:induction false} DedupeByOrder<T(!new), K>(xs: seq<T>, key: T -> K, seen: set<K>)
    ensures exists idx :: KeptAt(xs, key, seen, DedupeBy(xs, key, seen), idx)
  {
    if |xs| == 0 {
      assert KeptAt(xs, key, seen, DedupeBy(xs, key, seen), []);
    } else if key(xs[0]) in seen {
      var r := DedupeBy(xs[1..], key, seen);
      DedupeByOrder(xs[1..], key, seen);
      var idx :| KeptAt(xs[1..], key, seen, r, idx);
      KeptAtSkip(xs, key, seen, r, idx);
      assert DedupeBy(xs, key, seen) == r;
      assert KeptAt(xs, key, seen, DedupeBy(xs, key, seen), Shifted(idx));
    } else {
      var seen' := seen + {key(xs[0])};
      var rest := DedupeBy(xs[1..], key, seen');
      DedupeByOrder(xs[1..], key, seen');
      var idx :| KeptAt(xs[1..], key, seen', rest, idx);
      KeptAtTake(xs, key, seen, rest, idx);
      assert DedupeBy(xs, key, seen) == [xs[0]] + rest;
      assert KeptAt(xs, key, seen, DedupeBy(xs, key, seen), [0] + Shifted(idx));
    }
  }

  /** A head whose key is already seen is skipped: the tail's positions move
      one place on. */
  lemma KeptAtSkip<T, K>(xs: seq<T>, key: T -> K, seen: set<K>, r: seq<T>, idx: seq<nat>)
    requires |xs| > 0 && key(xs[0]) in seen
    requires KeptAt(xs[1..], key, seen, r, idx)
    ensures KeptAt(xs, key, seen, r, Shifted(idx))
  {
    DropFirstOfKey(xs, key, seen, idx);
    ShiftedMembers(xs, key, seen, idx);
  }

  /** A head with an unseen key is kept at position 0, before the tail's
      positions moved one place on. */
  lemma KeptAtTake<T, K>(xs: seq<T>, key: T -> K, seen: set<K>, rest: seq<T>, idx: seq<nat>)
    requires |xs| > 0 && key(xs[0]) !in seen
    requires KeptAt(xs[1..], key, seen + {key(xs[0])}, rest, idx)
    ensures KeptAt(xs, key, seen, [xs[0]] + rest, [0] + Shifted(idx))
  {
    TakePositions(xs, key, seen, rest, idx);
    TakeMembers(xs, key, seen, idx);
    assert Increasing([0] + Shifted(idx));
  }

  lemma TakePositions<T, K>(xs: seq<T>, key: T -> K, seen: set<K>, rest: seq<T>, idx: seq<nat>)
    requires |xs| > 0 && key(xs[0]) !in seen && |idx| == |rest|
    requires forall k :: 0 <= k < |idx| ==>
      FirstOfKey(xs[1..], key, idx[k]) && key(xs[1..][idx[k]]) !in seen + {key(xs[0])} && xs[1..][idx[k]] == rest[k]
    ensures var all, r := [0] + Shifted(idx), [xs[0]] + rest;
      forall k :: 0 <= k < |all| ==> FirstOfKey(xs, key, all[k]) && key(xs[all[k]]) !in seen && xs[all[k]] == r[k]
  {
    DropFirstOfKey(xs, key, seen + {key(xs[0])}, idx);
    assert FirstOfKey(xs, key, 0);
  }

  lemma TakeMembers<T, K>(xs: seq<T>, key: T -> K, seen: set<K>, idx: seq<nat>)
    requires |xs| > 0 && key(xs[0]) !in seen
    requires forall i :: 0 <= i < |xs[1..]| && FirstOfKey(xs[1..], key, i) && key(xs[1..][i]) !in seen + {key(xs[0])} ==> i in idx
    ensures forall i :: 0 <= i < |xs| && FirstOfKey(xs, key, i) && key(xs[i]) !in seen ==> i in [0] + Shifted(idx)
  {
    var seen' := seen + {key(xs[0])};
    ShiftedMembers(xs, key, seen', idx);
    forall i | 0 <= i < |xs| && FirstOfKey(xs, key, i) && key(xs[i]) !in seen ensures i in [0] + Shifted(idx) {
      if i > 0 {
        assert key(xs[i]) != key(xs[0]);
        assert i in Shifted(idx);
      }
    }
  }

  /** A first-of-key position in the tail, whose key differs from the head's,
      is a first-of-key position of the whole list one place further on. */
  lemma DropFirstOfKey<T, K>(xs: seq<T>, key: T -> K, seen: set<K>, idx: seq<nat>)
    requires |xs| > 0 && key(xs[0]) in seen
    requires forall k :: 0 <= k < |idx| ==> FirstOfKey(xs[1..], key, idx[k]) && key(xs[1..][idx[k]]) !in seen
    ensures forall k :: 0 <= k < |idx| ==> FirstOfKey(xs, key, idx[k] + 1) && xs[idx[k] + 1] == xs[1..][idx[k]]
  {
    forall k | 0 <= k < |idx| ensures FirstOfKey(xs, key, idx[k] + 1) && xs[idx[k] + 1] == xs[1..][idx[k]] {
      var i := idx[k];
      assert forall j :: 1 <= j < i + 1 ==> xs[j] == xs[1..][j - 1];
    }
  }

  /** A first-of-key position of the whole list past the head, with an unseen
      key, is one place beyond a recorded position of the tail. */
  lemma ShiftedMembers<T, K>(xs: seq<T>, key: T -> K, seen: set<K>, idx: seq<nat>)
    requires |xs| > 0 && key(xs[0]) in seen
    requires forall i :: FirstOfKey(xs[1..], key, i) && key(xs[1..][i]) !in seen ==> i in idx
    ensures forall i :: FirstOfKey(xs, key, i) && key(xs[i]) !in seen ==> i in Shifted(idx)
  {
    forall i | FirstOfKey(xs, key, i) && key(xs[i]) !in seen ensures i in Shifted(idx) {
      assert i > 0;
      assert forall j :: 0 <= j < i - 1 ==> xs[1..][j] == xs[j + 1];
      assert FirstOfKey(xs[1..], key, i - 1);
      var k :| 0 <= k < |idx| && idx[k] == i - 1;
      assert Shifted(idx)[k] == i;
    }
  }

  predicate Increasing(s: seq<nat>) {
    forall i, j :: 0 <= i < j < |s| ==> s[i] < s[j]
  }

  /** Two increasing sequences with the same members are equal. */
  lemma {:induction false} IncreasingSameMembers(a: seq<nat>, b: seq<nat>)
    requires Increasing(a) && Increasing(b)
    requires forall v :: v in a <==> v in b
    ensures a == b
    decreases |a|
  {
    assert forall k :: 0 <= k < |a| ==> a[k] in b;
    assert forall k :: 0 <= k < |b| ==> b[k] in a;
    if |a| > 0 && |b| > 0 {
      HeadsAgree(a, b);
      TailsSameMembers(a, b);
      IncreasingSameMembers(a[1..], b[1..]);
      assert a == [a[0]] + a[1..] && b == [b[0]] + b[1..];
    }
  }

  lemma HeadsAgree(a: seq<nat>, b: seq<nat>)
    requires Increasing(a) && Increasing(b) && |a| > 0 && |b| > 0
    requires a[0] in b && b[0] in a
    ensures a[0] == b[0]
  {
    var i :| 0 <= i < |b| && b[i] == a[0];
    var j :| 0 <= j < |a| && a[j] == b[0];
    assert b[0] <= b[i] && a[0] <= a[j];
  }

  lemma TailsSameMembers(a: seq<nat>, b: seq<nat>)
    requires Increasing(a) && Increasing(b) && |a| > 0 && |b| > 0 && a[0] == b[0]
    requires forall v :: v in a <==> v in b
    ensures Increasing(a[1..]) && Increasing(b[1..])
    ensures forall v :: v in a[1..] <==> v in b[1..]
  {
    forall v ensures v in a[1..] ==> v in b[1..] {
      if v in a[1..] {
        var i :| 1 <= i < |a| && a[i] == v;
        assert v in a;
        var j :| 0 <= j < |b| && b[j] == v;
        assert j != 0;
      }
    }
    forall v ensures v in b[1..] ==> v in a[1..] {
      if v in b[1..] {
        var j :| 1 <= j < |b| && b[j] == v;
        assert v in b;
        var i :| 0 <= i < |a| && a[i] == v;
        assert i != 0;
      }
    }
  }

  /** The positions pin the result: any `r` read off at the first-of-key
      positions is what DedupeBy returns. */
  lemma DedupeByDetermined<T(!new), K>(xs: seq<T>, key: T -> K, seen: set<K>, r: seq<T>, idx: seq<nat>)
    requires KeptAt(xs, key, seen, r, idx)
    ensures r == DedupeBy(xs, key, seen)
  {
    DedupeByOrder(xs, key, seen);
    var d := DedupeBy(xs, key, seen);
    var idx' :| KeptAt(xs, key, seen, d, idx');
    IncreasingSameMembers(idx, idx');
  }

  /** No key is lost: every unseen key of `xs` is the key of some kept element. */
  lemma {:induction false} DedupeByComplete<T(!new), K>(xs: seq<T>, key: T -> K, seen: set<K>, y: T)
    requires y in xs && key(y) !in seen
    ensures exists k :: 0 <= k < |DedupeBy(xs, key, seen)| && key(DedupeBy(xs, key, seen)[k]) == key(y)
  {
    var x := xs[0];
    var r := DedupeBy(xs, key, seen);
    if key(x) in seen {
      assert y in xs[1..];
      DedupeByComplete(xs[1..], key, seen, y);
    } else if key(y) == key(x) {
      assert key(r[0]) == key(y);
    } else {
      assert y in xs[1..];
      var rest := DedupeBy(xs[1..], key, seen + {key(x)});
      DedupeByComplete(xs[1..], key, seen + {key(x)}, y);
      var k :| 0 <= k < |rest| && key(rest[k]) == key(y);
      assert key(r[k + 1]) == key(y);
    }
  }

  /** A list whose keys are already distinct and unseen is left as it is. */
  lemma {:induction false} DedupeByFixpoint<T(!new), K>(xs: seq<T>, key: T -> K, seen: set<K>)
    requires forall i, j :: 0 <= i < j < |xs| ==> key(xs[i]) != key(xs[j])
    requires forall i :: 0 <= i < |xs| ==> key(xs[i]) !in seen
    ensures DedupeBy(xs, key, seen) == xs
  {
    if |xs| > 0 {
      DedupeByFixpoint(xs[1..], key, seen + {key(xs[0])});
    }
  }
}

=== FILE: sorting.dfy ===
/** A stable sort on string keys, the model of `Array.prototype.sort` with a
    comparator that only compares keys (stable since the 2019 edition of ECMA-262). */
module Sorting {
  import opened Text

  datatype Direction = Asc | Desc

  /** Key `a` goes strictly before key `b` in the given direction. */
  predicate Precedes(dir: Direction, a: string, b: string) {
    if dir == Asc then LexLess(a, b) else LexLess(b, a)
  }

  lemma PrecedesIrreflexive(dir: Direction, a: string)
    ensures !Precedes(dir, a, a)
  {
    LexLessIrreflexive(a);
  }

  lemma PrecedesAsymmetric(dir: Direction, a: string, b: string)
    ensures !(Precedes(dir, a, b) && Precedes(dir, b, a))
  {
    LexLessAsymmetric(a, b);
  }

  /** "Not before" is transitive: the comparator is a total preorder on keys. */
  lemma NotPrecedesTransitive(dir: Direction, a: string, b: string, c: string)
    requires !Precedes(dir, b, a) && !Precedes(dir, c, b)
    ensures !Precedes(dir, c, a)
  {
    LexLessTotal(a, b);
    LexLessTotal(b, c);
    if a != b && b != c {
      if dir == Asc {
        LexLessTransitive(a, b, c);
        LexLessAsymmetric(a, c);
      } else {
        LexLessTransitive(c, b, a);
        LexLessAsymmetric(a, c);
      }
    }
  }

  /** No element is preceded by a later one. */
  predicate SortedBy<T>(s: seq<T>, key: T -> string, dir: Direction) {
    forall i, j :: 0 <= i < j < |s| ==> !Precedes(dir, key(s[j]), key(s[i]))
  }

  /** The elements of `s` whose key is `k`, in order. */
  function WithKey<T>(s: seq<T>, key: T -> string, k: string): seq<T> {
    if |s| == 0 then []
    else (if key(s[0]) == k then [s[0]] else []) + WithKey(s[1..], key, k)
  }

  /** Places `x` before the first element that it does not strictly follow. */
  function Insert<T>(x: T, s: seq<T>, key: T -> string, dir: Direction): seq<T> {
    if |s| == 0 then [x]
    else if Precedes(dir, key(s[0]), key(x)) then [s[0]] + Insert(x, s[1..], key, dir)
    else [x] + s
  }

  lemma {:induction false} InsertPermutes<T>(x: T, s: seq<T>, key: T -> string, dir: Direction)
    ensures multiset(Insert(x, s, key, dir)) == multiset(s) + multiset{x}
  {
    if |s| > 0 && Precedes(dir, key(s[0]), key(x)) {
      InsertPermutes(x, s[1..], key, dir);
      assert s == [s[0]] + s[1..];
    }
  }

  /** A sorted tail behind an element that none of it precedes is sorted. */
  lemma ConsSorted<T>(a: T, t: seq<T>, key: T -> string, dir: Direction)
    requires SortedBy(t, key, dir)
    requires forall j :: 0 <= j < |t| ==> !Precedes(dir, key(t[j]), key(a))
    ensures SortedBy([a] + t, key, dir)
  {
    var r := [a] + t;
    forall i, j | 0 <= i < j < |r| ensures !Precedes(dir, key(r[j]), key(r[i])) {
      assert r[j] == t[j - 1];
      if i > 0 {
        assert r[i] == t[i - 1];
      }
    }
  }

  lemma {:induction false} InsertSorted<T>(x: T, s: seq<T>, key: T -> string, dir: Direction)
    requires SortedBy(s, key, dir)
    ensures SortedBy(Insert(x, s, key, dir), key, dir)
  {
    if |s| == 0 {
    } else if Precedes(dir, key(s[0]), key(x)) {
      var t := Insert(x, s[1..], key, dir);
      assert SortedBy(s[1..], key, dir);
      InsertSorted(x, s[1..], key, dir);
      InsertPermutes(x, s[1..], key, dir);
      forall j | 0 <= j < |t| ensures !Precedes(dir, key(t[j]), key(s[0])) {
        var y := t[j];
        assert y in multiset(t);
        assert y in multiset(s[1..]) || y == x;
        if y == x {
          PrecedesAsymmetric(dir, key(s[0]), key(x));
        } else {
          var m :| 0 <= m < |s[1..]| && s[1..][m] == y;
          assert s[m + 1] == y;
        }
      }
      ConsSorted(s[0], t, key, dir);
    } else {
      forall j | 0 <= j < |s| ensures !Precedes(dir, key(s[j]), key(x)) {
        if j > 0 {
          NotPrecedesTransitive(dir, key(x), key(s[0]), key(s[j]));
        }
      }
      ConsSorted(x, s, key, dir);
    }
  }

  /** The key group of one element in front of a sequence. */
  lemma WithKeyCons<T>(a: T, t: seq<T>, key: T -> string, k: string)
    ensures WithKey([a] + t, key, k) == (if key(a) == k then [a] else []) + WithKey(t, key, k)
  {
    assert ([a] + t)[1..] == t;
  }

  /** Inserting `x` adds it in front of the equal-keyed elements and leaves
      the other key groups alone. */
  lemma {:induction false} InsertWithKey<T>(x: T, s: seq<T>, key: T -> string, dir: Direction, k: string)
    ensures WithKey(Insert(x, s, key, dir), key, k) ==
            (if key(x) == k then [x] else []) + WithKey(s, key, k)
  {
    if |s| > 0 && Precedes(dir, key(s[0]), key(x)) {
      var t := Insert(x, s[1..], key, dir);
      assert Insert(x, s, key, dir) == [s[0]] + t;
      assert WithKey(s, key, k) == (if key(s[0]) == k then [s[0]] else []) + WithKey(s[1..], key, k);
      InsertWithKey(x, s[1..], key, dir, k);
      WithKeyCons(s[0], t, key, k);
      if key(s[0]) == k {
        PrecedesIrreflexive(dir, key(x));
      }
    } else {
      WithKeyCons(x, s, key, k);
    }
  }

  /** The stable sort: a permutation, ordered by key, and within every key the
      input order is kept. */
  function SortBy<T>(s: seq<T>, key: T -> string, dir: Direction): (r: seq<T>)
    ensures multiset(r) == multiset(s)
    ensures |r| == |s|
    ensures SortedBy(r, key, dir)
    ensures forall k :: WithKey(r, key, k) == WithKey(s, key, k)
  {
    if |s| == 0 then []
    else
      var rest := SortBy(s[1..], key, dir);
      InsertPermutes(s[0], rest, key, dir);
      InsertSorted(s[0], rest, key, dir);
      assert s == [s[0]] + s[1..];
      assert forall k :: WithKey(Insert(s[0], rest, key, dir), key, k) == WithKey(s, key, k) by {
        forall k ensures WithKey(Insert(s[0], rest, key, dir), key, k) == WithKey(s, key, k) {
          InsertWithKey(s[0], rest, key, dir, k);
        }
      }
      Insert(s[0], rest, key, dir)
  }
}

=== FILE: store.dfy ===
/** The pieces the three backend services share: a table as an id-keyed map,
    the failures a service call can end in, the "supplied or not" marker of a
    partial update, Python truthiness of an optional string, update and delete. */
module Store {
  import opened Results
  import opened Text

  /** An `HTTPException` the service raises, or a database constraint
      violation (`IntegrityError`) naming the column it is about. */
  datatype Failure = Http(status: int, detail: string) | Integrity(column: string)

  /** A key of a partial-update body: left out (`exclude_unset` drops it), or
      given, possibly as an explicit `null`. */
  datatype Supplied<T> = Unset | Set(value: T)

  /** Python truthiness of an optional string: present and non-empty. */
  predicate Filled(v: Option<string>) {
    v.Some? && NonEmpty(v.value)
  }

  /** Look the row up and replace it by `change` of it, or fail with 404 and
      `notFound`; every other row stays. */
  function Update<R>(db: map<nat, R>, id: nat, change: R -> R, notFound: string): (r: Result<map<nat, R>, Failure>)
    ensures r.Err? <==> id !in db
    ensures r.Err? ==> r.error == Http(404, notFound)
    ensures r.Ok? ==> r.value.Keys == db.Keys && r.value[id] == change(db[id])
    ensures r.Ok? ==> forall k :: k in db && k != id ==> r.value[k] == db[k]
  {
    if id !in db then Err(Http(404, notFound)) else Ok(db[id := change(db[id])])
  }

  /** Look the row up and delete it, or fail with 404 and `notFound`. */
  function Delete<R>(db: map<nat, R>, id: nat, notFound: string): (r: Result<map<nat, R>, Failure>)
    ensures r.Err? <==> id !in db
    ensures r.Err? ==> r.error == Http(404, notFound)
    ensures r.Ok? ==> r.value.Keys == db.Keys - {id}
    ensures r.Ok? ==> forall k :: k in r.value ==> r.value[k] == db[k]
  {
    if id !in db then Err(Http(404, notFound)) else Ok(db - {id})
  }

  /** A second delete of the same id finds nothing. */
  lemma DeleteTwiceNotFound<R>(db: map<nat, R>, id: nat, notFound: string)
    requires Delete(db, id, notFound).Ok?
    ensures Delete(Delete(db, id, notFound).value, id, notFound) == Err(Http(404, notFound))
  {
  }

  /** Deleting different ids commutes. */
  lemma DeleteCommutes<R>(db: map<nat, R>, a: nat, b: nat, notFound: string)
    requires a != b && a in db && b in db
    ensures Delete(Delete(db, a, notFound).value, b, notFound) == Delete(Delete(db, b, notFound).value, a, notFound)
  {
    var x := Delete(Delete(db, a, notFound).value, b, notFound).value;
    var y := Delete(Delete(db, b, notFound).value, a, notFound).value;
    assert x.Keys == y.Keys;
    assert forall k :: k in x ==> x[k] == y[k];
    assert x == y;
  }
}

=== FILE: technician_list.dfy ===
/** The technician list screen's in-memory view-model: search, skill and
    status filters, the optional stable sort, paging, the sort-header toggle,
    the page resets and the distinct skill options. */
module TechnicianList {
  import opened Text
  import opened Results
  import opened Seqs
  import opened Sorting

  /** A technician as the list receives it; every field but the id may be missing. */
  datatype Technician = Technician(
    id: string,
    firstName: Option<string>,
    lastName: Option<string>,
    email: Option<string>,
    phone: Option<string>,
    skills: Option<seq<string>>,
    isActive: Option<bool>)

  /** `x || ""` and `x ?? ""` on an optional string. */
  function OrEmpty(o: Option<string>): string {
    o.GetOr("")
  }

  /** `[first, last].filter(Boolean)`: the present, non-empty name parts. */
  function NameParts(t: Technician): seq<string> {
    (if OrEmpty(t.firstName) != "" then [t.firstName.value] else [])
    + (if OrEmpty(t.lastName) != "" then [t.lastName.value] else [])
  }

  /** The displayed full name: the non-empty parts joined by one space. */
  function FullName(t: Technician): string {
    Join(NameParts(t), " ")
  }

  lemma FullNameCases(t: Technician)
    ensures OrEmpty(t.firstName) != "" && OrEmpty(t.lastName) != "" ==>
      FullName(t) == t.firstName.value + " " + t.lastName.value
    ensures OrEmpty(t.firstName) != "" && OrEmpty(t.lastName) == "" ==> FullName(t) == t.firstName.value
    ensures OrEmpty(t.firstName) == "" && OrEmpty(t.lastName) != "" ==> FullName(t) == t.lastName.value
    ensures OrEmpty(t.firstName) == "" && OrEmpty(t.lastName) == "" ==> FullName(t) == ""
  {
    var parts := NameParts(t);
    if OrEmpty(t.firstName) != "" && OrEmpty(t.lastName) != "" {
      assert parts == [t.firstName.value, t.lastName.value];
      assert parts[1..] == [t.lastName.value];
      assert Join(parts, " ") == parts[0] + " " + Join(parts[1..], " ");
    }
  }

  /** `skills.join(", ")`, or `""` when there is no skill list. */
  function SkillText(t: Technician): string {
    if t.skills.Some? && |t.skills.value| > 0 then Join(t.skills.value, ", ") else ""
  }

  /** `is_active !== false`: a missing flag counts as active. */
  predicate IsActive(t: Technician) {
    t.isActive != Some(false)
  }

  // ---------------------------------------------------------------- filters

  predicate MatchesSearch(t: Technician, term: string) {
    var q := Lower(term);
    Contains(Lower(FullName(t)), q) || Contains(Lower(OrEmpty(t.email)), q) || Contains(Lower(OrEmpty(t.phone)), q)
  }

  /** First stage: an empty term keeps everything, otherwise a case-insensitive
      substring match on the full name, the email or the phone. */
  function SearchFilter(items: seq<Technician>, term: string): (r: seq<Technician>)
    ensures IsSubsequence(r, items)
    ensures term == "" ==> r == items
    ensures term != "" ==> forall t :: t in r <==> (t in items &&
      (Contains(Lower(FullName(t)), Lower(term)) || Contains(Lower(OrEmpty(t.email)), Lower(term))
       || Contains(Lower(OrEmpty(t.phone)), Lower(term))))
    ensures forall t :: Count(r, t) == if term == "" || MatchesSearch(t, term) then Count(items, t) else 0
  {
    if term == "" then SubsequenceReflexive(items); items
    else Filter(items, t => MatchesSearch(t, term))
  }

  predicate HasSkill(t: Technician, skill: string) {
    t.skills.Some? && skill in t.skills.value
  }

  /** Second stage: exact membership of the selected skill. */
  function SkillFilter(items: seq<Technician>, skill: string): (r: seq<Technician>)
    ensures IsSubsequence(r, items)
    ensures skill == "" ==> r == items
    ensures skill != "" ==> forall t :: t in r <==> t in items && t.skills.Some? && skill in t.skills.value
    ensures forall t :: Count(r, t) == if skill == "" || HasSkill(t, skill) then Count(items, t) else 0
  {
    if skill == "" then SubsequenceReflexive(items); items
    else Filter(items, t => HasSkill(t, skill))
  }

  predicate MatchesStatus(t: Technician, status: string) {
    if status == "active" then IsActive(t)
    else if status == "inactive" then t.isActive == Some(false)
    else true
  }

  /** Third stage: "active" keeps all but the explicitly inactive, "inactive"
      keeps only those, anything else keeps everything. */
  function StatusFilter(items: seq<Technician>, status: string): (r: seq<Technician>)
    ensures IsSubsequence(r, items)
    ensures status != "active" && status != "inactive" ==> r == items
    ensures status == "active" ==> forall t :: t in r <==> t in items && t.isActive != Some(false)
    ensures status == "inactive" ==> forall t :: t in r <==> t in items && t.isActive == Some(false)
    ensures forall t :: Count(r, t) == if MatchesStatus(t, status) then Count(items, t) else 0
  {
    if status != "active" && status != "inactive" then SubsequenceReflexive(items); items
    else Filter(items, t => MatchesStatus(t, status))
  }

  /** What the three stages together let through. */
  predicate PassesFilters(t: Technician, term: string, skill: string, status: string) {
    (term == "" || MatchesSearch(t, term)) && (skill == "" || HasSkill(t, skill)) && MatchesStatus(t, status)
  }

  /** The three stages in their fixed order. */
  function FilterPipeline(items: seq<Technician>, term: string, skill: string, status: string): (r: seq<Technician>)
    ensures IsSubsequence(r, items)
    ensures forall t :: t in r <==>
      t in items && (term == "" || MatchesSearch(t, term)) && (skill == "" || HasSkill(t, skill))
      && MatchesStatus(t, status)
    ensures forall t :: Count(r, t) == if PassesFilters(t, term, skill, status) then Count(items, t) else 0
  {
    var a := SearchFilter(items, term);
    var b := SkillFilter(a, skill);
    var c := StatusFilter(b, status);
    SubsequenceTransitive(b, a, items);
    SubsequenceTransitive(c, b, items);
    c
  }

  // ------------------------------------------------------------------- sort

  datatype SortField = Name | Email | Phone | Skill | Active

  /** The string a technician is compared on, before lower-casing. */
  function SortValue(t: Technician, f: SortField): string {
    match f
    case Name => FullName(t)
    case Email => OrEmpty(t.email)
    case Phone => OrEmpty(t.phone)
    case Skill => SkillText(t)
    case Active => if IsActive(t) then "true" else "false"
  }

  /** The comparator's key: the lower-cased sort value. */
  function KeyOf(f: SortField): Technician -> string {
    t => Lower(SortValue(t, f))
  }

  /** Without a field the filtered order is kept; with one, a permutation
      ordered by the lower-cased key in which equal keys keep their order. */
  function SortTechnicians(items: seq<Technician>, field: Option<SortField>, dir: Direction): (r: seq<Technician>)
    ensures field.None? ==> r == items
    ensures multiset(r) == multiset(items)
    ensures field.Some? ==> forall i, j :: 0 <= i < j < |r| ==>
      !Precedes(dir, Lower(SortValue(r[j], field.value)), Lower(SortValue(r[i], field.value)))
    ensures field.Some? ==> forall k :: WithKey(r, KeyOf(field.value), k) == WithKey(items, KeyOf(field.value), k)
  {
    match field
    case None => items
    case Some(f) => SortBy(items, KeyOf(f), dir)
  }

  // ---------------------------------------------------------------- paging

  /** `Math.ceil(n / perPage)`. */
  function TotalPages(n: nat, perPage: nat): (r: nat)
    requires perPage > 0
    ensures r * perPage >= n
    ensures r == 0 || (r - 1) * perPage < n
  {
    (n + perPage - 1) / perPage
  }

  /** A JS `slice` index: negative counts from the end, then clipped to `[0, n]`. */
  function SliceIndex(i: int, n: nat): (r: nat)
    ensures r <= n
    ensures 0 <= i <= n ==> r == i
  {
    if i < 0 then (if n + i < 0 then 0 else n + i) else if i > n then n else i
  }

  /** `s.slice(start, end)`. */
  function JsSlice<T>(s: seq<T>, start: int, end: int): seq<T> {
    var a := SliceIndex(start, |s|);
    var b := SliceIndex(end, |s|);
    if a < b then s[a..b] else []
  }

  /** The index of the first row of page `page`. */
  function PageStart(page: int, perPage: int): (r: nat)
    requires page >= 1 && perPage > 0
    ensures r == (page - 1) * perPage
    ensures r + perPage == page * perPage
  {
    (page - 1) * perPage
  }

  /** The rows shown on page `page`. */
  function PageRows<T>(s: seq<T>, page: int, perPage: int): (r: seq<T>)
    requires page >= 1 && perPage > 0
    ensures r == s[Min(PageStart(page, perPage), |s|)..Min(PageStart(page, perPage) + perPage, |s|)]
    ensures |r| <= perPage
  {
    var start := (page - 1) * perPage;
    SliceInRange(s, PageStart(page, perPage), PageStart(page, perPage) + perPage);
    JsSlice(s, start, start + perPage)
  }

  /** With non-negative bounds, `slice` is the sub-sequence between the bounds
      clipped to the length. */
  lemma SliceInRange<T>(s: seq<T>, start: int, end: int)
    requires 0 <= start <= end
    ensures JsSlice(s, start, end) == s[Min(start, |s|)..Min(end, |s|)]
    ensures |JsSlice(s, start, end)| <= end - start
  {
  }

  /** Pages `1..k` laid end to end. */
  function PagesUpTo<T>(s: seq<T>, perPage: int, k: nat): seq<T>
    requires perPage > 0
  {
    if k == 0 then [] else PagesUpTo(s, perPage, k - 1) + PageRows(s, k, perPage)
  }

  lemma {:induction false} PagesUpToIsPrefix<T>(s: seq<T>, perPage: int, k: nat)
    requires perPage > 0
    ensures PagesUpTo(s, perPage, k) == s[..Min(k * perPage, |s|)]
  {
    if k > 0 {
      PagesUpToIsPrefix(s, perPage, k - 1);
      var a := Min(PageStart(k, perPage), |s|);
      var b := Min(PageStart(k, perPage) + perPage, |s|);
      assert s[..a] + s[a..b] == s[..b];
    }
  }

  /** Pages `1..totalPages` together reproduce the sorted list. */
  lemma PagesReassemble<T>(s: seq<T>, perPage: int)
    requires perPage > 0
    ensures PagesUpTo(s, perPage, TotalPages(|s|, perPage)) == s
  {
    PagesUpToIsPrefix(s, perPage, TotalPages(|s|, perPage));
  }

  /** A page past the last one shows nothing. */
  lemma PageBeyondLastIsEmpty<T>(s: seq<T>, page: int, perPage: int)
    requires perPage > 0 && page > TotalPages(|s|, perPage) && page >= 1
    ensures PageRows(s, page, perPage) == []
  {
    var t := TotalPages(|s|, perPage);
    assert (page - 1) * perPage >= t * perPage;
  }

  // ------------------------------------------------------------ view state

  datatype ViewState = ViewState(
    search: string,
    skill: string,
    status: string,
    sortField: Option<SortField>,
    dir: Direction,
    page: int,
    perPage: int)

  const InitialView := ViewState("", "", "", None, Asc, 1, 5)

  /** The rows-per-page choices. */
  predicate IsPerPageOption(n: int) {
    n == 5 || n == 10 || n == 25
  }

  predicate ValidView(v: ViewState) {
    v.page >= 1 && IsPerPageOption(v.perPage)
  }

  /** A click on a sortable column header. */
  function HandleSort(current: Option<SortField>, dir: Direction, clicked: SortField): (r: (Option<SortField>, Direction))
    ensures r.0 == Some(clicked)
    ensures current == Some(clicked) ==> r.1 != dir
    ensures current != Some(clicked) ==> r.1 == Asc
  {
    if current == Some(clicked) then (current, if dir == Asc then Desc else Asc)
    else (Some(clicked), Asc)
  }

  /** Two clicks on the selected column restore the direction. */
  lemma HandleSortTwice(f: SortField, dir: Direction)
    ensures var (f1, d1) := HandleSort(Some(f), dir, f); HandleSort(f1, d1, f) == (Some(f), dir)
  {
  }

  datatype Action =
    | TypeSearch(term: string)
    | PickSkill(skill: string)
    | PickStatus(status: string)
    | ClickHeader(field: SortField)
    | ResetSort
    | ClearFilters
    | PickPerPage(perPage: int)
    | PrevPage
    | NextPage
    | GoToPage(page: int)

  /** The state change of one user action; `totalPages` is the current page count,
      which decides whether Next and the numbered buttons can be clicked. */
  function Step(v: ViewState, a: Action, totalPages: int): (r: ViewState)
    ensures a.ClearFilters? ==> r == v.(search := "", skill := "", status := "")
    ensures a.ClearFilters? || a.TypeSearch? || a.PickSkill? || a.PickStatus? || a.ClickHeader? ==> r.page == v.page
    ensures a.ResetSort? ==> r == v.(sortField := None, dir := Asc, page := 1)
    ensures a.PickPerPage? ==> r == v.(perPage := a.perPage, page := 1)
    ensures a.PrevPage? ==> r.page == if v.page == 1 then v.page else v.page - 1
    ensures a.NextPage? ==> r.page == if v.page >= totalPages then v.page else v.page + 1
    ensures a.ClickHeader? ==> (r.sortField, r.dir) == HandleSort(v.sortField, v.dir, a.field)
  {
    match a
    case TypeSearch(term) => v.(search := term)
    case PickSkill(skill) => v.(skill := skill)
    case PickStatus(status) => v.(status := status)
    case ClickHeader(f) =>
      var (f', d') := HandleSort(v.sortField, v.dir, f);
      v.(sortField := f', dir := d')
    case ResetSort => v.(sortField := None, dir := Asc, page := 1)
    case ClearFilters => v.(search := "", skill := "", status := "")
    case PickPerPage(n) => v.(perPage := n, page := 1)
    case PrevPage => if v.page == 1 then v else v.(page := v.page - 1)
    case NextPage => if v.page >= totalPages then v else v.(page := v.page + 1)
    case GoToPage(p) => if 1 <= p <= totalPages then v.(page := p) else v
  }

  /** Next as the page writes it: disabled only when the page equals the page count. */
  function NextPageAsWritten(v: ViewState, totalPages: int): (r: ViewState)
    ensures r.page == v.page || r.page == v.page + 1
    ensures r.page == v.page <==> v.page == totalPages
  {
    if v.page == totalPages then v else v.(page := v.page + 1)
  }

  /** With no matching rows the page count is 0, so Next stays enabled and walks
      past the end; on page 3 of 2 pages it does the same. */
  lemma NextPageAsWrittenPassesEnd()
    ensures TotalPages(0, 5) == 0
    ensures NextPageAsWritten(InitialView, TotalPages(0, 5)).page == 2
    ensures NextPageAsWritten(InitialView.(page := 3), 2).page == 4
  {
  }

  /** The page lies within the buttons shown (or is 1 when there are none). */
  predicate PageInRange(v: ViewState, totalPages: int) {
    1 <= v.page && (v.page <= totalPages || v.page == 1)
  }

  /** With the corrected guard, navigation never leaves the range of pages. */
  lemma NavigationStaysInRange(v: ViewState, a: Action, totalPages: int)
    requires PageInRange(v, totalPages)
    requires a.PrevPage? || a.NextPage? || a.GoToPage? || a.ResetSort? || a.PickPerPage?
    ensures PageInRange(Step(v, a, totalPages), totalPages)
  {
  }

  /** The page number never drops below 1 and the page size stays one of the options. */
  lemma StepKeepsValid(v: ViewState, a: Action, totalPages: int)
    requires ValidView(v)
    requires a.PickPerPage? ==> IsPerPageOption(a.perPage)
    ensures ValidView(Step(v, a, totalPages))
  {
  }

  /** What the table shows for a state: the rows of the current page and the page count. */
  function Render(items: seq<Technician>, v: ViewState): (r: (seq<Technician>, nat))
    requires ValidView(v)
    ensures var filtered := FilterPipeline(items, v.search, v.skill, v.status);
      r.0 == PageRows(SortTechnicians(filtered, v.sortField, v.dir), v.page, v.perPage)
      && r.1 == TotalPages(|filtered|, v.perPage)
    ensures |r.0| <= v.perPage
    ensures r.1 * v.perPage >= |FilterPipeline(items, v.search, v.skill, v.status)|
  {
    var sorted := SortTechnicians(FilterPipeline(items, v.search, v.skill, v.status), v.sortField, v.dir);
    (PageRows(sorted, v.page, v.perPage), TotalPages(|sorted|, v.perPage))
  }

  /** Narrowing the filters does not move the page back: on page 2 with a filter
      that leaves one row, the table is empty. */
  lemma FilterChangeCanEmptyThePage(t: Technician)
    requires OrEmpty(t.email) == "a@x.io" && t.firstName.None? && t.lastName.None? && t.phone.None?
    ensures var v := InitialView.(page := 2);
      var v' := Step(v, TypeSearch("a@"), 1);
      v'.page == 2 && Render([t], v').0 == []
  {
    var v' := InitialView.(page := 2, search := "a@");
    assert Lower("a@x.io") == "a@x.io";
    assert Contains("a@x.io", "a@");
    assert MatchesSearch(t, "a@");
    var filtered := FilterPipeline([t], "a@", "", "");
    assert t in filtered;
    SubsequenceLength(filtered, [t]);
    assert |filtered| == 1;
    assert PageRows(filtered, 2, 5) == [];
  }

  // ---------------------------------------------------------- skill options

  predicate StrictlyIncreasing(s: seq<string>) {
    forall i, j :: 0 <= i < j < |s| ==> LexLess(s[i], s[j])
  }

  /** Adds `x` to a strictly increasing list unless it is already there. */
  function InsertDistinct(x: string, s: seq<string>): (r: seq<string>)
    requires StrictlyIncreasing(s)
    ensures StrictlyIncreasing(r)
    ensures forall y :: y in r <==> y in s || y == x
  {
    if |s| == 0 then [x]
    else if LexLess(s[0], x) then
      var rest := InsertDistinct(x, s[1..]);
      assert forall y :: y in rest ==> LexLess(s[0], y) by {
        forall y | y in rest ensures LexLess(s[0], y) {
          if y != x {
            var m :| 0 <= m < |s[1..]| && s[1..][m] == y;
            assert s[m + 1] == y;
          }
        }
      }
      assert s == [s[0]] + s[1..];
      [s[0]] + rest
    else if s[0] == x then s
    else
      LexLessTotal(s[0], x);
      assert forall j :: 0 < j < |s| ==> LexLess(x, s[j]) by {
        forall j | 0 < j < |s| ensures LexLess(x, s[j]) {
          LexLessTransitive(x, s[0], s[j]);
        }
      }
      [x] + s
  }

  /** The distinct values of `xs` in increasing order. */
  function SortedDistinct(xs: seq<string>): (r: seq<string>)
    ensures StrictlyIncreasing(r)
    ensures forall y :: y in r <==> y in xs
  {
    if |xs| == 0 then []
    else
      assert xs == [xs[0]] + xs[1..];
      InsertDistinct(xs[0], SortedDistinct(xs[1..]))
  }

  /** Every skill of every technician, in list order (`flatMap`). */
  function AllSkills(items: seq<Technician>): (r: seq<string>)
    ensures forall x :: x in r <==> exists t :: t in items && HasSkill(t, x)
  {
    if |items| == 0 then []
    else
      var own := if items[0].skills.Some? then items[0].skills.value else [];
      var rest := AllSkills(items[1..]);
      assert forall x :: x in own ==> HasSkill(items[0], x);
      assert forall t :: t in items ==> t == items[0] || t in items[1..];
      own + rest
  }

  /** The skill drop-down: each non-empty skill of the list once, in increasing order. */
  function SkillOptions(items: seq<Technician>): (r: seq<string>)
    ensures StrictlyIncreasing(r)
    ensures forall x :: x in r <==> x != "" && exists t :: t in items && t.skills.Some? && x in t.skills.value
  {
    SortedDistinct(Filter(AllSkills(items), NonEmpty))
  }

  /** A strictly increasing list holds no value twice. */
  lemma StrictlyIncreasingDistinct(s: seq<string>)
    requires StrictlyIncreasing(s)
    ensures forall i, j :: 0 <= i < j < |s| ==> s[i] != s[j]
  {
    forall i, j | 0 <= i < j < |s| ensures s[i] != s[j] {
      LexLessIrreflexive(s[i]);
    }
  }
}

=== FILE: technician_schemas.dfy ===
/** The server-side field validators of the technician request bodies: the
    phone pattern and the skill-list cleaner shared by create and full update,
    and the looser name, phone and skill rules of a partial update (PATCH).
    A validator either gives the value to store or the message of the
    validation error it raises. */
module TechnicianSchemas {
  import opened Text
  import opened Results
  import opened Seqs

  // ------------------------------------------------------------------ phone

  /** One character of the class `[0-9\-()\s]`. */
  predicate PhoneChar(c: char) {
    IsDigit(c) || c == '-' || c == '(' || c == ')' || IsSpace(c)
  }

  predicate PhoneChars(s: string) {
    forall i :: 0 <= i < |s| ==> PhoneChar(s[i])
  }

  /** The expression `^\+?[0-9\-()\s]{7,20}$` read as written: an optional `+`
      (`k` = 0 or 1 characters) and then 7 to 20 class characters. */
  predicate PhonePattern(v: string) {
    exists k :: 0 <= k <= 1 && k <= |v| && v[..k] == "+"[..k] && 7 <= |v| - k <= 20 && PhoneChars(v[k..])
  }

  /** The text after a leading `+`, if there is one. */
  function PhoneBody(v: string): (b: string)
    ensures |v| > 0 && v[0] == '+' ==> b == v[1..]
    ensures !(|v| > 0 && v[0] == '+') ==> b == v
  {
    if |v| > 0 && v[0] == '+' then v[1..] else v
  }

  /** A direct scan: drop one leading `+` and check the rest. */
  predicate PhoneShaped(v: string) {
    var b := PhoneBody(v);
    7 <= |b| <= 20 && PhoneChars(b)
  }

  /** The scan and the expression accept the same strings: the `+` is not a
      class character, so when present it must be the optional prefix. */
  lemma PhoneShapedIffPattern(v: string)
    ensures PhoneShaped(v) <==> PhonePattern(v)
  {
    if |v| > 0 && v[0] == '+' {
      if PhoneShaped(v) {
        assert v[..1] == "+"[..1];
        assert 0 <= 1 <= 1 && 1 <= |v| && v[..1] == "+"[..1] && 7 <= |v| - 1 <= 20 && PhoneChars(v[1..]);
      }
      if PhonePattern(v) {
        var k :| 0 <= k <= 1 && k <= |v| && v[..k] == "+"[..k] && 7 <= |v| - k <= 20 && PhoneChars(v[k..]);
        if k == 0 {
          assert v[k..][0] == '+';
          assert !PhoneChar(v[k..][0]);
        }
      }
    } else {
      if PhoneShaped(v) {
        assert v[..0] == "+"[..0] && v[0..] == v;
      }
      if PhonePattern(v) {
        var k :| 0 <= k <= 1 && k <= |v| && v[..k] == "+"[..k] && 7 <= |v| - k <= 20 && PhoneChars(v[k..]);
        assert v[k..] == v;
      }
    }
  }

  /** The create and full-update phone validator: no phone, or a phone matching
      the pattern, kept as given. */
  function ValidatePhone(v: Option<string>): (r: Result<Option<string>, string>)
    ensures v.None? || v == Some("") ==> r == Ok(None)
    ensures v.Some? && v.value != "" ==> (r.Ok? <==> PhonePattern(v.value))
    ensures r.Ok? && r.value.Some? ==> r.value == v
    ensures r.Err? ==> r.error == "Invalid phone format"
  {
    PhoneShapedIffPattern(v.GetOr(""));
    if v.None? || v == Some("") then Ok(None)
    else if PhoneShaped(v.value) then Ok(v)
    else Err("Invalid phone format")
  }

  lemma ValidatePhoneIdempotent(v: Option<string>)
    requires ValidatePhone(v).Ok?
    ensures ValidatePhone(ValidatePhone(v).value) == ValidatePhone(v)
  {
  }

  // ----------------------------------------------------------------- skills

  const MaxSkills := 20
  const MaxSkillLength := 50

  /** A list the skills validator can produce: at most 20 entries, each
      stripped and 1 to 50 characters long, no two equal ignoring case. */
  predicate CleanSkillList(xs: seq<string>) {
    |xs| <= MaxSkills
    && (forall i :: 0 <= i < |xs| ==> Trim(xs[i]) == xs[i] && 1 <= |xs[i]| <= MaxSkillLength)
    && (forall i, j :: 0 <= i < j < |xs| ==> Lower(xs[i]) != Lower(xs[j]))
  }

  predicate SkillLengthOk(s: string) {
    1 <= |Trim(s)| <= MaxSkillLength
  }

  /** The create and full-update skills validator: the count is checked on the
      raw list; then every entry is stripped and must be 1 to 50 characters;
      then entries are de-duplicated ignoring case, keeping the first
      spelling and the order. */
  function ValidateSkills(v: Option<seq<string>>): (r: Result<Option<seq<string>>, string>)
    ensures v.None? ==> r == Ok(None)
    ensures v.Some? && |v.value| > MaxSkills ==> r == Err("At most 20 skills allowed")
    ensures v.Some? && |v.value| <= MaxSkills ==>
      (r.Err? <==> exists i :: 0 <= i < |v.value| && !SkillLengthOk(v.value[i]))
    ensures v.Some? && |v.value| <= MaxSkills && r.Err? ==> r.error == "Each skill must be 1\U{2013}50 chars"
    ensures r.Ok? && v.Some? ==> r.value.Some? && CleanSkillList(r.value.value)
    ensures r.Ok? && v.Some? ==> IsSubsequence(r.value.value, TrimAll(v.value)) && |r.value.value| <= |v.value|
  {
    match v
    case None => Ok(None)
    case Some(raw) =>
      if |raw| > MaxSkills then Err("At most 20 skills allowed")
      else if exists i :: 0 <= i < |raw| && !SkillLengthOk(raw[i]) then Err("Each skill must be 1\U{2013}50 chars")
      else
        DedupedSkillsClean(raw);
        Ok(Some(DedupeBy(TrimAll(raw), Lower, {})))
  }

  /** Once every entry has an acceptable length, the de-duplicated stripped
      entries form a clean skill list no longer than the input. */
  lemma DedupedSkillsClean(raw: seq<string>)
    requires |raw| <= MaxSkills
    requires forall i :: 0 <= i < |raw| ==> SkillLengthOk(raw[i])
    ensures var r := DedupeBy(TrimAll(raw), Lower, {});
      CleanSkillList(r) && IsSubsequence(r, TrimAll(raw)) && |r| <= |raw|
  {
    var stripped := TrimAll(raw);
    var r := DedupeBy(stripped, Lower, {});
    SubsequenceLength(r, stripped);
    StrippedSkillsShaped(raw);
    SubsequenceKeeps(r, stripped, SkillShaped);
    CleanFromParts(r);
  }

  /** A short list of shaped entries with distinct folded keys is clean. */
  lemma CleanFromParts(xs: seq<string>)
    requires |xs| <= MaxSkills
    requires forall i :: 0 <= i < |xs| ==> SkillShaped(xs[i])
    requires forall i, j :: 0 <= i < j < |xs| ==> Lower(xs[i]) != Lower(xs[j])
    ensures CleanSkillList(xs)
  {
  }

  /** A stripped entry of acceptable length. */
  predicate SkillShaped(x: string) {
    Trim(x) == x && 1 <= |x| <= MaxSkillLength
  }

  lemma StrippedSkillsShaped(raw: seq<string>)
    requires forall i :: 0 <= i < |raw| ==> SkillLengthOk(raw[i])
    ensures forall i :: 0 <= i < |TrimAll(raw)| ==> SkillShaped(TrimAll(raw)[i])
  {
    forall i | 0 <= i < |raw| ensures SkillShaped(TrimAll(raw)[i]) {
      TrimIdempotent(raw[i]);
    }
  }

  /** On success the stored list is the case-insensitive de-duplication of
      the stripped entries. */
  lemma ValidateSkillsValue(raw: seq<string>)
    requires |raw| <= MaxSkills && forall i :: 0 <= i < |raw| ==> SkillLengthOk(raw[i])
    ensures ValidateSkills(Some(raw)) == Ok(Some(DedupeBy(TrimAll(raw), Lower, {})))
  {
  }

  /** The kept skills are the stripped entries that are first with their
      lower-cased spelling, each once, in the order they were given. */
  lemma ValidateSkillsKeepsFirst(raw: seq<string>)
    requires |raw| <= MaxSkills && forall i :: 0 <= i < |raw| ==> SkillLengthOk(raw[i])
    ensures exists idx :: KeptAt(TrimAll(raw), Lower, {}, ValidateSkills(Some(raw)).value.value, idx)
  {
    ValidateSkillsValue(raw);
    DedupeByOrder(TrimAll(raw), Lower, {});
  }

  /** Every stripped entry's lower-cased spelling survives. */
  lemma ValidateSkillsComplete(raw: seq<string>, y: string)
    requires |raw| <= MaxSkills && forall i :: 0 <= i < |raw| ==> SkillLengthOk(raw[i])
    requires y in TrimAll(raw)
    ensures exists k :: 0 <= k < |ValidateSkills(Some(raw)).value.value| && Lower(ValidateSkills(Some(raw)).value.value[k]) == Lower(y)
  {
    ValidateSkillsValue(raw);
    DedupeByComplete(TrimAll(raw), Lower, {}, y);
  }

  /** Validating a validated list changes nothing. */
  lemma ValidateSkillsIdempotent(v: Option<seq<string>>)
    requires ValidateSkills(v).Ok?
    ensures ValidateSkills(ValidateSkills(v).value) == ValidateSkills(v)
  {
    if v.Some? {
      CleanSkillsRevalidate(ValidateSkills(v).value.value);
    }
  }

  /** A clean skill list passes the validator unchanged. */
  lemma CleanSkillsRevalidate(r: seq<string>)
    requires CleanSkillList(r)
    ensures ValidateSkills(Some(r)) == Ok(Some(r))
  {
    assert TrimAll(r) == r;
    assert forall i :: 0 <= i < |r| ==> SkillLengthOk(r[i]);
    DedupeByFixpoint(r, Lower, {});
  }

  // ------------------------------------------------------------------ PATCH

  const MaxPatchName := 80
  const MaxPatchPhone := 25
  const MaxPatchSkill := 40

  /** A PATCH name: stripped, then 1 to 80 characters. */
  function PatchName(v: Option<string>): (r: Result<Option<string>, string>)
    ensures v.None? ==> r == Ok(None)
    ensures v.Some? ==> (r.Ok? <==> !AllSpace(v.value) && |Trim(v.value)| <= MaxPatchName)
    ensures v.Some? && r.Ok? ==> r.value == Some(Trim(v.value)) && r.value.value != ""
    ensures v.Some? && r.Err? ==> r.error == if AllSpace(v.value) then "Must not be empty" else "Must be \U{2264} 80 characters"
  {
    match v
    case None => Ok(None)
    case Some(s) =>
      var t := Trim(s);
      if t == "" then Err("Must not be empty")
      else if |t| > MaxPatchName then Err("Must be \U{2264} 80 characters")
      else Ok(Some(t))
  }

  /** A PATCH phone: stripped, at most 25 characters; its shape is not checked,
      and a blank phone is kept as `""`. */
  function PatchPhone(v: Option<string>): (r: Result<Option<string>, string>)
    ensures v.None? ==> r == Ok(None)
    ensures v.Some? ==> (r.Ok? <==> |Trim(v.value)| <= MaxPatchPhone)
    ensures v.Some? && r.Ok? ==> r.value == Some(Trim(v.value))
    ensures r.Err? ==> r.error == "Phone too long"
  {
    match v
    case None => Ok(None)
    case Some(s) =>
      var t := Trim(s);
      if |t| > MaxPatchPhone then Err("Phone too long") else Ok(Some(t))
  }

  /** Both PATCH string validators give back what they are given once it is clean. */
  lemma PatchNameIdempotent(v: Option<string>)
    requires PatchName(v).Ok?
    ensures PatchName(PatchName(v).value) == PatchName(v)
  {
    if v.Some? {
      TrimIdempotent(v.value);
    }
  }

  lemma PatchPhoneIdempotent(v: Option<string>)
    requires PatchPhone(v).Ok?
    ensures PatchPhone(PatchPhone(v).value) == PatchPhone(v)
  {
    if v.Some? {
      TrimIdempotent(v.value);
    }
  }

  /** A list a PATCH may store: entries stripped, non-empty, at most 40
      characters, pairwise different (case counts). */
  predicate CleanPatchSkills(xs: seq<string>) {
    (forall i :: 0 <= i < |xs| ==> Trim(xs[i]) == xs[i] && 1 <= |xs[i]| <= MaxPatchSkill)
    && (forall i, j :: 0 <= i < j < |xs| ==> xs[i] != xs[j])
  }

  /** The PATCH skills validator: entries are stripped, blank ones are dropped,
      a long one is rejected, and exact repeats are dropped keeping order. */
  function PatchSkills(v: Option<seq<string>>): (r: Result<Option<seq<string>>, string>)
    ensures v.None? ==> r == Ok(None)
    ensures v.Some? ==> (r.Err? <==> exists i :: 0 <= i < |v.value| && |Trim(v.value[i])| > MaxPatchSkill)
    ensures r.Err? ==> r.error == "Each skill must be \U{2264} 40 chars"
    ensures v.Some? && r.Ok? ==> r.value.Some? && CleanPatchSkills(r.value.value)
    ensures v.Some? && r.Ok? ==> IsSubsequence(r.value.value, TrimAll(v.value))
  {
    match v
    case None => Ok(None)
    case Some(raw) =>
      var stripped := TrimAll(raw);
      var cleaned := Filter(stripped, NonEmpty);
      if exists i :: 0 <= i < |raw| && |Trim(raw[i])| > MaxPatchSkill then
        Err("Each skill must be \U{2264} 40 chars")
      else
        DedupedPatchSkillsClean(raw);
        Ok(Some(DedupeBy(cleaned, Same, {})))
  }

  /** With no entry too long, the de-duplicated non-empty stripped entries
      form a list a PATCH may store, taken in order from the stripped entries. */
  lemma DedupedPatchSkillsClean(raw: seq<string>)
    requires forall i :: 0 <= i < |raw| ==> |Trim(raw[i])| <= MaxPatchSkill
    ensures var stripped := TrimAll(raw);
      var r := DedupeBy(Filter(stripped, NonEmpty), Same, {});
      CleanPatchSkills(r) && IsSubsequence(r, stripped)
  {
    var stripped := TrimAll(raw);
    var cleaned := Filter(stripped, NonEmpty);
    var r := DedupeBy(cleaned, Same, {});
    SubsequenceTransitive(r, cleaned, stripped);
    SubsequenceMembers(r, cleaned);
    forall i | 0 <= i < |r| ensures Trim(r[i]) == r[i] && 1 <= |r[i]| <= MaxPatchSkill {
      assert r[i] in cleaned;
      var k :| 0 <= k < |stripped| && stripped[k] == r[i];
      TrimIdempotent(raw[k]);
    }
    assert forall i, j :: 0 <= i < j < |r| ==> Same(r[i]) != Same(r[j]);
  }

  /** When no stripped entry is over 40 characters, the stored list is the
      exact de-duplication of the non-empty stripped entries. */
  lemma PatchSkillsValue(raw: seq<string>)
    requires forall i :: 0 <= i < |raw| ==> |Trim(raw[i])| <= MaxPatchSkill
    ensures PatchSkills(Some(raw)) == Ok(Some(DedupeBy(Filter(TrimAll(raw), NonEmpty), Same, {})))
  {
  }

  /** The stored skills are the first occurrences of each spelling among the
      non-empty stripped entries, in the order they were given. */
  lemma PatchSkillsKeepsFirst(raw: seq<string>)
    requires forall i :: 0 <= i < |raw| ==> |Trim(raw[i])| <= MaxPatchSkill
    ensures exists idx :: KeptAt(Filter(TrimAll(raw), NonEmpty), Same, {}, PatchSkills(Some(raw)).value.value, idx)
  {
    PatchSkillsValue(raw);
    DedupeByOrder(Filter(TrimAll(raw), NonEmpty), Same, {});
  }

  /** Every non-empty stripped entry is stored. */
  lemma PatchSkillsComplete(raw: seq<string>, y: string)
    requires PatchSkills(Some(raw)).Ok?
    requires y in TrimAll(raw) && y != ""
    ensures y in PatchSkills(Some(raw)).value.value
  {
    var cleaned := Filter(TrimAll(raw), NonEmpty);
    var r := DedupeBy(cleaned, Same, {});
    assert y in r by {
      assert y in cleaned;
      DedupeByComplete(cleaned, Same, {}, y);
      var k :| 0 <= k < |r| && Same(r[k]) == Same(y);
      assert r[k] == y;
    }
    PatchSkillsValue(raw);
  }

  /** A list a PATCH may store passes the PATCH validator unchanged. */
  lemma CleanPatchSkillsRevalidate(r: seq<string>)
    requires CleanPatchSkills(r)
    ensures PatchSkills(Some(r)) == Ok(Some(r))
  {
    assert TrimAll(r) == r;
    assert !exists i :: 0 <= i < |r| && |Trim(r[i])| > MaxPatchSkill;
    FilterKeepsAll(r, NonEmpty);
    assert forall i, j :: 0 <= i < j < |r| ==> Same(r[i]) != Same(r[j]);
    DedupeByFixpoint(r, Same, {});
  }

  /** Validating an accepted PATCH list again changes nothing. */
  lemma PatchSkillsIdempotent(v: Option<seq<string>>)
    requires PatchSkills(v).Ok?
    ensures PatchSkills(PatchSkills(v).value) == PatchSkills(v)
  {
    if v.Some? {
      CleanPatchSkillsRevalidate(PatchSkills(v).value.value);
    }
  }

  lemma HvacPair()
    ensures TrimAll(["HVAC", "hvac"]) == ["HVAC", "hvac"]
    ensures Lower("HVAC") == "hvac" && Lower("hvac") == "hvac"
  {
    HvacTrimmed();
    HvacLower("HVAC");
    HvacLower("hvac");
  }

  lemma HvacTrimmed()
    ensures TrimAll(["HVAC", "hvac"]) == ["HVAC", "hvac"]
  {
    TrimOfTrimmed("HVAC");
    TrimOfTrimmed("hvac");
  }

  lemma HvacLower(s: string)
    requires s == "HVAC" || s == "hvac"
    ensures Lower(s) == "hvac"
  {
    var r := Lower(s);
    assert r[0] == LowerChar(s[0]) && r[1] == LowerChar(s[1]);
    assert r[2] == LowerChar(s[2]) && r[3] == LowerChar(s[3]);
  }

  /** Create keeps one of "HVAC" and "hvac" (the first spelling). */
  lemma CreateSkillsFoldCase()
    ensures ValidateSkills(Some(["HVAC", "hvac"])) == Ok(Some(["HVAC"]))
  {
    var a, b := "HVAC", "hvac";
    HvacPair();
    assert SkillLengthOk([a, b][0]) && SkillLengthOk([a, b][1]);
    assert [a, b][1..] == [b];
    assert DedupeBy([b], Lower, {Lower(a)}) == [];
    assert DedupeBy([a, b], Lower, {}) == [a];
  }

  /** PATCH keeps both "HVAC" and "hvac": its de-duplication is case-sensitive. */
  lemma PatchSkillsKeepCase()
    ensures PatchSkills(Some(["HVAC", "hvac"])) == Ok(Some(["HVAC", "hvac"]))
  {
    var a, b := "HVAC", "hvac";
    HvacPair();
    assert a != b;
    CleanPatchSkillsRevalidate([a, b]);
  }

  /** A blank-only list is an error at create but an empty list under PATCH. */
  lemma BlankSkillDiffers()
    ensures ValidateSkills(Some([" "])).Err?
    ensures PatchSkills(Some([" "])) == Ok(Some([]))
  {
    assert AllSpace(" ");
    assert TrimAll([" "]) == [""];
    assert !SkillLengthOk([" "][0]);
    FilterDropsAll([""], NonEmpty);
  }
}

=== FILE: technicians_service.dfy ===
/** The technician service over the `technicians` table: create, full update
    with its uniqueness checks, PATCH with its field whitelist, delete, and
    the ordering and paging arithmetic of the list query. Every write ends in
    a commit that enforces the table's constraints. */
module TechniciansService {
  import opened Text
  import opened Results
  import opened Seqs
  import opened Sorting
  import opened Store

  type Timestamp = string

  /** A row; columns that a write can null are optional. */
  datatype Technician = Technician(
    firstName: Option<string>, lastName: Option<string>, email: Option<string>,
    phone: Option<string>, skills: Option<seq<string>>, isActive: Option<bool>,
    hourlyRate: Option<real>, createdBy: Option<int>, updatedBy: Option<int>,
    updatedAt: Option<Timestamp>)

  const NotFound := "Technician not found"
  const EmailInUse := "Email already in use"

  // ------------------------------------------------------------ constraints

  /** Some other row already holds the e-mail address. */
  predicate EmailTaken(db: map<nat, Technician>, id: nat, e: string) {
    exists k :: k in db && k != id && db[k].email == Some(e)
  }

  predicate PhoneTaken(db: map<nat, Technician>, id: nat, p: string) {
    exists k :: k in db && k != id && db[k].phone == Some(p)
  }

  /** The table's constraints: names and e-mail are not null, e-mail is unique. */
  predicate Consistent(db: map<nat, Technician>) {
    (forall k :: k in db ==> db[k].firstName.Some? && db[k].lastName.Some? && db[k].email.Some?)
    && (forall a, b :: a in db && b in db && a != b ==> db[a].email != db[b].email)
  }

  /** No two rows share a phone number. */
  predicate PhonesUnique(db: map<nat, Technician>) {
    forall a, b :: a in db && b in db && a != b && db[a].phone.Some? ==> db[a].phone != db[b].phone
  }

  /** Write `row` under `id`: a not-null column left null, or an e-mail held
      by another row, is a constraint violation and nothing is written. */
  function Commit(db: map<nat, Technician>, id: nat, row: Technician): (r: Result<map<nat, Technician>, Failure>)
    ensures r.Ok? <==> row.firstName.Some? && row.lastName.Some? && row.email.Some? && !EmailTaken(db, id, row.email.value)
    ensures r.Err? ==> r.error.Integrity?
    ensures r.Err? && row.firstName.Some? && row.lastName.Some? ==> r.error == Integrity("email")
    ensures r.Ok? ==> r.value.Keys == db.Keys + {id} && r.value[id] == row
    ensures r.Ok? ==> forall k :: k in db && k != id ==> r.value[k] == db[k]
  {
    if row.firstName.None? then Err(Integrity("first_name"))
    else if row.lastName.None? then Err(Integrity("last_name"))
    else if row.email.None? then Err(Integrity("email"))
    else if EmailTaken(db, id, row.email.value) then Err(Integrity("email"))
    else Ok(db[id := row])
  }

  /** A successful commit keeps the table consistent. */
  lemma CommitConsistent(db: map<nat, Technician>, id: nat, row: Technician)
    requires Consistent(db) && Commit(db, id, row).Ok?
    ensures Consistent(Commit(db, id, row).value)
  {
    var r := Commit(db, id, row).value;
    forall a, b | a in r && b in r && a != b ensures r[a].email != r[b].email {
      if a == id {
        assert !EmailTaken(db, id, row.email.value);
        assert b in db && b != id;
      } else if b == id {
        assert !EmailTaken(db, id, row.email.value);
        assert a in db && a != id;
      }
    }
  }

  // ----------------------------------------------------------------- create

  datatype TechnicianCreate = TechnicianCreate(
    firstName: string, lastName: string, email: string,
    phone: Option<string>, skills: Option<seq<string>>, isActive: bool)

  /** The row a create writes: names stripped, e-mail lower-cased, a phone
      only when present and non-empty, skills only when present, and the
      caller as creator and last editor. */
  function NewTechnician(data: TechnicianCreate, userId: int): (r: Technician)
    ensures r.firstName == Some(Trim(data.firstName)) && r.lastName == Some(Trim(data.lastName))
    ensures r.email == Some(Lower(data.email))
    ensures r.phone.Some? <==> Filled(data.phone)
    ensures r.phone.Some? ==> r.phone == data.phone
    ensures r.skills == data.skills && r.isActive == Some(data.isActive)
    ensures r.createdBy == Some(userId) && r.updatedBy == Some(userId)
    ensures r.hourlyRate.None? && r.updatedAt.None?
  {
    Technician(Some(Trim(data.firstName)), Some(Trim(data.lastName)), Some(Lower(data.email)),
      if Filled(data.phone) then data.phone else None,
      data.skills, Some(data.isActive), None, Some(userId), Some(userId), None)
  }

  /** Insert under a fresh id (a new UUID); a lower-cased e-mail already in
      use is a constraint violation that propagates. */
  function CreateTechnician(db: map<nat, Technician>, data: TechnicianCreate, userId: int, newId: nat): (r: Result<map<nat, Technician>, Failure>)
    requires newId !in db
    ensures r.Ok? <==> !EmailTaken(db, newId, Lower(data.email))
    ensures r.Err? ==> r.error == Integrity("email")
    ensures r.Ok? ==> r.value.Keys == db.Keys + {newId} && r.value[newId] == NewTechnician(data, userId)
    ensures r.Ok? ==> forall k :: k in db ==> r.value[k] == db[k]
  {
    Commit(db, newId, NewTechnician(data, userId))
  }

  lemma CreateConsistent(db: map<nat, Technician>, data: TechnicianCreate, userId: int, newId: nat)
    requires newId !in db && Consistent(db) && CreateTechnician(db, data, userId, newId).Ok?
    ensures Consistent(CreateTechnician(db, data, userId, newId).value)
  {
    CommitConsistent(db, newId, NewTechnician(data, userId));
  }

  /** Two addresses that differ only in case collide at create. */
  lemma CreateCaseInsensitiveEmail(db: map<nat, Technician>, data: TechnicianCreate, userId: int, newId: nat, other: nat)
    requires newId !in db && other in db && db[other].email == Some(Lower(data.email))
    ensures CreateTechnician(db, data, userId, newId) == Err(Integrity("email"))
  {
    assert EmailTaken(db, newId, Lower(data.email));
  }

  // ----------------------------------------------------------------- update

  datatype TechnicianUpdate = TechnicianUpdate(
    firstName: Option<string>, lastName: Option<string>, email: Option<string>,
    phone: Option<string>, skills: Option<seq<string>>, isActive: Option<bool>)

  /** A truthy value that differs from the stored one. */
  predicate Changes(v: Option<string>, current: Option<string>) {
    Filled(v) && v != current
  }

  /** The row a full update writes once the uniqueness checks pass: e-mail
      and phone only when they change, names and the active flag always
      (even to null), `skills or []`, and the caller as last editor. */
  function UpdatedRow(t: Technician, p: TechnicianUpdate, userId: int): (r: Technician)
    ensures r.email == (if Changes(p.email, t.email) then p.email else t.email)
    ensures r.phone == (if Changes(p.phone, t.phone) then p.phone else t.phone)
    ensures r.firstName == p.firstName && r.lastName == p.lastName && r.isActive == p.isActive
    ensures r.skills == Some(p.skills.GetOr([]))
    ensures r.updatedBy == Some(userId)
    ensures r.createdBy == t.createdBy && r.hourlyRate == t.hourlyRate && r.updatedAt == t.updatedAt
  {
    var e := if Changes(p.email, t.email) then p.email else t.email;
    var ph := if Changes(p.phone, t.phone) then p.phone else t.phone;
    t.(email := e, phone := ph, firstName := p.firstName, lastName := p.lastName,
       skills := Some(p.skills.GetOr([])), isActive := p.isActive, updatedBy := Some(userId))
  }

  /** A truthy e-mail that differs from the row's and is held by another row. */
  predicate EmailConflict(db: map<nat, Technician>, id: nat, p: TechnicianUpdate)
    requires id in db
  {
    Changes(p.email, db[id].email) && EmailTaken(db, id, p.email.value)
  }

  predicate PhoneConflict(db: map<nat, Technician>, id: nat, p: TechnicianUpdate)
    requires id in db
  {
    Changes(p.phone, db[id].phone) && PhoneTaken(db, id, p.phone.value)
  }

  /** The full update with the 409 detail for a phone conflict as a
      parameter: 404 for an unknown id, 409 when a changed e-mail (checked
      first) or a changed phone is held by another row, otherwise commit. */
  function UpdateWith(db: map<nat, Technician>, id: nat, p: TechnicianUpdate, userId: int, phoneDetail: string): (r: Result<map<nat, Technician>, Failure>)
    ensures id !in db ==> r == Err(Http(404, NotFound))
    ensures id in db && EmailConflict(db, id, p) ==> r == Err(Http(409, EmailInUse))
    ensures id in db && !EmailConflict(db, id, p) && PhoneConflict(db, id, p) ==> r == Err(Http(409, phoneDetail))
    ensures id in db && !EmailConflict(db, id, p) && !PhoneConflict(db, id, p) ==>
      r == Commit(db, id, UpdatedRow(db[id], p, userId))
    ensures r.Ok? ==> id in db && r.value.Keys == db.Keys && r.value[id] == UpdatedRow(db[id], p, userId)
    ensures r.Ok? ==> forall k :: k in db && k != id ==> r.value[k] == db[k]
  {
    if id !in db then Err(Http(404, NotFound))
    else
      var t := db[id];
      if EmailConflict(db, id, p) then Err(Http(409, EmailInUse))
      else if PhoneConflict(db, id, p) then Err(Http(409, phoneDetail))
      else Commit(db, id, UpdatedRow(t, p, userId))
  }

  /** The message the code raises for a phone conflict: the e-mail one. */
  const PhoneDetailAsWritten := EmailInUse
  /** The message it evidently means. */
  const PhoneInUse := "Phone already in use"

  /** The full update as the code has it: a phone conflict is reported with
      the e-mail message, so the two 409s cannot be told apart. */
  function UpdateTechnicianAsWritten(db: map<nat, Technician>, id: nat, p: TechnicianUpdate, userId: int): (r: Result<map<nat, Technician>, Failure>)
    ensures r == UpdateWith(db, id, p, userId, PhoneDetailAsWritten)
    ensures id in db && (EmailConflict(db, id, p) || PhoneConflict(db, id, p)) ==> r == Err(Http(409, EmailInUse))
  {
    UpdateWith(db, id, p, userId, PhoneDetailAsWritten)
  }

  /** The full update, with a phone conflict reported as such. */
  function UpdateTechnician(db: map<nat, Technician>, id: nat, p: TechnicianUpdate, userId: int): (r: Result<map<nat, Technician>, Failure>)
    ensures r == UpdateWith(db, id, p, userId, PhoneInUse)
    ensures id in db && !EmailConflict(db, id, p) && PhoneConflict(db, id, p) ==> r == Err(Http(409, PhoneInUse))
  {
    UpdateWith(db, id, p, userId, PhoneInUse)
  }

  /** Two rows: 1 with `a@x.io` / `111`, 2 with `b@x.io` / `222`. */
  function ConflictTable(): map<nat, Technician> {
    var base := Technician(Some("A"), Some("A"), Some("a@x.io"), Some("111"), None, Some(true), None, None, None, None);
    map[1 := base, 2 := base.(email := Some("b@x.io"), phone := Some("222"))]
  }

  /** As written, giving technician 2 technician 1's phone while keeping its
      own e-mail is reported as an e-mail conflict. */
  lemma PhoneConflictReportedAsEmail()
    ensures UpdateTechnicianAsWritten(ConflictTable(), 2, TechnicianUpdate(Some("B"), Some("B"), Some("b@x.io"), Some("111"), None, Some(true)), 7)
      == Err(Http(409, EmailInUse))
  {
    var db := ConflictTable();
    var p := TechnicianUpdate(Some("B"), Some("B"), Some("b@x.io"), Some("111"), None, Some(true));
    assert !Changes(p.email, db[2].email);
    assert db[1].phone == Some("111");
    assert PhoneTaken(db, 2, "111");
  }

  /** With the corrected message, the 409 detail names the field in conflict. */
  lemma ConflictDetailNamesField(db: map<nat, Technician>, id: nat, p: TechnicianUpdate, userId: int)
    ensures UpdateTechnician(db, id, p, userId) == Err(Http(409, EmailInUse)) ==> id in db && EmailConflict(db, id, p)
    ensures UpdateTechnician(db, id, p, userId) == Err(Http(409, PhoneInUse)) ==> id in db && PhoneConflict(db, id, p)
  {
  }

  /** A successful update keeps e-mail unique and, when it was, phone unique. */
  lemma UpdateConsistent(db: map<nat, Technician>, id: nat, p: TechnicianUpdate, userId: int)
    requires Consistent(db) && UpdateTechnician(db, id, p, userId).Ok?
    ensures Consistent(UpdateTechnician(db, id, p, userId).value)
    ensures PhonesUnique(db) ==> PhonesUnique(UpdateTechnician(db, id, p, userId).value)
  {
    var row := UpdatedRow(db[id], p, userId);
    CommitConsistent(db, id, row);
    var r := UpdateTechnician(db, id, p, userId).value;
    if PhonesUnique(db) {
      forall a, b | a in r && b in r && a != b && r[a].phone.Some? ensures r[a].phone != r[b].phone {
        if a == id || b == id {
          var o := if a == id then b else a;
          assert o in db && o != id;
          if Changes(p.phone, db[id].phone) {
            assert !PhoneTaken(db, id, p.phone.value);
          }
        }
      }
    }
  }

  /** A null first name gets past the service's checks and fails at commit. */
  lemma UpdateNullNameFailsAtCommit(db: map<nat, Technician>, id: nat, p: TechnicianUpdate, userId: int)
    requires id in db && p.firstName.None?
    requires !EmailConflict(db, id, p) && !PhoneConflict(db, id, p)
    ensures UpdateTechnician(db, id, p, userId) == Err(Integrity("first_name"))
  {
  }

  // ------------------------------------------------------------------ PATCH

  datatype TechnicianPatch = TechnicianPatch(
    firstName: Supplied<Option<string>>, lastName: Supplied<Option<string>>,
    email: Supplied<Option<string>>, phone: Supplied<Option<string>>,
    isActive: Supplied<Option<bool>>, skills: Supplied<Option<seq<string>>>,
    hourlyRate: Supplied<Option<real>>)

  const Patchable: set<string> := {"first_name", "last_name", "email", "phone", "is_active", "skills", "hourly_rate"}

  function KeyIf<T>(s: Supplied<T>, name: string): (r: seq<string>)
    ensures r == [] <==> s.Unset?
    ensures r != [] ==> r == [name]
  {
    if s.Set? then [name] else []
  }

  /** A key outside the PATCH whitelist. */
  predicate Unsupported(k: string) { k !in Patchable }

  /** The keys of the dumped body (`exclude_unset`), in declaration order. */
  function SuppliedKeys(p: TechnicianPatch): (r: seq<string>)
    ensures r == [] <==> p == TechnicianPatch(Unset, Unset, Unset, Unset, Unset, Unset, Unset)
    ensures forall k :: k in r ==> k in Patchable
  {
    KeyIf(p.firstName, "first_name") + KeyIf(p.lastName, "last_name") + KeyIf(p.email, "email")
    + KeyIf(p.phone, "phone") + KeyIf(p.isActive, "is_active") + KeyIf(p.skills, "skills")
    + KeyIf(p.hourlyRate, "hourly_rate")
  }

  /** The whitelist filter finds nothing in a parsed patch's keys. */
  lemma NoUnsupportedKeys(p: TechnicianPatch)
    ensures Filter(SuppliedKeys(p), Unsupported) == []
  {
    FilterDropsAll(SuppliedKeys(p), Unsupported);
  }

  const UnsupportedPrefix := "Unsupported field(s): "

  /** The 422 detail for keys outside the whitelist: sorted, comma-joined. */
  function UnsupportedDetail(invalid: seq<string>): (r: string)
    ensures |r| >= |UnsupportedPrefix| && r[..|UnsupportedPrefix|] == UnsupportedPrefix
    ensures r[|UnsupportedPrefix|..] == Join(SortBy(invalid, Same, Asc), ", ")
  {
    var tail := Join(SortBy(invalid, Same, Asc), ", ");
    assert (UnsupportedPrefix + tail)[|UnsupportedPrefix|..] == tail;
    UnsupportedPrefix + tail
  }

  /** Each supplied field set to its value (null included), the rest kept. */
  function Applied(t: Technician, p: TechnicianPatch): (r: Technician)
    ensures r.firstName == (if p.firstName.Set? then p.firstName.value else t.firstName)
    ensures r.lastName == (if p.lastName.Set? then p.lastName.value else t.lastName)
    ensures r.email == (if p.email.Set? then p.email.value else t.email)
    ensures r.phone == (if p.phone.Set? then p.phone.value else t.phone)
    ensures r.isActive == (if p.isActive.Set? then p.isActive.value else t.isActive)
    ensures r.skills == (if p.skills.Set? then p.skills.value else t.skills)
    ensures r.hourlyRate == (if p.hourlyRate.Set? then p.hourlyRate.value else t.hourlyRate)
    ensures r.createdBy == t.createdBy && r.updatedBy == t.updatedBy && r.updatedAt == t.updatedAt
  {
    Technician(
      if p.firstName.Set? then p.firstName.value else t.firstName,
      if p.lastName.Set? then p.lastName.value else t.lastName,
      if p.email.Set? then p.email.value else t.email,
      if p.phone.Set? then p.phone.value else t.phone,
      if p.skills.Set? then p.skills.value else t.skills,
      if p.isActive.Set? then p.isActive.value else t.isActive,
      if p.hourlyRate.Set? then p.hourlyRate.value else t.hourlyRate,
      t.createdBy, t.updatedBy, t.updatedAt)
  }

  /** A constraint violation at commit becomes 409 when it concerns the
      e-mail column and 400 otherwise, with the same detail. */
  function PatchFailure(f: Failure): (r: Failure)
    ensures r.Http? && r.detail == EmailInUse
    ensures r.status == 409 <==> f == Integrity("email")
    ensures r.status != 409 ==> r.status == 400
  {
    if f == Integrity("email") then Http(409, EmailInUse) else Http(400, EmailInUse)
  }

  /** The row a successful PATCH writes: the supplied fields, the time of
      the call and the caller as last editor. */
  function Patched(t: Technician, p: TechnicianPatch, userId: int, now: Timestamp): (r: Technician)
    ensures r.updatedAt == Some(now) && r.updatedBy == Some(userId)
    ensures r.(updatedAt := t.updatedAt, updatedBy := t.updatedBy) == Applied(t, p)
  {
    Applied(t, p).(updatedAt := Some(now), updatedBy := Some(userId))
  }

  /** The commit of a PATCH, its constraint violations turned into HTTP errors. */
  function PatchCommit(db: map<nat, Technician>, id: nat, row: Technician): (r: Result<map<nat, Technician>, Failure>)
    ensures r.Ok? <==> Commit(db, id, row).Ok?
    ensures r.Ok? ==> r.value == Commit(db, id, row).value
    ensures r.Err? ==> r.error == PatchFailure(Commit(db, id, row).error)
  {
    var c := Commit(db, id, row);
    if c.Ok? then Ok(c.value) else Err(PatchFailure(c.error))
  }

  function PatchTechnician(db: map<nat, Technician>, id: nat, p: TechnicianPatch, userId: int, now: Timestamp): (r: Result<map<nat, Technician>, Failure>)
    ensures id !in db ==> r == Err(Http(404, NotFound))
    ensures id in db && SuppliedKeys(p) == [] ==> r == Err(Http(422, "No valid fields to update"))
    ensures r.Ok? ==> id in db && SuppliedKeys(p) != []
    ensures id in db && SuppliedKeys(p) != [] ==> r == PatchCommit(db, id, Patched(db[id], p, userId, now))
    ensures r.Ok? ==> r.value.Keys == db.Keys && r.value[id] == Patched(db[id], p, userId, now)
    ensures r.Ok? ==> forall k :: k in db && k != id ==> r.value[k] == db[k]
  {
    if id !in db then Err(Http(404, NotFound))
    else
      var keys := SuppliedKeys(p);
      if keys == [] then Err(Http(422, "No valid fields to update"))
      else
        var invalid := Filter(keys, Unsupported);
        NoUnsupportedKeys(p);
        if invalid != [] then Err(Http(422, UnsupportedDetail(invalid)))
        else PatchCommit(db, id, Patched(db[id], p, userId, now))
  }

  /** Past the checks, a PATCH fails only at commit, with the e-mail detail. */
  lemma PatchCommitFailure(db: map<nat, Technician>, id: nat, p: TechnicianPatch, userId: int, now: Timestamp)
    requires id in db && SuppliedKeys(p) != [] && PatchTechnician(db, id, p, userId, now).Err?
    ensures PatchTechnician(db, id, p, userId, now).error.Http?
    ensures PatchTechnician(db, id, p, userId, now).error.detail == EmailInUse
  {
    NoUnsupportedKeys(p);
  }

  /** The whitelist check never fires: a parsed patch only has whitelisted keys. */
  lemma PatchNeverUnsupported(db: map<nat, Technician>, id: nat, p: TechnicianPatch, userId: int, now: Timestamp)
    ensures var r := PatchTechnician(db, id, p, userId, now);
      r.Err? && r.error.Http? && r.error.status == 422 ==> r.error.detail == "No valid fields to update"
  {
    NoUnsupportedKeys(p);
  }

  lemma PatchConsistent(db: map<nat, Technician>, id: nat, p: TechnicianPatch, userId: int, now: Timestamp)
    requires Consistent(db) && PatchTechnician(db, id, p, userId, now).Ok?
    ensures Consistent(PatchTechnician(db, id, p, userId, now).value)
  {
    NoUnsupportedKeys(p);
    CommitConsistent(db, id, Patched(db[id], p, userId, now));
  }

  /** Applying the same patch twice gives the row applying it once does. */
  lemma AppliedIdempotent(t: Technician, p: TechnicianPatch)
    ensures Applied(Applied(t, p), p) == Applied(t, p)
  {
  }

  /** PATCH does not check phones: it can give two rows the same number. */
  lemma PatchIgnoresPhoneUniqueness()
    ensures PhonesUnique(ConflictTable())
    ensures var r := PatchTechnician(ConflictTable(), 2, TechnicianPatch(Unset, Unset, Unset, Set(Some("111")), Unset, Unset, Unset), 7, "t");
      r.Ok? && !PhonesUnique(r.value)
  {
    var db := ConflictTable();
    var p := TechnicianPatch(Unset, Unset, Unset, Set(Some("111")), Unset, Unset, Unset);
    assert !EmailTaken(db, 2, "b@x.io");
    var r := PatchTechnician(db, 2, p, 7, "t");
    assert r.Ok?;
    assert r.value[1].phone == r.value[2].phone;
  }

  // ----------------------------------------------------------------- delete

  function DeleteTechnician(db: map<nat, Technician>, id: nat): (r: Result<map<nat, Technician>, Failure>)
    ensures r.Err? <==> id !in db
    ensures r.Err? ==> r.error == Http(404, NotFound)
    ensures r.Ok? ==> r.value.Keys == db.Keys - {id}
    ensures r.Ok? ==> forall k :: k in r.value ==> r.value[k] == db[k]
  {
    Delete(db, id, NotFound)
  }

  lemma DeleteConsistent(db: map<nat, Technician>, id: nat)
    requires Consistent(db) && PhonesUnique(db) && DeleteTechnician(db, id).Ok?
    ensures Consistent(DeleteTechnician(db, id).value) && PhonesUnique(DeleteTechnician(db, id).value)
  {
  }

  // ------------------------------------------------------- list: ordering

  datatype OrderBy = OrderBy(attr: string, dir: Direction)

  const DefaultOrder := [OrderBy("first_name", Asc), OrderBy("last_name", Asc)]

  /** One sort entry: a leading `-` means descending on the rest. */
  function Clause(field: string): (c: OrderBy)
    ensures |field| > 0 && field[0] == '-' ==> c == OrderBy(field[1..], Desc)
    ensures !(|field| > 0 && field[0] == '-') ==> c == OrderBy(field, Asc)
  {
    if |field| > 0 && field[0] == '-' then OrderBy(field[1..], Desc) else OrderBy(field, Asc)
  }

  function Clauses(fields: seq<string>): (r: seq<OrderBy>)
    ensures |r| == |fields| && forall i :: 0 <= i < |fields| ==> r[i] == Clause(fields[i])
  {
    if |fields| == 0 then [] else [Clause(fields[0])] + Clauses(fields[1..])
  }

  /** The ORDER BY of the list query; `hasAttr` is the model's attribute
      test. An absent or empty spec orders by first then last name; otherwise
      entries naming no attribute are skipped, and if none is left the query
      has no ORDER BY at all (the empty result). */
  function OrderSpec(sort: Option<seq<string>>, hasAttr: string -> bool): (r: seq<OrderBy>)
    ensures sort.None? || sort == Some([]) ==> r == DefaultOrder
    ensures sort.Some? && sort.value != [] ==> IsSubsequence(r, Clauses(sort.value))
    ensures sort.Some? && sort.value != [] ==>
      forall c :: c in r <==> c in Clauses(sort.value) && hasAttr(c.attr)
  {
    if sort.None? || sort.value == [] then DefaultOrder
    else Filter(Clauses(sort.value), Known(hasAttr))
  }

  /** The clauses whose attribute the model class has. */
  function Known(hasAttr: string -> bool): OrderBy -> bool {
    (c: OrderBy) => hasAttr(c.attr)
  }

  /** The entry that asks for a clause. */
  function Render(c: OrderBy): string {
    if c.dir == Desc then "-" + c.attr else c.attr
  }

  function RenderAll(cs: seq<OrderBy>): (r: seq<string>)
    ensures |r| == |cs| && forall i :: 0 <= i < |cs| ==> r[i] == Render(cs[i])
  {
    if |cs| == 0 then [] else [Render(cs[0])] + RenderAll(cs[1..])
  }

  /** An attribute name that does not start with `-`. */
  predicate PlainAttr(c: OrderBy) {
    c.attr == "" || c.attr[0] != '-'
  }

  lemma ClauseOfRender(c: OrderBy)
    requires PlainAttr(c)
    ensures Clause(Render(c)) == c
  {
    if c.dir == Desc {
      assert Render(c)[1..] == c.attr;
    }
  }

  lemma ClausesOfRendered(cs: seq<OrderBy>)
    requires forall i :: 0 <= i < |cs| ==> PlainAttr(cs[i])
    ensures Clauses(RenderAll(cs)) == cs
  {
    forall i | 0 <= i < |cs| ensures Clauses(RenderAll(cs))[i] == cs[i] {
      ClauseOfRender(cs[i]);
    }
  }

  /** Rendering then parsing a non-empty list of known clauses with plain
      attribute names gives it back. */
  lemma OrderSpecOfRendered(cs: seq<OrderBy>, hasAttr: string -> bool)
    requires cs != []
    requires forall i :: 0 <= i < |cs| ==> hasAttr(cs[i].attr) && PlainAttr(cs[i])
    ensures OrderSpec(Some(RenderAll(cs)), hasAttr) == cs
  {
    OrderSpecOfNonEmpty(RenderAll(cs), hasAttr);
    ClausesOfRendered(cs);
    KnownKeepsAll(cs, hasAttr);
  }

  lemma OrderSpecOfNonEmpty(sort: seq<string>, hasAttr: string -> bool)
    requires sort != []
    ensures OrderSpec(Some(sort), hasAttr) == Filter(Clauses(sort), Known(hasAttr))
  {
  }

  lemma KnownKeepsAll(cs: seq<OrderBy>, hasAttr: string -> bool)
    requires forall i :: 0 <= i < |cs| ==> hasAttr(cs[i].attr)
    ensures Filter(cs, Known(hasAttr)) == cs
  {
    assert forall i :: 0 <= i < |cs| ==> Known(hasAttr)(cs[i]);
    FilterKeepsAll(cs, Known(hasAttr));
  }

  /** A spec naming only unknown attributes drops ordering altogether rather
      than falling back to the default. */
  lemma UnknownOnlySpecIsUnordered(sort: seq<string>, hasAttr: string -> bool)
    requires sort != [] && forall i :: 0 <= i < |sort| ==> !hasAttr(Clause(sort[i]).attr)
    ensures OrderSpec(Some(sort), hasAttr) == []
  {
    FilterDropsAll(Clauses(sort), Known(hasAttr));
  }

  // --------------------------------------------------------- list: paging

  datatype Page<T> = Page(items: seq<T>, page: int, pageSize: nat, total: nat)

  /** `max(0, (page - 1) * page_size)`. */
  function Offset(page: int, pageSize: nat): (r: nat)
    ensures page >= 1 ==> r == (page - 1) * pageSize
    ensures page < 1 ==> r == 0
  {
    if page < 1 then 0 else (page - 1) * pageSize
  }

  /** OFFSET then LIMIT over the ordered, filtered rows; `total` counts them all. */
  function ListPage<T>(rows: seq<T>, page: int, pageSize: nat): (r: Page<T>)
    ensures r.total == |rows| && r.page == page && r.pageSize == pageSize
    ensures |r.items| <= pageSize
    ensures Offset(page, pageSize) >= |rows| ==> r.items == []
    ensures Offset(page, pageSize) < |rows| ==> r.items == rows[Offset(page, pageSize)..Min(Offset(page, pageSize) + pageSize, |rows|)]
  {
    var lo := Min(Offset(page, pageSize), |rows|);
    var hi := Min(Offset(page, pageSize) + pageSize, |rows|);
    Page(rows[lo..hi], page, pageSize, |rows|)
  }

  /** Pages 1 to n, one after the other. */
  function Pages<T>(rows: seq<T>, pageSize: nat, n: nat): seq<T> {
    if n == 0 then [] else Pages(rows, pageSize, n - 1) + ListPage(rows, n, pageSize).items
  }

  /** The first n pages are the first n * pageSize rows. */
  lemma {:induction false} PagesArePrefix<T>(rows: seq<T>, pageSize: nat, n: nat)
    ensures Pages(rows, pageSize, n) == rows[..Min(n * pageSize, |rows|)]
  {
    if n > 0 {
      PagesArePrefix(rows, pageSize, n - 1);
      var lo := Min((n - 1) * pageSize, |rows|);
      var hi := Min(n * pageSize, |rows|);
      assert Offset(n, pageSize) == (n - 1) * pageSize;
      assert n * pageSize == (n - 1) * pageSize + pageSize;
      assert ListPage(rows, n, pageSize).items == rows[lo..hi];
      assert rows[..lo] + rows[lo..hi] == rows[..hi];
    }
  }

  /** Enough pages reproduce every row, in order, each once. */
  lemma PagesCoverAll<T>(rows: seq<T>, pageSize: nat, n: nat)
    requires n * pageSize >= |rows|
    ensures Pages(rows, pageSize, n) == rows
  {
    PagesArePrefix(rows, pageSize, n);
  }

  /** Every page number below 1 reads the first page. */
  lemma LowPagesReadFirstPage<T>(rows: seq<T>, page: int, pageSize: nat)
    requires page < 1
    ensures ListPage(rows, page, pageSize).items == ListPage(rows, 1, pageSize).items
  {
  }
}

=== FILE: text.dfy ===
/** Character and string helpers shared by the whole model: whitespace,
    ASCII lower-casing, trimming, substring search, joining, splitting,
    lexicographic order and decimal rendering. */
module Text {

  /** The ASCII whitespace characters (JS `\s`, Python `str.strip`), restricted to ASCII. */
  predicate IsSpace(c: char) {
    c == ' ' || c == '\t' || c == '\n' || c == '\r' || c == '\U{000B}' || c == '\U{000C}'
  }

  predicate AllSpace(s: string) {
    forall i :: 0 <= i < |s| ==> IsSpace(s[i])
  }

  predicate NoSpace(s: string) {
    forall i :: 0 <= i < |s| ==> !IsSpace(s[i])
  }

  predicate IsDigit(c: char) {
    '0' <= c <= '9'
  }

  predicate AllDigits(s: string) {
    forall i :: 0 <= i < |s| ==> IsDigit(s[i])
  }

  /** ASCII lower-casing of one character. */
  function LowerChar(c: char): (r: char)
    ensures 'A' <= c <= 'Z' ==> r as int == c as int + 32
    ensures !('A' <= c <= 'Z') ==> r == c
    ensures !('A' <= r <= 'Z')
  {
    if 'A' <= c <= 'Z' then (c as int + 32) as char else c
  }

  /** A non-empty string: what JavaScript's `filter(Boolean)` keeps. */
  predicate NonEmpty(s: string) {
    s != ""
  }

  /** The identity on strings, as a sort or de-duplication key. */
  function Same(s: string): string {
    s
  }

  /** `toLowerCase()` / `lower()`, restricted to ASCII letters. */
  function Lower(s: string): (r: string)
    ensures |r| == |s|
    ensures forall i :: 0 <= i < |s| ==> r[i] == LowerChar(s[i])
  {
    if |s| == 0 then "" else [LowerChar(s[0])] + Lower(s[1..])
  }

  lemma {:induction false} LowerIdempotent(s: string)
    ensures Lower(Lower(s)) == Lower(s)
  {
    if |s| > 0 {
      LowerIdempotent(s[1..]);
      assert Lower(s)[1..] == Lower(s[1..]);
    }
  }

  /** The index of the first non-whitespace character at or after `i`, or
      `|s|` when there is none. */
  function SkipSpaces(s: string, i: nat): (r: nat)
    requires i <= |s|
    ensures i <= r <= |s|
    ensures forall k :: i <= k < r ==> IsSpace(s[k])
    ensures r == |s| || !IsSpace(s[r])
    decreases |s| - i
  {
    if i < |s| && IsSpace(s[i]) then SkipSpaces(s, i + 1) else i
  }

  /** The index just past the last non-whitespace character before `j`, not
      going below `lo`. */
  function SkipSpacesBack(s: string, lo: nat, j: nat): (r: nat)
    requires lo <= j <= |s|
    ensures lo <= r <= j
    ensures forall k :: r <= k < j ==> IsSpace(s[k])
    ensures r == lo || !IsSpace(s[r - 1])
  {
    if lo < j && IsSpace(s[j - 1]) then SkipSpacesBack(s, lo, j - 1) else j
  }

  /** Where the trimmed text starts and ends inside `s`. */
  function TrimFrom(s: string): nat
    ensures TrimFrom(s) <= |s|
  {
    SkipSpaces(s, 0)
  }

  function TrimTo(s: string): nat
    ensures TrimFrom(s) <= TrimTo(s) <= |s|
  {
    SkipSpacesBack(s, TrimFrom(s), |s|)
  }

  /** `trim()` / `strip()`: the string without its leading and trailing whitespace. */
  function Trim(s: string): (r: string)
    ensures |r| <= |s|
    ensures r == "" || (!IsSpace(r[0]) && !IsSpace(r[|r| - 1]))
    ensures r == "" <==> AllSpace(s)
  {
    var i, j := TrimFrom(s), TrimTo(s);
    assert i == j ==> AllSpace(s) by {
      if i == j {
        forall k | 0 <= k < |s| ensures IsSpace(s[k]) {
        }
      }
    }
    s[i..j]
  }

  /** `s` is the trimmed text with only whitespace on either side. */
  lemma TrimSplits(s: string)
    ensures var i, j := TrimFrom(s), TrimTo(s);
      Trim(s) == s[i..j] && s == s[..i] + Trim(s) + s[j..] && AllSpace(s[..i]) && AllSpace(s[j..])
  {
    var i, j := TrimFrom(s), TrimTo(s);
    assert Trim(s) == s[i..j];
    assert s == s[..i] + s[i..j] + s[j..];
    SpacesBetween(s, 0, i);
    SpacesBetween(s, j, |s|);
  }

  /** A run of characters that the scans above passed over is whitespace. */
  lemma SpacesBetween(s: string, lo: nat, hi: nat)
    requires lo <= hi <= |s|
    requires forall k :: lo <= k < hi ==> IsSpace(s[k])
    ensures AllSpace(s[lo..hi])
  {
    forall k | 0 <= k < hi - lo ensures IsSpace(s[lo..hi][k]) {
      assert s[lo..hi][k] == s[lo + k];
    }
  }

  /** Conversely, whitespace around a text with non-space ends is exactly what
      trimming removes. */
  lemma {:induction false} TrimUnique(a: string, r: string, b: string)
    requires AllSpace(a) && AllSpace(b)
    requires r == "" || (!IsSpace(r[0]) && !IsSpace(r[|r| - 1]))
    ensures Trim(a + r + b) == r
  {
    var s := a + r + b;
    if r == "" {
      forall k | 0 <= k < |s| ensures IsSpace(s[k]) {
        if k < |a| {
          assert s[k] == a[k];
        } else {
          assert s[k] == b[k - |a|];
        }
      }
    } else {
      var i, j := |a|, |a| + |r|;
      assert s[i] == r[0] && s[j - 1] == r[|r| - 1];
      forall k | 0 <= k < i ensures IsSpace(s[k]) {
        assert s[k] == a[k];
      }
      forall k | j <= k < |s| ensures IsSpace(s[k]) {
        assert s[k] == b[k - j];
      }
      assert TrimFrom(s) == i;
      assert TrimTo(s) == j;
      assert s[i..j] == r;
    }
  }

  lemma TrimOfTrimmed(s: string)
    requires s == "" || (!IsSpace(s[0]) && !IsSpace(s[|s| - 1]))
    ensures Trim(s) == s
  {
    TrimUnique("", s, "");
    assert "" + s + "" == s;
  }

  /** Trimming only removes characters. */
  lemma TrimChars(s: string)
    ensures forall c :: c in Trim(s) ==> c in s
  {
    var i, j := TrimFrom(s), TrimTo(s);
    var r := s[i..j];
    forall c | c in r ensures c in s {
      var k :| 0 <= k < |r| && r[k] == c;
      assert s[i + k] == c;
    }
  }

  /** A leading space makes no difference to the trimmed result. */
  lemma TrimLeadingSpace(s: string)
    ensures Trim(" " + s) == Trim(s)
  {
    TrimSplits(s);
    var i, j := TrimFrom(s), TrimTo(s);
    var a, b := s[..i], s[j..];
    assert AllSpace(" " + a) by {
      forall k | 0 <= k < |" " + a| ensures IsSpace((" " + a)[k]) {
        if k > 0 {
          assert (" " + a)[k] == a[k - 1];
        }
      }
    }
    assert " " + s == (" " + a) + Trim(s) + b;
    TrimUnique(" " + a, Trim(s), b);
  }

  lemma TrimIdempotent(s: string)
    ensures Trim(Trim(s)) == Trim(s)
  {
    TrimOfTrimmed(Trim(s));
  }

  /** Every element trimmed (`map(s => s.trim())`). */
  function TrimAll(parts: seq<string>): (r: seq<string>)
    ensures |r| == |parts|
    ensures forall i :: 0 <= i < |parts| ==> r[i] == Trim(parts[i])
  {
    if |parts| == 0 then [] else [Trim(parts[0])] + TrimAll(parts[1..])
  }

  predicate StartsWith(s: string, prefix: string) {
    |prefix| <= |s| && s[..|prefix|] == prefix
  }

  /** JS `includes` / SQL-free substring search. */
  predicate Contains(hay: string, needle: string)
    decreases |hay|
  {
    StartsWith(hay, needle) || (|hay| > 0 && Contains(hay[1..], needle))
  }

  /** `needle` occurs in `hay` starting at index `i`. */
  predicate OccursAt(hay: string, needle: string, i: int) {
    0 <= i <= |hay| - |needle| && hay[i..i + |needle|] == needle
  }

  /** The search agrees with the positional definition of "is a substring". */
  lemma {:induction false} ContainsIffOccursAt(hay: string, needle: string)
    ensures Contains(hay, needle) <==> exists i :: OccursAt(hay, needle, i)
    decreases |hay|
  {
    if StartsWith(hay, needle) {
      assert OccursAt(hay, needle, 0);
    } else if |hay| == 0 {
    } else {
      ContainsIffOccursAt(hay[1..], needle);
      if exists i :: OccursAt(hay, needle, i) {
        var i :| OccursAt(hay, needle, i);
        assert i != 0;
        assert hay[1..][i - 1..i - 1 + |needle|] == needle;
        assert OccursAt(hay[1..], needle, i - 1);
      }
      if exists j :: OccursAt(hay[1..], needle, j) {
        var j :| OccursAt(hay[1..], needle, j);
        assert hay[j + 1..j + 1 + |needle|] == needle;
        assert OccursAt(hay, needle, j + 1);
      }
    }
  }

  /** `parts.join(sep)`. */
  function Join(parts: seq<string>, sep: string): string {
    if |parts| == 0 then ""
    else if |parts| == 1 then parts[0]
    else parts[0] + sep + Join(parts[1..], sep)
  }

  /** JS `s.split(c)` for a one-character separator. */
  function Split(s: string, c: char): (r: seq<string>)
    ensures |r| >= 1
  {
    if |s| == 0 then [""]
    else
      var rest := Split(s[1..], c);
      if s[0] == c then [""] + rest
      else [[s[0]] + rest[0]] + rest[1..]
  }

  /** Split breaks the string at every separator: the pieces hold no separator
      and joining them with it gives the string back. */
  lemma {:induction false} SplitJoin(s: string, c: char)
    ensures forall i :: 0 <= i < |Split(s, c)| ==> c !in Split(s, c)[i]
    ensures Join(Split(s, c), [c]) == s
    decreases |s|
  {
    if |s| > 0 {
      var rest := Split(s[1..], c);
      SplitJoin(s[1..], c);
      if s[0] == c {
        assert Split(s, c) == [""] + rest;
        assert ([""] + rest)[1..] == rest;
      } else {
        var r := Split(s, c);
        assert r == [[s[0]] + rest[0]] + rest[1..];
        if |rest| == 1 {
          assert Join(r, [c]) == [s[0]] + rest[0] == s;
        } else {
          assert r[1..] == rest[1..];
          assert Join(rest, [c]) == rest[0] + [c] + Join(rest[1..], [c]);
          assert Join(r, [c]) == ([s[0]] + rest[0]) + [c] + Join(rest[1..], [c]);
        }
      }
    }
  }

  /** Conversely, the pieces are the only separator-free pieces joining to the string. */
  lemma {:induction false} SplitUnique(parts: seq<string>, c: char)
    requires |parts| >= 1
    requires forall i :: 0 <= i < |parts| ==> c !in parts[i]
    ensures Split(Join(parts, [c]), c) == parts
    decreases |parts|, |parts[0]|
  {
    var p := parts[0];
    if |p| == 0 {
      if |parts| == 1 {
      } else {
        SplitUnique(parts[1..], c);
        assert Join(parts, [c]) == [c] + Join(parts[1..], [c]);
        assert (Join(parts, [c]))[1..] == Join(parts[1..], [c]);
      }
    } else {
      var parts' := [p[1..]] + parts[1..];
      assert forall i :: 0 <= i < |parts'| ==> c !in parts'[i] by {
        forall i | 0 <= i < |parts'| ensures c !in parts'[i] {
          if i == 0 {
            assert forall x :: x in p[1..] ==> x in p;
          } else {
            assert parts'[i] == parts[i];
          }
        }
      }
      SplitUnique(parts', c);
      JoinUncons(parts, c);
      var s := Join(parts, [c]);
      assert s[1..] == Join(parts', [c]);
      assert Split(s, c) == [[p[0]] + parts'[0]] + parts'[1..];
      assert parts'[1..] == parts[1..];
      assert [p[0]] + p[1..] == p;
      assert parts == [p] + parts[1..];
    }
  }

  /** Moving the first character of the first piece out of a join. */
  lemma JoinUncons(parts: seq<string>, c: char)
    requires |parts| >= 1 && |parts[0]| >= 1
    ensures Join(parts, [c]) == [parts[0][0]] + Join([parts[0][1..]] + parts[1..], [c])
  {
    var p := parts[0];
    var parts' := [p[1..]] + parts[1..];
    if |parts| == 1 {
      assert p == [p[0]] + p[1..];
    } else {
      var rest := Join(parts[1..], [c]);
      assert Join(parts', [c]) == p[1..] + [c] + rest by {
        assert parts'[1..] == parts[1..];
      }
      assert p + [c] + rest == [p[0]] + (p[1..] + [c] + rest) by {
        assert p == [p[0]] + p[1..];
      }
    }
  }

  /** JS `<` on strings and Python's default string order: lexicographic by character. */
  predicate LexLess(a: string, b: string) {
    if |a| == 0 then |b| > 0
    else if |b| == 0 then false
    else a[0] < b[0] || (a[0] == b[0] && LexLess(a[1..], b[1..]))
  }

  lemma {:induction false} LexLessIrreflexive(a: string)
    ensures !LexLess(a, a)
  {
    if |a| > 0 {
      LexLessIrreflexive(a[1..]);
    }
  }

  lemma {:induction false} LexLessTransitive(a: string, b: string, c: string)
    requires LexLess(a, b) && LexLess(b, c)
    ensures LexLess(a, c)
  {
    if |a| > 0 && |b| > 0 && |c| > 0 && a[0] == b[0] && b[0] == c[0] {
      LexLessTransitive(a[1..], b[1..], c[1..]);
    }
  }

  lemma {:induction false} LexLessTotal(a: string, b: string)
    ensures a == b || LexLess(a, b) || LexLess(b, a)
  {
    if |a| > 0 && |b| > 0 && a[0] == b[0] {
      LexLessTotal(a[1..], b[1..]);
      if a[1..] == b[1..] {
        assert a == [a[0]] + a[1..] && b == [b[0]] + b[1..];
      }
    }
  }

  lemma LexLessAsymmetric(a: string, b: string)
    ensures !(LexLess(a, b) && LexLess(b, a))
  {
    if LexLess(a, b) && LexLess(b, a) {
      LexLessTransitive(a, b, a);
      LexLessIrreflexive(a);
    }
  }

  function DigitChar(d: nat): (c: char)
    requires d < 10
    ensures IsDigit(c)
  {
    ('0' as int + d) as char
  }

  /** `String(n)` for an integer. */
  function IntToDecimal(n: int): (r: string)
    ensures |r| > 0
    ensures n >= 0 ==> AllDigits(r)
    ensures n < 0 ==> r[0] == '-'
    decreases if n < 0 then -n + 1 else n
  {
    if n < 0 then "-" + IntToDecimal(-n)
    else if n < 10 then [DigitChar(n)]
    else IntToDecimal(n / 10) + [DigitChar(n % 10)]
  }

  /** The value of a string of decimal digits. */
  function DecimalValue(s: string): nat
    requires AllDigits(s)
  {
    if |s| == 0 then 0
    else
      assert IsDigit(s[|s| - 1]);
      10 * DecimalValue(s[..|s| - 1]) + (s[|s| - 1] as int - '0' as int)
  }

  lemma {:induction false} DecimalRoundTrip(n: nat)
    ensures DecimalValue(IntToDecimal(n)) == n
  {
    if n >= 10 {
      DecimalRoundTrip(n / 10);
      var s := IntToDecimal(n);
      assert s[..|s| - 1] == IntToDecimal(n / 10);
    }
  }
}
